=== FILE: README.md ===
# ipfsrepo core, modelled in Dafny

ipfsrepo is a thin Go layer over the IPFS libraries. It imports files into a
block store, with optional progress reporting. It adapts a block store, watches
how much disk the repository uses, validates datastore specs and filters
`lsblk` output. This project models the logic of those parts as immutable
Dafny datatypes with pure functions, plus a few methods where the source
loops. It proves what each part promises its callers.

- **Import bookkeeping** (`Adder`, `AdderBase`, `AdderWithBar`, `ProgressReader`, `Importer`):
  - the walk over a file tree, with its live-node watermark and memory flushes;
  - where each node is staged in the MFS root, and which root is returned;
  - the byte-counting reader and its `AddEvent`s;
  - the progress aggregator;
  - the result assembled from the set of CIDs reachable from the root;
  - the importer's single-flight guard.
- **Block-store adapter** (`BlockRepo`): save, has-all, ordered delete and delete-all over a map from CID to bytes.
- **Storage-usage monitor** (`Usage`): the size-summing walk, the periodic refresh and the fullness test.
- **Datastore-spec validator** (`Json`, `DatastoreConfig`, `LevelDb`, `FlatFs`, `FsSpec`):
  - the parser registry and the recursive parsers;
  - the sorted mount table;
  - the on-disk projection `DiskSpec`;
  - where `Create` opens each store;
  - the default spec.
- **Block-device filter** (`Lsblk`): the order-preserving filter over the top-level device list, and the check for the `blockdevices` key.

Supporting modules:
- `Results` holds `Option` and `Result`.
- `Cids` holds the block and DAG-node addresses, and structural reachability.
- `GoPath` holds `Base`, `Clean`, `Join` and `IsAbs` of Go's `path/filepath` on Unix, and `Locate`, the path resolution the leveldb and flatfs stores share.
- `Layout` and `Mfs` are small stand-ins for the boxo splitter, the balanced layout and the MFS tree. The adder drives them.

Things the program gets from outside become parameters or inputs:
- the file tree (`Adder.FileNode`, `Usage.FsNode`);
- the underlying reads (`ProgressReader.ReadResult`);
- cancellation and backend faults (`BlockRepo.Cancel`, `BlockRepo.Faults`);
- `cid.Parse`;
- `humanize.Bytes`;
- the lsblk executor and JSON decoder;
- flatfs's shard-function parser, `ds.NewKey` and JSON marshalling.

## Model

| member | source | states |
|---|---|---|
| `BlockRepo.SaveBlock` | block.go:15-23 | On success every input byte string is stored under its own content address. The store's keys grow by exactly those addresses, and every other entry keeps its bytes. A `PutMany` failure is the only error. |
| `BlockRepo.HasBlock` | block.go:26-52 | True exactly when every string parses and names a stored block, with no cancellation or store error (so an empty list gives true). A cancellation, a parse error or a store error stops the walk and gives false. A missing block only clears the result, and the walk goes on to the end. |
| `BlockRepo.HasBlockScenario` | block.go:26-52 | A stored and an unknown address together give false; the stored one alone gives true. |
| `BlockRepo.DeleteBlock` | block.go:55-74 | Deletes in list order. The first cancellation, parse error or delete error stops it and is returned. Exactly the parsed CIDs before that point are removed, and nil is returned only when the whole list was applied. |
| `BlockRepo.ParsedSnoc` | block.go:63-70 | Applying one more deletion removes exactly that entry's parsed CID. |
| `BlockRepo.DeleteAllBlocks` | block.go:77-96 | Deletes the keys the enumeration delivers, in order. An enumeration failure, a cancellation or a delete error is returned at once, and the keys deleted before it are exactly the ones gone. Nil is returned exactly when every delivered key was deleted without cancellation; the store then lacks exactly the delivered keys, and it is empty when they covered it. |
| `Adder.Enter` | pkg/chunker/adder.go:183-194 | A memory flush happens exactly when `liveNodes >= liveCacheSize` on entry, and it resets the counter. After entry `1 <= liveNodes <= liveCacheSize`, and flushes times the cache size plus live nodes grows by one. |
| `Adder.NewAdder` | pkg/chunker/adder.go:73-90 | A new adder has the given chunk size and DAG service, an empty staging root, no calls, readers or events, and a zero watermark. It sends progress exactly when the output option is set. |
| `Adder.AddFileNode` | pkg/chunker/adder.go:180-206 | A directory goes to `addDir`, a symlink to `addSymlink` and a file to `addFile`. Any other kind fails with unknown file type, carrying the adder as it was after entry. On success the MFS calls are the reference plan, the store and event log only grow, and the watermark counts one entry per node. |
| `Adder.AddDir` | pkg/chunker/adder.go:243-269 | Succeeds exactly when every entry is added and the listing does not fail. An entry's failure is returned as the entries left it. A listing error is reported only after all entries succeed, and carries the adder they left. The calls are the reference plan, which never creates the empty top-level path. |
| `Adder.AddDirEntries` | pkg/chunker/adder.go:244-266 | The directory is created with its parents unless it is the top level with an empty path. The entries are then added in order at `path.Join(dir, name)`. |
| `Adder.AddEntries` | pkg/chunker/adder.go:259-266 | Entries from index `i` are added in iterator order at `path.Join(dir, name)`, and the first child error aborts. |
| `Adder.NeverMakesRoot` | pkg/chunker/adder.go:244-257 | No walk from the top asks MFS to create a directory at the empty path. |
| `Adder.PlanProper` | pkg/chunker/adder.go:244-257 | No walk below a proper path asks MFS to create the empty path. |
| `Adder.PlanEntriesProper` | pkg/chunker/adder.go:259-266 | No entry of a directory asks MFS to create the empty path. |
| `Adder.AddNode` | pkg/chunker/adder.go:315-341 | An empty path becomes the base name, and an empty base name is refused by MFS as an empty file name. Otherwise the node is found at that path, and parents are made only for a multi-component path. Nothing but the staging root and the call log changes, and the staged nodes grow by exactly this one. |
| `Adder.MakeDir` | pkg/chunker/adder.go:249-256 | `mfs.Mkdir` with parents: the path then names a directory and the staged nodes are unchanged. The empty path is refused, and a failure leaves the adder as it was. |
| `Adder.WrapReader` | pkg/chunker/adder.go:225-232 | The reader counts bytes only when an output channel is set. It is a `progressReader2` exactly when the file also carries `FileInfo`, and it starts at zero with the event name and size. |
| `Adder.AddFile` | pkg/chunker/adder.go:208-241 | A failing `Size()` fails at once and leaves the adder as it was. A read error fails after the progress events of the bytes delivered before it, without the end-of-file event, and nothing is staged. Otherwise the file's layout root is staged at its placement and the stored blocks grow by what it reaches. The events appended carry the size `Size()` reported, are named by the base name for the empty path, and are sent only when progress is on. |
| `Adder.AddSymlink` | pkg/chunker/adder.go:271-288 | The symlink node is stored in the DAG and staged at its placement. |
| `Adder.Add` | pkg/chunker/adder.go:92-144 | A directory yields the flushed root directory. Anything else yields the root's first child, and an empty root is an error. Everything reachable from the returned root is stored. A failed walk is returned with the adder it reached. |
| `Adder.ChildReach` | pkg/chunker/adder.go:125-127 | The first child's flushed node is reachable from the flushed root. |
| `Adder.FileRootIsLayout` | pkg/chunker/adder.go:111-131 | A single file added to an empty root under a non-empty base name is returned as its own layout root. Its progress events carry the base name. |
| `Adder.EmptyBaseNameRefused` | pkg/chunker/adder.go:315-339 | A file added through a fresh adder, whose base name is still empty, fails: MFS refuses to create a file with an empty name. |
| `Adder.FailureGrows` | pkg/chunker/adder.go:180-206 | A failed walk of any node leaves an adder that only grew from the one it started with: calls, staged nodes, store and events are kept, and the watermark only advanced. |
| `Adder.DirFailureGrows` | pkg/chunker/adder.go:243-269 | A failed directory walk, entries or listing, leaves an adder that only grew. |
| `Adder.EntriesFailureGrows` | pkg/chunker/adder.go:259-266 | When an entry fails, the adder reached there only grew from the one the loop started with. |
| `Adder.EntriesKept` | pkg/chunker/adder.go:259-266 | When entry `k` fails, the MFS calls of every entry before `k` have been made, in order, before the failing one's. |
| `Adder.DirKept` | pkg/chunker/adder.go:244-266 | A failed directory either failed at its own `Mkdir`, leaving the adder unchanged, or made that `Mkdir` and then the calls of every entry before the failing one. |
| `Adder.PartialWalkKept` | pkg/chunker/adder.go:92-144 | A directory holding a one-byte file `a` and then an entry of unknown kind fails with unknown file type. The file stays staged at `/a`, its blocks stay stored, and its progress events stay in the log. |
| `AdderBase.NewFilePath` | pkg/chunker/adder_base.go:40-48 | Wrapping succeeds exactly when the path can be inspected, and then yields exactly one entry. |
| `AdderBase.Walk` | pkg/chunker/adder_base.go:63-80 | The visited-set walk lists every CID reachable from the root, each once. It fails exactly when some reachable CID is not stored, and then names such a CID. |
| `AdderBase.Add` | pkg/chunker/adder_base.go:34-93 | Errors come in source order: expand, stat, size, add, walk. The adder afterwards is the one the add left, on success and on failure alike, and early input errors leave it unchanged. On success:<br>• the file name is the base name of the entry;<br>• the size is the node's size;<br>• the chunk-size label depends on the configured chunk size only;<br>• the root is the adder's root;<br>• the blocks are exactly the reachable CIDs, listed once each and all stored.<br>"No files found" cannot occur once the path is wrapped. |
| `AdderBase.SingleChunkFile` | pkg/chunker/adder_base_test.go:59-73 | A non-empty file that fits in one 1 MiB chunk yields its raw leaf as root, and that root is the only block. |
| `AdderWithBar.HandleOut` | pkg/chunker/adder_withbar.go:104-124 | A completing event (`Bytes == Size`) adds `Size` to `swapSize` and sets `addSize` to it. A partial event sets `addSize = swapSize + Bytes`. Other messages change nothing, and `total` never changes. |
| `AdderWithBar.HandleAllSnoc` | pkg/chunker/adder_withbar.go:104-124 | The bar after a sequence of events is the left fold of `handleOut`: one more event is handled on top of the bar the earlier ones left. |
| `AdderWithBar.Progress` | pkg/chunker/adder_withbar.go:96-102 | 0 when `total == 0`; otherwise `Progress * total == addSize * 100`. |
| `AdderWithBar.ProgressBounded` | pkg/chunker/adder_withbar.go:96-102 | While `0 <= addSize <= total` the percentage is within [0, 100]. |
| `AdderWithBar.ProgressComplete` | pkg/chunker/adder_withbar.go:96-102 | `addSize == total > 0` gives exactly 100. |
| `AdderWithBar.SwapNeverDecreases` | pkg/chunker/adder_withbar.go:115-121 | `swapSize` never decreases while event sizes are non-negative. |
| `AdderWithBar.FileLockedOnce` | pkg/chunker/adder_withbar.go:115-121 | Take a file whose events have strictly growing counts and end at its size. That size is added to `swapSize` exactly once. |
| `AdderWithBar.PartialEventsKeepSwap` | pkg/chunker/adder_withbar.go:115-121 | Events that are all partial (`Bytes != Size`) never add to `swapSize`. |
| `AdderWithBar.FailedFileNotLocked` | pkg/chunker/adder_withbar.go:115-121 | A file whose read fails before the size `Size()` reported was delivered adds nothing to `swapSize`. |
| `AdderWithBar.MebibyteFileCountsTwice` | pkg/chunker/adder_withbar.go:115-119 | The repository's aggregator, fed the events of a 1 MiB file read in one 1 MiB chunk, ends with `swapSize` of 2 MiB and a progress of 200. |
| `AdderWithBar.FixedFileEndsAtHundred` | pkg/chunker/adder_withbar.go:96-121 | With the corrected reader, any non-empty file of any chunk size ends with `addSize` equal to its size and a progress of exactly 100. |
| `AdderWithBar.NewAdderWithBar` | pkg/chunker/adder_withbar.go:22-31 | A new bar has zero totals, and its adder sends progress. |
| `AdderWithBar.Add` | pkg/chunker/adder_withbar.go:33-94 | `total` grows by the entry's size exactly when expansion, stat and size all succeed, before the add runs, so totals accumulate across calls. The result is `AdderBase.Add`'s, and the adder afterwards is the one the add left, also when it failed. The bar afterwards is the previous bar fed the new events. |
| `AdderWithBar.MebibyteFileScenario` | pkg/chunker/adder_withbar.go:33-124 | Adding a 1 MiB file with 1 MiB chunks succeeds, with `total` of 1 MiB but `swapSize` of 2 MiB, so the bar reads 200 percent. |
| `ProgressReader.NewReader` | pkg/chunker/adder.go:226 | A new reader starts with zero counted and zero reported. |
| `ProgressReader.Read` | pkg/chunker/progress_reader.go:25-39 | `bytes` grows by exactly the underlying count, and `(n, err)` are passed through. An event is sent exactly when at least 1 MiB is unreported or the read hit EOF. It carries the path, the running count and the size, and it moves `lastProgress` to the count. |
| `ProgressReader.ReadKeepsWindow` | pkg/chunker/progress_reader.go:28-30 | After any read the unreported count is within [0, 1 MiB). |
| `ProgressReader.ReadAllCounts` | pkg/chunker/progress_reader.go:26-28 | Over many reads, `bytes` is the sum of the underlying counts. |
| `ProgressReader.EventsOrdered` | pkg/chunker/progress_reader.go:29-35 | Every event names the reader's path and size. Counts are non-decreasing and lie between the starting and final counts. |
| `ProgressReader.TotalNonNegative` | pkg/chunker/progress_reader.go:26-28 | Non-negative reads sum to a non-negative total. |
| `ProgressReader.EofEmitsLast` | pkg/chunker/progress_reader.go:29 | When the last read reports EOF, the last event carries the final count. |
| `ProgressReader.Read2Delegates` | pkg/chunker/progress_reader.go:46-48 | `progressReader2.Read` gives the same answer, event and counter update as the wrapped reader. |
| `ProgressReader.ExactMebibyteEmitsTwice` | pkg/chunker/progress_reader.go:29-35 | A 1 MiB file read as one 1 MiB read then an empty EOF read sends two completing events. |
| `ProgressReader.ReadFixed` | pkg/chunker/progress_reader.go:25-39 | The corrected rule: an event at 1 MiB of unreported bytes, or at EOF only if some bytes are unreported. Otherwise it is the same as `Read`. |
| `ProgressReader.FixedCounts` | pkg/chunker/progress_reader.go:26-30 | The corrected reader counts the same bytes and keeps `lastProgress <= bytes`. |
| `ProgressReader.FixedEventsIncrease` | pkg/chunker/progress_reader.go:29-35 | The corrected reader's events have strictly increasing counts, all above the starting report. |
| `ProgressReader.FixedEofLast` | pkg/chunker/progress_reader.go:29-35 | With the corrected reader, if EOF ends the reads and bytes were unreported, the last event carries the final count. |
| `ProgressReader.EventsPositive` | pkg/chunker/progress_reader.go:29-35 | Without an EOF, every event is sent for a full 1 MiB of unreported bytes, so its count is at least 1 MiB. |
| `Layout.Pieces` | pkg/chunker/adder.go:291-292 | The size splitter's pieces concatenate back to the content. They are non-empty and at most the chunk size, all but the last full, and there is at most one exactly when the content fits one chunk. |
| `Layout.SplitterReadsTotal` | pkg/chunker/adder.go:291-292 | The reads the splitter makes of a file add up to the file's length. |
| `Layout.OneChunkReads` | pkg/chunker/adder.go:291-292 | A file of exactly one chunk is read as one full read, then an empty EOF read. |
| `Layout.FileEvents` | pkg/chunker/adder.go:225-234 | The events of adding a file with progress end with the event reporting every delivered byte. All carry the name and the size `Size()` reported, and counts are non-decreasing within [0, bytes delivered]. |
| `Layout.FileEventsFixed` | pkg/chunker/adder.go:225-234 | With the corrected reader a non-empty file's events end with the single completing event and counts strictly increase. An empty file sends none. |
| `Layout.FailedFileEvents` | pkg/chunker/adder.go:225-234 | When the read after the file's content fails, the events sent carry the name and the reported size, counts are non-decreasing, and each is at least 1 MiB and at most the bytes delivered. When the reported size exceeds the bytes delivered, no event reads as a completion. |
| `Layout.FailureLosesCompletion` | pkg/chunker/progress_reader.go:29 | With the single end-of-file read of the stand-in splitter, the events of a file whose last read fails are those of the same file read to EOF, minus the final event that reports every delivered byte. |
| `Mfs.MkdirParents` | pkg/chunker/adder.go:249-256 | Creating a path with parents leaves a directory at it. |
| `Mfs.MkdirKeepsNodes` | pkg/chunker/adder.go:249-256 | Making directories never adds or drops a staged node. |
| `Mfs.PutNode` | pkg/chunker/adder.go:337-339 | An empty path, or an empty file name as the last component, is refused. After a successful `PutNode` the node is found at its path. |
| `Mfs.PutNodeAddsNode` | pkg/chunker/adder.go:337-339 | `PutNode` adds exactly that node to the staged set. |
| `Mfs.FlushReach` | pkg/chunker/adder.go:106-109 | Flushing the root reaches only staged content and the new directory nodes. |
| `Importer.Update` | importer.go:25-27 | `Update` sets the progress and keeps the path name. |
| `Importer.NewImporter` | importer.go:36-43 | A new importer is idle with empty progress info. |
| `Importer.Begin` | importer.go:45-65 | The compare-and-swap starts an idle importer and names the progress after the path's base. A busy one is rejected, and the deferred reset still empties its info. |
| `Importer.SingleFlight` | importer.go:50-52 | A second import while one runs is rejected, and the first stays running. |
| `Importer.FinishReopens` | importer.go:46-54 | After an import finishes, a new one can start. |
| `Importer.Tick` | importer.go:67-76 | A tick copies the bar's progress into the info and changes nothing else. |
| `Importer.Finish` | importer.go:46-54 | Finishing clears `running` and empties the progress info. |
| `Importer.Import` | importer.go:45-84 | While running, an import fails with already-running. Otherwise it runs the progress-bar add, and afterwards the importer is idle with reset info. The store is whatever the add left in the block store, on failure too, so it only grows; the result's blocks are in it, and early input errors leave it untouched. |
| `Importer.PartialImportScenario` | importer.go:45-84 | Importing a directory whose second entry has an unknown kind fails, yet the first entry's block stays in the block store and the importer is idle again. |
| `Usage.GetStorageUsage` | usage.go:98-115 | The walk succeeds exactly when every entry can be reached. It then returns the sum of the sizes of every entry (directories included) modulo 2^64; a failure returns 0. |
| `Usage.NewStorageUsage` | usage.go:33-50 | Fails exactly when the first scan fails. Otherwise the monitor holds the scan's total with a five-minute interval and a 70 percent threshold. |
| `Usage.Tick` | usage.go:86-92 | A failed scan keeps the previous usage; a successful one replaces it and nothing else. |
| `Usage.SetScanInterval` | usage.go:25-27 | Changes the scan interval and nothing else. |
| `Usage.SetThreshold` | usage.go:29-31 | Changes the threshold and nothing else. |
| `Usage.UsagePercentage` | usage.go:68-70 | `percentage * maxStorage == usage * 100` for a positive maximum. A zero maximum gives +Inf for a non-zero usage and NaN for zero. |
| `Usage.IsFull` | usage.go:73-75 | Full when the percentage reaches the threshold. With a zero maximum any usage is full and an empty repository is not, because +Inf passes every threshold and NaN none. |
| `Usage.IsFullCross` | usage.go:73-75 | With a positive maximum, full exactly when `usage * 100 >= threshold * maxStorage`. |
| `Usage.KibibyteAtSeventy` | usage_test.go:21-32 | At 1024 bytes and 70 percent the repository is full exactly from 717 bytes on. |
| `DatastoreConfig.AddHandler` | pkg/fsrepo/config.go:50-58 | A taken name is refused. A fresh one adds exactly that entry and keeps every other. |
| `DatastoreConfig.InitRegistersFive` | pkg/fsrepo/config.go:34-48 | `init` succeeds and registers exactly mount, mem, measure, levelds and flatfs. |
| `DatastoreConfig.RegisterAnotherName` | pkg/fsrepo/config_test.go:8-11 | A fresh name such as `levelds-test` is accepted; an existing one is refused. |
| `DatastoreConfig.AnyConfig` | pkg/fsrepo/config.go:62-72 | A missing or non-string `type` is an error, and so is an unregistered one. A success comes from the registered parser. |
| `DatastoreConfig.ParseMount` | pkg/fsrepo/config.go:86-119 | `mounts` must be an array. A parse succeeds exactly when every element parses, and otherwise reports the first element's error. A parsed mount table is a permutation of the parsed elements, sorted by prefix, largest first. |
| `DatastoreConfig.ParseMountSpec` | pkg/fsrepo/config.go:92-116 | For an array, the table parses exactly when every element does. It then holds one mount per element, as a permutation of the elements' parses; otherwise the error is that of the first failing element. |
| `DatastoreConfig.ParseMountEntry` | pkg/fsrepo/config.go:92-111 | Each element must be a map. Its child must parse, and that error comes first. Then `mountpoint` must be present, and the prefix is its normalised key. |
| `DatastoreConfig.ParseMountsSpec` | pkg/fsrepo/config.go:92-112 | The array parses exactly when every element does, in order. Otherwise the first failing element's error is reported. |
| `DatastoreConfig.SortMounts` | pkg/fsrepo/config.go:113-116 | The sorted table is a permutation of the parsed one, ordered by prefix with no later prefix larger. |
| `DatastoreConfig.StrictlyDescending` | pkg/fsrepo/config.go:113-116 | With distinct prefixes the order is strictly descending. |
| `DatastoreConfig.ParseMeasure` | pkg/fsrepo/config.go:172-186 | Requires a `child` map that parses, whose error comes first, then a string `prefix`. |
| `DatastoreConfig.DiskSpec` | pkg/fsrepo/config.go:121-134 | Only mem, or measure over a config without one, has no disk spec. |
| `DatastoreConfig.MountEntrySpec` | pkg/fsrepo/config.go:124-130 | A mount entry is the child's spec, or an empty map when it has none, plus `mountpoint`. |
| `DatastoreConfig.DiskSpecIsOnDisk` | pkg/fsrepo/config.go:121-190 | A disk spec has no `sync`, `compression`, `prefix` or `child` key at any depth, and no measure or mem type. |
| `DatastoreConfig.Create` | pkg/fsrepo/config.go:136-198 | Creation succeeds exactly when every directory the config opens can be opened. Otherwise it reports the first directory, in the order the config opens them (mounts in table order), that cannot be opened. |
| `DatastoreConfig.DirsAbsolute` | pkg/fsrepo/leveldb.go:47-51 | Under an absolute repository path every directory opened is absolute. That holds for the leveldb stores and for the flatfs stores (pkg/fsrepo/flatfs.go:23-30 does the same), at any depth of mounts and measures. |
| `LevelDb.CompressionOf` | pkg/fsrepo/leveldb.go:25-34 | `none` maps to NoCompression and `snappy` to Snappy. `""`, nil or absent map to Default. Nothing else is accepted. |
| `LevelDb.Parse` | pkg/fsrepo/leveldb.go:15-38 | A missing or non-string `path` is an error, checked first. An unknown compression is an error that carries the value. Otherwise the path and compression are kept. |
| `LevelDb.DiskSpec` | pkg/fsrepo/leveldb.go:40-45 | Exactly `{type: levelds, path}`, without compression. |
| `GoPath.Locate` | pkg/fsrepo/leveldb.go:47-51 | An absolute path is used as it is. A relative one is joined under the repository path, so the result is absolute exactly when one of the two is. flatfs resolves its path the same way (pkg/fsrepo/flatfs.go:23-30). |
| `FlatFs.Parse` | pkg/fsrepo/flatfs.go:32-58 | Checked in order: string `path`, string `shardFunc`, a shard function that parses, boolean `sync`. The first failure is returned. |
| `FlatFs.DiskSpec` | pkg/fsrepo/flatfs.go:15-21 | Exactly `{type: flatfs, path, shardFunc}`. The shard function is in its parsed string form, and `sync` is left out. |
| `GoPath.LocateSettles` | pkg/fsrepo/flatfs.go:23-30 | Under an absolute repository path the resolved directory is absolute, so resolving it again against any repository path gives it back. |
| `FsSpec.DefaultMountsSorted` | pkg/fsrepo/fsspec.go:12-31 | `/blocks` sorts ahead of `/`. |
| `FsSpec.DefaultAccepted` | pkg/fsrepo/fsspec.go:8-35 | The default spec is accepted by the registry that `init` builds. It parses to a mount of the flatfs store at `/blocks` ahead of the leveldb store at `/`. |
| `FsSpec.DefaultProjection` | pkg/fsrepo/fsspec.go:8-35 | The default spec projects to a mount of flatfs `blocks` at `/blocks` then levelds `datastore` at `/`, with no measure, prefix, sync or compression field. |
| `FsSpec.TrimSpace` | pkg/fsrepo/fsspec.go:46 | The result is the input with its leading and trailing white space removed, and it neither starts nor ends with white space. |
| `FsSpec.TrimSpaceIdempotent` | pkg/fsrepo/fsspec.go:46 | Trimming twice is trimming once. |
| `FsSpec.Bytes` | pkg/fsrepo/fsspec.go:40-47 | The encoding has no surrounding white space. |
| `FsSpec.String` | pkg/fsrepo/fsspec.go:50-52 | The text has the same length as `Bytes` and matches it byte for byte. |
| `Lsblk.GetBlockDevices` | pkg/linuxutils/lsblk/lsblk.go:43-64 | Command errors come back as they are, and a decode error is wrapped. Output without the `blockdevices` key is an error; otherwise the result is that key's list. |
| `Lsblk.FilterSpec` | pkg/linuxutils/lsblk/lsblk.go:74-82 | Exactly the matching top-level devices are kept, in order, as a subsequence. Children are never searched. No match gives an empty list. |
| `Lsblk.SearchBlockDevice` | pkg/linuxutils/lsblk/lsblk.go:67-85 | Listing errors pass through unchanged. Otherwise the result is the reference filter: `FSType` and `Label` equal, and a non-empty mountpoint when `hasMountPoint` is set. |
| `GoPath.Base` | pkg/chunker/adder_base.go:56 | The base name is non-empty. It is `.` for the empty path, `/` only for all-slash paths, and otherwise the last slash-free element. |
| `GoPath.BaseIdempotent` | pkg/chunker/adder_base.go:56 | Taking the base name of a base name changes nothing. |

## Left out

- The boxo internals are small stand-ins, because their source is not part of this model:
  - the size splitter, which cuts fixed-size pieces;
  - `balanced.Layout`, which is one leaf for a small file and otherwise one internal node over raw leaves, not a tree of up to 174 links per node;
  - MFS, whose directory entries are kept in insertion order, not sorted by name;
  - `merkledag.Walk`, `cid.Set` and UnixFS encoding.
- CIDs are structural, so the node is inside its address. This idealises multihash as collision-free. CID strings and `cid.Parse` are inputs.
- `Layout.SplitterReads`: the stand-in reads end of file once per file. boxo's builder may poll the reader again after an exact chunk boundary, and each further EOF read sends another event. `Layout.FileEvents` and `Layout.FailureLosesCompletion` therefore describe a single EOF read; with boxo, a file of two or more full chunks sends more completing events, and its failing variant loses more than one.
- DAG-service write failures, `Commit`, `mr.Close` and `GetNode` errors are not modelled. `Adder.Add` therefore never fails after the walk, apart from the empty root.
- `Adder.AddFile`: a file whose read fails stores none of its blocks here; boxo's batch may already have written some leaves.
- `BlockRepo.DeleteAllBlocks`: the key stream runs on the caller's context, and when it closes early the loop returns nil with keys left in the store. The model takes the delivered keys as input and promises an empty store only when they cover it.
- `Adder.Enter`: the flush itself (`FlushMemFree`) and `mfsRoot` errors are not modelled; only the watermark is.
- `AdderWithBar.Add`: `GetChunkSize` is not part of this model; the chunk-size label is a parameter.
- `humanize.Bytes` and `homedir.Expand` are parameters or inputs.
- The concurrency of `handleOut` and of the importer's ticker is not modelled. They are step functions fed events in order; channel buffering and races are out.
- Go's `int64` counters in the reader and the bar are unbounded here.
- `Usage.GetStorageUsage` does model the `uint64` wrap of the usage sum. A negative `Size()` is not modelled.
- Floating point is exact: `Progress` is a `real`, and `UsagePercentage` is a real or the IEEE results of dividing by zero. Rounding in the `uint64`-to-`float64` conversion is out.
- `Usage.UsagePercentage` and `Usage.IsFullCross`: `MaxStorage()` and `Usage()` format with `humanize` and are left out.
- The `StorageUsage.loop` timer and cancellation are left out; one tick is `Usage.Tick`.
- `DatastoreConfig.ParseMountEntry`: a `mountpoint` that is not a string panics in the source. Here it is the error `MountpointNotString`, and no claim is made about the panic.
- `DatastoreConfig.SortMounts`: Go's `sort.Slice` is not stable and leaves equal prefixes in an unspecified order. The model picks one order and proves only what Go guarantees.
- `ds.NewKey` prefix normalisation and flatfs's `ParseShardFunc` are parameters. The default-spec lemmas state the library facts they rely on as preconditions.
- `FsSpec.TrimSpace` trims ASCII white space only. The Unicode spaces of `bytes.TrimSpace` (U+0085, U+00A0 and others) are not modelled, because JSON output never ends in them.
- JSON marshalling is a parameter of `FsSpec.Bytes`.
- Registered parsers are limited to the five built-in kinds. A parser function supplied from outside cannot be modelled.
- `mem`'s and measure's datastores, leveldb and flatfs opening are the library's. `Create` records the directories and settings it would open them with.
- pkg/fsrepo/fsrepo.go and helper.go (lock files, spec-file reads and writes, the writable probe), repo.go, pkg/linuxutils/cmd/cmd.go and pkg/writer/file_writer.go are I/O plumbing and are not part of this model.
- `Lsblk.GetBlockDevices`: the executor and the JSON decoder are parameters. The `omitempty` decoding of devices is the library's.

## Findings

| source | as written | input that shows it | evidently intended | confidence | as-written member | corrected member |
|---|---|---|---|---|---|---|
| pkg/chunker/progress_reader.go:29 | At EOF the reader always sends an event. If the last data read already sent one, the completion is reported at least twice, and `handleOut` adds the file's size to `swapSize` both times. | A 1 MiB file added with 1 MiB chunks, read as one 1 MiB read and then the empty EOF read. Two events with `Bytes == Size` arrive, `swapSize` becomes 2 MiB and `Progress` reads 200. | Each file's completion is reported once, so the bar ends at 100 percent. | not executed | `ProgressReader.ExactMebibyteEmitsTwice`, `AdderWithBar.MebibyteFileCountsTwice`, `AdderWithBar.MebibyteFileScenario` | `ProgressReader.ReadFixed`, `Layout.FileEventsFixed`, `AdderWithBar.FixedFileEndsAtHundred` |

The import walk itself (`Adder`, and through it `AdderBase` and
`AdderWithBar`) keeps the reader as written, so that it stays faithful to
pkg/chunker/adder.go. The corrected reader shows the evidently intended
behaviour and has its properties proved separately.

=== FILE: adder.dfy ===
/**
  The import walk of pkg/chunker/adder.go: the live-node watermark, dispatch
  on the kind of filesystem node, the recursive directory walk, placement of
  every laid-out node in the MFS staging root, and the choice of the root the
  adder returns.

  The `boxo` calls are the stand-ins of modules `Layout` and `Mfs`.  Besides
  the staging tree, the adder records the MFS calls that succeeded, in order
  (`calls`), so that the walk can be compared with an independent plan of it.

  The Go adder is mutated in place, so a failing walk leaves behind whatever
  it did before the failure.  A failure therefore carries the adder as the
  walk left it (`Failure.at`) next to the error.
*/
module Adder {
  import opened Results
  import opened Cids
  import opened ProgressReader
  import opened Layout
  import Mfs

  /** `liveCacheSize` (256 << 10) and the two chunk sizes of pkg/chunker/config.go. */
  const LiveCacheSize: nat := 256 * 1024
  const Chunk1MiB: int := 1024 * 1024
  const Chunk10MiB: int := 10 * 1024 * 1024

  /** A filesystem node as `boxo/files` hands it to the adder.  A directory's
      entries are what its iterator yields before `it.Err()` is consulted;
      `listingFails` is that error.  A regular file's `content` is what its
      reads deliver; with `readFails` the read after them fails instead of
      reporting end of file.  `size` is the answer of its `Size()`, `None`
      when that call fails; it need not equal the bytes delivered.  `absPath`
      is present when the file also implements `files.FileInfo`. */
  datatype FileNode =
    | Directory(entries: seq<DirEntry>, listingFails: bool)
    | Symlink(target: string)
    | RegularFile(content: Bytes, size: Option<int>, absPath: Option<string>, readFails: bool)
    | Unsupported

  datatype DirEntry = DirEntry(name: string, node: FileNode)

  datatype Error =
    | UnknownFileType
    | SizeFailed
    | ListingFailed
    | ReadFailed
    | NoRootChild
    | StagingFailed(cause: Mfs.Error)

  /** An MFS call the walk made. */
  datatype Call = MkdirCall(path: Mfs.Path) | PutCall(path: Mfs.Path, cid: Cid)

  datatype Adder = Adder(
    chunkSize: int,
    liveNodes: nat,
    memFlushes: nat,
    baseName: string,
    progress: bool,
    root: seq<Mfs.Entry>,
    dag: set<Cid>,
    calls: seq<Call>,
    readers: seq<FileReader>,
    events: seq<AddEvent>)

  /** A failed walk: the error and the adder as the walk left it. */
  datatype Failure = Failed(at: Adder, cause: Error)

  /** `newAdder`: an empty staging root over the DAG service's blocks; `progress`
      says whether `Out` is set. */
  function NewAdder(chunkSize: int, dag: set<Cid>, progress: bool): (a: Adder)
    requires chunkSize > 0
    ensures a.liveNodes == 0 && a.memFlushes == 0 && a.root == [] && a.calls == []
    ensures a.readers == [] && a.events == [] && a.baseName == ""
    ensures a.dag == dag && a.chunkSize == chunkSize && a.progress == progress
  {
    Adder(chunkSize, 0, 0, "", progress, [], dag, [], [], [])
  }

  /** Settings the walk never changes. */
  predicate SameSettings(a: Adder, b: Adder)
  {
    a.chunkSize == b.chunkSize && a.baseName == b.baseName && a.progress == b.progress
  }

  /** `b` is `a` after `n` more nodes were entered: the counter stays in
      `[1, liveCacheSize]` and every entered node is either still counted or
      was freed by a flush. */
  predicate Counted(a: Adder, b: Adder, n: nat)
  {
    && 1 <= b.liveNodes <= LiveCacheSize
    && b.memFlushes * LiveCacheSize + b.liveNodes == a.memFlushes * LiveCacheSize + a.liveNodes + n
  }

  /** `b` grows `a`: same settings, no block dropped from the DAG service, and
      the staged nodes stay backed by it. */
  ghost predicate Grows(a: Adder, b: Adder)
  {
    && SameSettings(a, b) && a.dag <= b.dag && a.events <= b.events && a.calls <= b.calls
    && (Staged(a) ==> Staged(b))
  }

  /** `b` is `a` after placing the non-directory node `c` at `path`: the walk's
      settings and counters are untouched, the node's blocks are in the DAG
      service, and the MFS calls are those of the plan. */
  ghost predicate Leaf(a: Adder, b: Adder, c: Cid, path: Mfs.Path)
  {
    && Grows(a, b) && Reach(c) <= b.dag
    && b.liveNodes == a.liveNodes && b.memFlushes == a.memFlushes
    && b.calls == a.calls + PlanNode(c, path, a.baseName)
  }

  /** The string form of an MFS path, as `path.Join` builds it from clean names. */
  function PathString(p: Mfs.Path): string
  {
    if |p| == 0 then "" else if |p| == 1 then p[0] else PathString(p[..|p| - 1]) + "/" + p[|p| - 1]
  }

  /** Entering `addFileNode`: when the watermark is reached the MFS root frees
      its memory and the counter restarts, then the new node is counted. */
  function Enter(a: Adder): (b: Adder)
    ensures a.liveNodes >= LiveCacheSize ==> b.memFlushes == a.memFlushes + 1 && b.liveNodes == 1
    ensures a.liveNodes < LiveCacheSize ==> b.memFlushes == a.memFlushes && b.liveNodes == a.liveNodes + 1
    ensures a.liveNodes <= LiveCacheSize ==> 1 <= b.liveNodes <= LiveCacheSize
    ensures a.liveNodes <= LiveCacheSize ==>
      b.memFlushes * LiveCacheSize + b.liveNodes == a.memFlushes * LiveCacheSize + a.liveNodes + 1
    ensures b == a.(liveNodes := b.liveNodes, memFlushes := b.memFlushes)
  {
    var a1 := if a.liveNodes >= LiveCacheSize then a.(liveNodes := 0, memFlushes := a.memFlushes + 1) else a;
    a1.(liveNodes := a1.liveNodes + 1)
  }

  /** Number of nodes the walk enters for a node: itself and, for a directory,
      every node below it. */
  function NodeCount(node: FileNode): nat
    decreases node, 1
  {
    match node
    case Directory(entries, _) => 1 + EntriesCount(entries)
    case _ => 1
  }

  function EntriesCount(es: seq<DirEntry>): nat
    decreases es, 0
  {
    if es == [] then 0 else NodeCount(es[0].node) + EntriesCount(es[1..])
  }

  /** Every staged node's blocks are in the DAG service. */
  ghost predicate Staged(a: Adder)
  {
    forall c | c in Mfs.NodeCids(a.root) :: Reach(c) <= a.dag
  }

  /** The MFS calls a successful walk makes, computed from the input alone. */
  function Plan(node: FileNode, path: Mfs.Path, toplevel: bool, baseName: string, chunkSize: int): seq<Call>
    requires chunkSize > 0
    decreases node, 1
  {
    match node
    case Directory(entries, _) => DirHead(path, toplevel) + PlanEntries(entries, path, baseName, chunkSize)
    case Symlink(t) => PlanNode(CidOf(PbSymlink(t)), path, baseName)
    case RegularFile(content, _, _, _) => PlanNode(LayoutRoot(content, chunkSize), path, baseName)
    case Unsupported => []
  }

  /** The directory's own `mfs.Mkdir`, skipped for the top level with an empty path. */
  function DirHead(path: Mfs.Path, toplevel: bool): seq<Call>
  {
    if !(toplevel && path == []) then [MkdirCall(path)] else []
  }

  function PlanEntries(es: seq<DirEntry>, path: Mfs.Path, baseName: string, chunkSize: int): seq<Call>
    requires chunkSize > 0
    decreases es, 0
  {
    if es == [] then []
    else Plan(es[0].node, path + [es[0].name], false, baseName, chunkSize) + PlanEntries(es[1..], path, baseName, chunkSize)
  }

  function Placement(path: Mfs.Path, baseName: string): Mfs.Path
  {
    if path == [] then [baseName] else path
  }

  function PlanNode(c: Cid, path: Mfs.Path, baseName: string): seq<Call>
  {
    var p := Placement(path, baseName);
    (if |p| > 1 then [MkdirCall(p[..|p| - 1])] else []) + [PutCall(p, c)]
  }

  /** An MFS answer inside the walk: a failure leaves the adder `a` behind. */
  function Stage(a: Adder, r: Result<seq<Mfs.Entry>, Mfs.Error>): Result<seq<Mfs.Entry>, Failure>
  {
    match r
    case Ok(es) => Ok(es)
    case Err(e) => Err(Failed(a, StagingFailed(e)))
  }

  /** `addNode`: an empty path becomes the base name, the parent directories
      are made when the path has a parent, and the node is put at the path. */
  function AddNode(a: Adder, c: Cid, filePath: Mfs.Path): (r: Result<Adder, Failure>)
    ensures r.Err? ==> r.error.cause.StagingFailed?
    ensures r.Err? ==> r.error.at == a.(root := r.error.at.root) && Mfs.NodeCids(r.error.at.root) == Mfs.NodeCids(a.root)
    ensures r.Ok? ==> Mfs.Lookup(r.value.root, Placement(filePath, a.baseName)) == Some(Mfs.Node(c))
    ensures r.Ok? ==> r.value == a.(root := r.value.root, calls := a.calls + PlanNode(c, filePath, a.baseName))
    ensures r.Ok? ==> Mfs.NodeCids(r.value.root) == Mfs.NodeCids(a.root) + {c}
    ensures filePath == [] && a.baseName == "" ==> r == Err(Failed(a, StagingFailed(Mfs.EmptyName)))
    ensures a.root == [] && |Placement(filePath, a.baseName)| == 1 && Placement(filePath, a.baseName)[0] != "" ==>
      r == Ok(a.(root := [Mfs.Entry(Placement(filePath, a.baseName)[0], Mfs.Node(c))],
                 calls := a.calls + PlanNode(c, filePath, a.baseName)))
  {
    var p := Placement(filePath, a.baseName);
    assert a.root == [] && |p| == 1 && p[0] != "" ==> Mfs.PutNode(a.root, p, c) == Ok([Mfs.Entry(p[0], Mfs.Node(c))]) by {
      if a.root == [] && |p| == 1 && p[0] != "" {
        assert Mfs.Find(a.root, p[0]) == None;
        assert a.root + [Mfs.Entry(p[0], Mfs.Node(c))] == [Mfs.Entry(p[0], Mfs.Node(c))];
      }
    }
    var root1 :- if |p| > 1 then Stage(a, Mfs.Mkdir(a.root, p[..|p| - 1])) else Ok(a.root);
    assert Mfs.NodeCids(root1) == Mfs.NodeCids(a.root) by {
      if |p| > 1 { Mfs.MkdirKeepsNodes(a.root, p[..|p| - 1]); }
    }
    var root2 :- Stage(a.(root := root1), Mfs.PutNode(root1, p, c));
    Mfs.PutNodeAddsNode(root1, p, c);
    Ok(a.(root := root2, calls := a.calls + PlanNode(c, filePath, a.baseName)))
  }

  /** The reader `addFile` lays a file out through: wrapped for progress only
      when `Out` is set, and in a `progressReader2` when the file carries a
      `FileInfo`. */
  function WrapReader(progress: bool, name: string, size: int, absPath: Option<string>): (f: FileReader)
    ensures f.Plain? <==> !progress
    ensures !f.Plain? ==> f.r == NewReader(name, size)
    ensures f.CountingWithInfo? <==> progress && absPath.Some?
  {
    if !progress then Plain
    else if absPath.Some? then CountingWithInfo(NewReader(name, size), absPath.value)
    else Counting(NewReader(name, size))
  }

  /** The name progress events carry: the base name at the top, the path below it. */
  function EventName(a: Adder, path: Mfs.Path): string
  {
    if path == [] then a.baseName else PathString(path)
  }

  /** `addFile`: asks the file for its size first and fails at once when it
      cannot say; then lays the file out (through the progress reader, which
      carries that size, when `Out` is set) and puts the layout's root at the
      file's path.  A failing read ends the layout after the events of the
      chunks already read were sent. */
  function AddFile(a: Adder, path: Mfs.Path, file: FileNode): (r: Result<Adder, Failure>)
    requires file.RegularFile? && a.chunkSize > 0
    ensures file.size.None? ==> r == Err(Failed(a, SizeFailed))
    ensures file.size.Some? && file.readFails ==> r.Err? && r.error.cause == ReadFailed
    ensures file.size.Some? && file.readFails ==> r.error.at == a.(
      readers := a.readers + [WrapReader(a.progress, EventName(a, path), file.size.value, file.absPath)],
      events := a.events + (if a.progress then FailedFileEvents(EventName(a, path), file.size.value, file.content, a.chunkSize) else []))
    ensures r.Err? && file.size.Some? && !file.readFails ==> r.error.cause.StagingFailed?
    ensures r.Err? ==> Grows(a, r.error.at)
    ensures r.Ok? ==> file.size.Some? && !file.readFails
    ensures r.Ok? ==>
      Mfs.Lookup(r.value.root, Placement(path, a.baseName)) == Some(Mfs.Node(LayoutRoot(file.content, a.chunkSize)))
    ensures r.Ok? ==>
      r.value.readers == a.readers + [WrapReader(a.progress, EventName(a, path), file.size.value, file.absPath)]
    ensures r.Ok? ==>
      r.value.events == a.events + (if a.progress then FileEvents(EventName(a, path), file.size.value, file.content, a.chunkSize) else [])
    ensures r.Ok? ==> r.value.dag == a.dag + Reach(LayoutRoot(file.content, a.chunkSize))
    ensures r.Ok? ==> Leaf(a, r.value, LayoutRoot(file.content, a.chunkSize), path)
  {
    if file.size.None? then Err(Failed(a, SizeFailed))
    else
      var reader := WrapReader(a.progress, EventName(a, path), file.size.value, file.absPath);
      if file.readFails then
        var events := EventsVia(reader, FailingReads(file.content, a.chunkSize));
        Err(Failed(a.(readers := a.readers + [reader], events := a.events + events), ReadFailed))
      else
        var root := LayoutRoot(file.content, a.chunkSize);
        var events := EventsVia(reader, SplitterReads(file.content, a.chunkSize));
        AddNode(a.(dag := a.dag + Reach(root), readers := a.readers + [reader], events := a.events + events), root, path)
  }

  /** `addSymlink`: a symlink node is added to the DAG service and put at the path. */
  function AddSymlink(a: Adder, path: Mfs.Path, target: string): (r: Result<Adder, Failure>)
    ensures r.Err? ==> r.error.cause.StagingFailed? && Grows(a, r.error.at)
    ensures r.Ok? ==>
      Mfs.Lookup(r.value.root, Placement(path, a.baseName)) == Some(Mfs.Node(CidOf(PbSymlink(target))))
    ensures r.Ok? ==> r.value.dag == a.dag + {CidOf(PbSymlink(target))}
    ensures r.Ok? ==> Leaf(a, r.value, CidOf(PbSymlink(target)), path)
  {
    var c := CidOf(PbSymlink(target));
    assert Reach(c) == {c};
    AddNode(a.(dag := a.dag + {c}), c, path)
  }

  /** `addFileNode`: the watermark step, then dispatch on the node's kind. */
  function AddFileNode(a: Adder, path: Mfs.Path, node: FileNode, toplevel: bool): (r: Result<Adder, Failure>)
    requires a.chunkSize > 0
    ensures node.Unsupported? ==> r == Err(Failed(Enter(a), UnknownFileType))
    ensures r.Ok? ==> Grows(a, r.value)
    ensures r.Ok? ==> r.value.calls == a.calls + Plan(node, path, toplevel, a.baseName, a.chunkSize)
    ensures r.Ok? && a.liveNodes <= LiveCacheSize ==>
      Counted(a, r.value, NodeCount(node))
    decreases node, 2, 0
  {
    var b := Enter(a);
    match node
    case Directory(_, _) => AddDir(b, path, node, toplevel)
    case Symlink(t) => AddSymlink(b, path, t)
    case RegularFile(_, _, _, _) => AddFile(b, path, node)
    case Unsupported => Err(Failed(b, UnknownFileType))
  }

  /** `addDir`: makes the directory (with parents) unless it is the top-level
      one with an empty path, adds each entry at `path + [name]` in iterator
      order stopping at the first failure, and returns the iterator's own error
      last. */
  function AddDir(a: Adder, dirPath: Mfs.Path, dir: FileNode, toplevel: bool): (r: Result<Adder, Failure>)
    requires dir.Directory? && a.chunkSize > 0
    ensures r.Ok? <==> AddDirEntries(a, dirPath, dir, toplevel).Ok? && !dir.listingFails
    ensures AddDirEntries(a, dirPath, dir, toplevel).Err? ==> r == AddDirEntries(a, dirPath, dir, toplevel)
    ensures AddDirEntries(a, dirPath, dir, toplevel).Ok? && dir.listingFails ==>
      r == Err(Failed(AddDirEntries(a, dirPath, dir, toplevel).value, ListingFailed))
    ensures r.Ok? ==> Grows(a, r.value)
    ensures r.Ok? ==> r.value.calls == a.calls + Plan(dir, dirPath, toplevel, a.baseName, a.chunkSize)
    ensures r.Ok? && 1 <= a.liveNodes <= LiveCacheSize ==>
      Counted(a, r.value, EntriesCount(dir.entries))
    decreases dir, 1, 1
  {
    var a2 :- AddDirEntries(a, dirPath, dir, toplevel);
    if dir.listingFails then Err(Failed(a2, ListingFailed)) else Ok(a2)
  }

  /** The part of `addDir` before `it.Err()` is consulted. */
  function AddDirEntries(a: Adder, dirPath: Mfs.Path, dir: FileNode, toplevel: bool): (r: Result<Adder, Failure>)
    requires dir.Directory? && a.chunkSize > 0
    ensures r.Ok? ==> Grows(a, r.value)
    ensures r.Ok? ==> r.value.calls == a.calls + Plan(dir, dirPath, toplevel, a.baseName, a.chunkSize)
    ensures r.Ok? && 1 <= a.liveNodes <= LiveCacheSize ==>
      Counted(a, r.value, EntriesCount(dir.entries))
    decreases dir, 1, 0
  {
    var entries := PlanEntries(dir.entries, dirPath, a.baseName, a.chunkSize);
    assert Plan(dir, dirPath, toplevel, a.baseName, a.chunkSize) == DirHead(dirPath, toplevel) + entries;
    assert dir.entries[0..] == dir.entries;
    if toplevel && dirPath == [] then
      assert DirHead(dirPath, toplevel) + entries == entries;
      AddEntries(a, dirPath, dir, 0)
    else
      match MakeDir(a, dirPath)
      case Err(f) => Err(f)
      case Ok(a1) =>
        assert a1.calls + entries == a.calls + (DirHead(dirPath, toplevel) + entries);
        AddEntries(a1, dirPath, dir, 0)
  }

  /** `addDir`'s `mfs.Mkdir` with parents: afterwards a directory sits at the
      path, the staged nodes are unchanged and nothing else changes. */
  function MakeDir(a: Adder, dirPath: Mfs.Path): (r: Result<Adder, Failure>)
    ensures r.Ok? ==> dirPath != [] && Mfs.Lookup(r.value.root, dirPath).Some? && Mfs.Lookup(r.value.root, dirPath).value.Dir?
    ensures r.Ok? ==> Mfs.NodeCids(r.value.root) == Mfs.NodeCids(a.root)
    ensures r.Ok? ==> r.value == a.(root := r.value.root, calls := a.calls + [MkdirCall(dirPath)])
    ensures r.Err? ==> r.error.at == a && r.error.cause.StagingFailed?
    ensures dirPath == [] ==> r == Err(Failed(a, StagingFailed(Mfs.NoPath)))
  {
    match Mfs.Mkdir(a.root, dirPath)
    case Ok(root) =>
      Mfs.MkdirKeepsNodes(a.root, dirPath);
      Ok(a.(root := root, calls := a.calls + [MkdirCall(dirPath)]))
    case Err(e) => Err(Failed(a, StagingFailed(e)))
  }

  /** What a failed walk over entries `i..` keeps: for the entry `k` that
      failed, every MFS call of the entries before it was made. */
  ghost predicate KeptEntries(a: Adder, at: Adder, dirPath: Mfs.Path, es: seq<DirEntry>, i: nat)
    requires a.chunkSize > 0 && i <= |es|
  {
    exists k | i <= k < |es| :: a.calls + PlanEntries(es[i..k], dirPath, a.baseName, a.chunkSize) <= at.calls
  }

  /** `addDir`'s loop from entry `i` on.  It stops at the first entry that
      fails, and the failure keeps the work of the entries before it. */
  function AddEntries(a: Adder, dirPath: Mfs.Path, dir: FileNode, i: nat): (r: Result<Adder, Failure>)
    requires dir.Directory? && i <= |dir.entries| && a.chunkSize > 0
    ensures r.Ok? ==> Grows(a, r.value)
    ensures r.Ok? ==> r.value.calls == a.calls + PlanEntries(dir.entries[i..], dirPath, a.baseName, a.chunkSize)
    ensures r.Ok? && 1 <= a.liveNodes <= LiveCacheSize ==>
      Counted(a, r.value, EntriesCount(dir.entries[i..]))
    decreases dir, 0, |dir.entries| - i
  {
    if i == |dir.entries| then Ok(a)
    else
      var e := dir.entries[i];
      assert dir.entries[i..][1..] == dir.entries[i + 1..];
      match AddFileNode(a, dirPath + [e.name], e.node, false)
      case Err(f) => Err(f)
      case Ok(a1) =>
        var r := AddEntries(a1, dirPath, dir, i + 1);
        assert r.Ok? ==> r.value.calls == a.calls + PlanEntries(dir.entries[i..], dirPath, a.baseName, a.chunkSize) by {
          var rest := PlanEntries(dir.entries[i + 1..], dirPath, a.baseName, a.chunkSize);
          assert PlanEntries(dir.entries[i..], dirPath, a.baseName, a.chunkSize)
              == Plan(e.node, dirPath + [e.name], false, a.baseName, a.chunkSize) + rest;
          assert a1.baseName == a.baseName && a1.chunkSize == a.chunkSize;
          assert a1.calls + rest == a.calls + (Plan(e.node, dirPath + [e.name], false, a.baseName, a.chunkSize) + rest);
        }
        r
  }

  /** A failure after entry `i` succeeded keeps entry `i`'s calls too. */
  lemma EntriesFailureKept(a: Adder, a1: Adder, at: Adder, dirPath: Mfs.Path, es: seq<DirEntry>, i: nat)
    requires a.chunkSize > 0 && i < |es| && SameSettings(a, a1)
    requires a1.calls == a.calls + Plan(es[i].node, dirPath + [es[i].name], false, a.baseName, a.chunkSize)
    requires KeptEntries(a1, at, dirPath, es, i + 1)
    ensures KeptEntries(a, at, dirPath, es, i)
  {
    var k :| i + 1 <= k < |es| && a1.calls + PlanEntries(es[i + 1..k], dirPath, a1.baseName, a1.chunkSize) <= at.calls;
    assert es[i..k][0] == es[i] && es[i..k][1..] == es[i + 1..k];
    assert a.calls + PlanEntries(es[i..k], dirPath, a.baseName, a.chunkSize)
        == a1.calls + PlanEntries(es[i + 1..k], dirPath, a.baseName, a.chunkSize);
  }

  /** A failed walk keeps what it did: the adder it leaves behind grows the
      one it started from (same settings, no block, event or MFS call
      dropped, staged nodes still backed by the DAG service). */
  lemma {:induction false} FailureGrows(a: Adder, path: Mfs.Path, node: FileNode, toplevel: bool)
    requires a.chunkSize > 0
    ensures var r := AddFileNode(a, path, node, toplevel); r.Err? ==> Grows(a, r.error.at)
    decreases node, 2
  {
    var b := Enter(a);
    assert Grows(a, b);
    if node.Directory? {
      DirFailureGrows(b, path, node, toplevel);
    }
  }

  lemma {:induction false} DirFailureGrows(a: Adder, dirPath: Mfs.Path, dir: FileNode, toplevel: bool)
    requires dir.Directory? && a.chunkSize > 0
    ensures var r := AddDirEntries(a, dirPath, dir, toplevel); r.Err? ==> Grows(a, r.error.at)
    ensures var r := AddDir(a, dirPath, dir, toplevel); r.Err? ==> Grows(a, r.error.at)
    decreases dir, 1
  {
    if toplevel && dirPath == [] {
      EntriesFailureGrows(a, dirPath, dir, 0);
    } else {
      var m := MakeDir(a, dirPath);
      if m.Ok? {
        EntriesFailureGrows(m.value, dirPath, dir, 0);
        assert Grows(a, m.value);
      }
    }
  }

  lemma {:induction false} EntriesFailureGrows(a: Adder, dirPath: Mfs.Path, dir: FileNode, i: nat)
    requires dir.Directory? && i <= |dir.entries| && a.chunkSize > 0
    ensures var r := AddEntries(a, dirPath, dir, i); r.Err? ==> Grows(a, r.error.at)
    decreases dir, 0, |dir.entries| - i
  {
    if i < |dir.entries| {
      var e := dir.entries[i];
      FailureGrows(a, dirPath + [e.name], e.node, false);
      var c := AddFileNode(a, dirPath + [e.name], e.node, false);
      if c.Ok? {
        EntriesFailureGrows(c.value, dirPath, dir, i + 1);
      }
    }
  }

  /** When entry `k` of a directory fails, every MFS call of the entries
      before it was made, so those entries stay staged. */
  lemma {:induction false} EntriesKept(a: Adder, dirPath: Mfs.Path, dir: FileNode, i: nat)
    requires dir.Directory? && i <= |dir.entries| && a.chunkSize > 0
    ensures var r := AddEntries(a, dirPath, dir, i); r.Err? ==> KeptEntries(a, r.error.at, dirPath, dir.entries, i)
    decreases |dir.entries| - i
  {
    if i < |dir.entries| {
      var e := dir.entries[i];
      var c := AddFileNode(a, dirPath + [e.name], e.node, false);
      if c.Err? {
        FailureGrows(a, dirPath + [e.name], e.node, false);
        assert dir.entries[i..i] == [];
        assert a.calls + PlanEntries(dir.entries[i..i], dirPath, a.baseName, a.chunkSize) <= c.error.at.calls;
      } else {
        EntriesKept(c.value, dirPath, dir, i + 1);
        var r := AddEntries(c.value, dirPath, dir, i + 1);
        if r.Err? {
          EntriesFailureKept(a, c.value, r.error.at, dirPath, dir.entries, i);
        }
      }
    }
  }

  /** `addDir` before `it.Err()`: a failure either is the directory's own
      `mfs.Mkdir`, which leaves the adder as it was, or keeps the directory
      and the entries before the one that failed. */
  lemma {:induction false} DirKept(a: Adder, dirPath: Mfs.Path, dir: FileNode, toplevel: bool)
    requires dir.Directory? && a.chunkSize > 0
    ensures var r := AddDirEntries(a, dirPath, dir, toplevel);
      r.Err? ==>
        || (r.error.at == a && !(toplevel && dirPath == []))
        || KeptEntries(a.(calls := a.calls + DirHead(dirPath, toplevel)), r.error.at, dirPath, dir.entries, 0)
  {
    var h := a.(calls := a.calls + DirHead(dirPath, toplevel));
    if toplevel && dirPath == [] {
      assert h == a;
      EntriesKept(a, dirPath, dir, 0);
    } else {
      var m := MakeDir(a, dirPath);
      if m.Ok? {
        EntriesKept(m.value, dirPath, dir, 0);
        var r := AddEntries(m.value, dirPath, dir, 0);
        if r.Err? {
          var k :| 0 <= k < |dir.entries| &&
            m.value.calls + PlanEntries(dir.entries[0..k], dirPath, m.value.baseName, m.value.chunkSize) <= r.error.at.calls;
          assert h.calls + PlanEntries(dir.entries[0..k], dirPath, h.baseName, h.chunkSize) <= r.error.at.calls;
        }
      }
    }
  }

  /** A directory whose second entry has a kind the adder does not know: the
      walk fails, and the first entry's file stays staged at its path with
      its blocks stored and its progress events sent. */
  lemma PartialWalkKept(a: Adder)
    requires a.chunkSize > 0 && a.root == []
    ensures var node := Directory([DirEntry("a", RegularFile([1], Some(1), None, false)), DirEntry("b", Unsupported)], false);
            var r := Add(a, node);
      && r.Err? && r.error.cause == UnknownFileType
      && Mfs.Lookup(r.error.at.root, ["a"]) == Some(Mfs.Node(LayoutRoot([1], a.chunkSize)))
      && Reach(LayoutRoot([1], a.chunkSize)) <= r.error.at.dag
      && r.error.at.events == a.events + (if a.progress then FileEvents("a", 1, [1], a.chunkSize) else [])
  {
    var file := RegularFile([1], Some(1), None, false);
    var node := Directory([DirEntry("a", file), DirEntry("b", Unsupported)], false);
    var b := Enter(a);
    assert AddFileNode(a, [], node, true) == AddEntries(b, [], node, 0);
    var c := AddFileNode(b, ["a"], file, false);
    assert [] + ["a"] == ["a"] && [] + ["b"] == ["b"];
    assert c == AddFile(Enter(b), ["a"], file);
    assert EventName(Enter(b), ["a"]) == "a";
    assert c.Ok?;
    var d := AddFileNode(c.value, ["b"], Unsupported, false);
    assert AddEntries(b, [], node, 0) == AddEntries(c.value, [], node, 1);
    assert AddEntries(c.value, [], node, 1) == d;
  }

  /** What `Add` hands back: the adder after the walk and the root node. */
  datatype Added = Added(adder: Adder, root: Cid)

  /** `adder.Add`: walks the node from the top with an empty path, flushes the
      staging root, and returns the root directory for a directory, or the
      root's first child otherwise (an empty root is an error). */
  function Add(a: Adder, node: FileNode): (r: Result<Added, Failure>)
    requires a.chunkSize > 0
    ensures AddFileNode(a, [], node, true).Err? ==> r == Err(AddFileNode(a, [], node, true).error)
    ensures r.Err? && AddFileNode(a, [], node, true).Ok? ==>
      r.error.cause == NoRootChild && !node.Directory? && r.error.at.root == []
    ensures r.Err? ==> Grows(a, r.error.at)
    ensures r.Ok? && node.Directory? ==> r.value.root == Mfs.FlushItem(Mfs.Dir(r.value.adder.root))
    ensures r.Ok? && !node.Directory? ==>
      |r.value.adder.root| > 0 && r.value.root == Mfs.FlushItem(r.value.adder.root[0].item)
    ensures r.Ok? ==> r.value.adder.calls == a.calls + Plan(node, [], true, a.baseName, a.chunkSize)
    ensures r.Ok? && Staged(a) ==> Reach(r.value.root) <= r.value.adder.dag
    ensures r.Ok? ==> a.events <= r.value.adder.events && a.dag <= r.value.adder.dag
  {
    FailureGrows(a, [], node, true);
    var a1 :- AddFileNode(a, [], node, true);
    var a2 := a1.(dag := a1.dag + Mfs.DirNodes(a1.root));
    if node.Directory? then
      assert Staged(a) ==> Reach(Mfs.FlushItem(Mfs.Dir(a1.root))) <= a2.dag by {
        if Staged(a) { Mfs.FlushReach(a1.root, a1.dag); }
      }
      Ok(Added(a2, Mfs.FlushItem(Mfs.Dir(a1.root))))
    else
      var names := Mfs.Names(a1.root);
      if |names| == 0 then Err(Failed(a2, NoRootChild))
      else
        var i := Mfs.Find(a1.root, names[0]);
        assert i == Some(0);
        var child := a1.root[0].item;
        assert Staged(a) ==> Reach(Mfs.FlushItem(child)) <= a2.dag by {
          if Staged(a) {
            Mfs.FlushReach(a1.root, a1.dag);
            ChildReach(a1.root);
          }
        }
        Ok(Added(a2, Mfs.FlushItem(child)))
  }

  /** A directory's first entry is reachable from the directory's flushed node. */
  lemma ChildReach(es: seq<Mfs.Entry>)
    requires |es| > 0
    ensures Reach(Mfs.FlushItem(es[0].item)) <= Reach(Mfs.FlushItem(Mfs.Dir(es)))
  {
    var links := Mfs.FlushEntries(es);
    assert links[0].target == Mfs.FlushItem(es[0].item);
  }

  /** The top-level node is placed without ever making a directory at the
      empty path: only proper paths are passed to `mfs.Mkdir`. */
  lemma NeverMakesRoot(node: FileNode, baseName: string, chunkSize: int)
    requires chunkSize > 0
    ensures MkdirCall([]) !in Plan(node, [], true, baseName, chunkSize)
  {
    if node.Directory? {
      PlanEntriesProper(node.entries, [], baseName, chunkSize);
    }
  }

  lemma {:induction false} PlanProper(node: FileNode, path: Mfs.Path, toplevel: bool, baseName: string, chunkSize: int)
    requires chunkSize > 0 && path != []
    ensures MkdirCall([]) !in Plan(node, path, toplevel, baseName, chunkSize)
    decreases node, 1
  {
    if node.Directory? {
      PlanEntriesProper(node.entries, path, baseName, chunkSize);
    }
  }

  lemma {:induction false} PlanEntriesProper(es: seq<DirEntry>, path: Mfs.Path, baseName: string, chunkSize: int)
    requires chunkSize > 0
    ensures MkdirCall([]) !in PlanEntries(es, path, baseName, chunkSize)
    decreases es, 0
  {
    if es != [] {
      PlanProper(es[0].node, path + [es[0].name], false, baseName, chunkSize);
      PlanEntriesProper(es[1..], path, baseName, chunkSize);
    }
  }

  /** A fresh adder has no base name, so a single file added through it is
      put at the empty name, which MFS refuses: the base name has to be set
      first, as `AdderBase.Add` does. */
  lemma EmptyBaseNameRefused(chunkSize: int, dag: set<Cid>, progress: bool, content: Bytes)
    requires chunkSize > 0
    ensures var r := Add(NewAdder(chunkSize, dag, progress), RegularFile(content, Some(|content|), None, false));
      r.Err? && r.error.cause == StagingFailed(Mfs.EmptyName)
  {
    var a := NewAdder(chunkSize, dag, progress);
    var file := RegularFile(content, Some(|content|), None, false);
    assert AddFileNode(a, [], file, true) == AddFile(Enter(a), [], file);
  }

  /** Adding a regular file to an empty staging root stages it under the
      (non-empty) base name, the node returned is the file's layout root, and
      the progress events sent are the file's, named by the base name. */
  lemma FileRootIsLayout(a: Adder, content: Bytes, absPath: Option<string>)
    requires a.chunkSize > 0 && a.root == [] && a.baseName != ""
    ensures var r := Add(a, RegularFile(content, Some(|content|), absPath, false));
      && r.Ok? && r.value.root == LayoutRoot(content, a.chunkSize)
      && r.value.adder.events == a.events + (if a.progress then FileEvents(a.baseName, |content|, content, a.chunkSize) else [])
  {
    var node := RegularFile(content, Some(|content|), absPath, false);
    var b := Enter(a);
    var f := AddFile(b, [], node);
    assert f.Ok?;
    assert f.value.root == [Mfs.Entry(a.baseName, Mfs.Node(LayoutRoot(content, a.chunkSize)))];
  }
}

=== FILE: adder_base.dfy ===
/**
  `AdderBase.Add` of pkg/chunker/adder_base.go: wraps the target path, adds
  its single entry with the adder, walks the DAG from the returned root with a
  visited set, and assembles the `Result` record.

  What the operating system and the helper libraries answer is passed in:
  the outcome of `homedir.Expand(filepath.Clean(path))`, of `os.Lstat` plus
  opening the file, of the node's `Size()`, and the `humanize.Bytes` label
  function.  The DAG service is the adder's set of stored blocks.
*/
module AdderBase {
  import opened Results
  import opened Cids
  import opened Layout
  import GoPath
  import Adder
  import Mfs

  datatype Error =
    | ExpandFailed
    | StatFailed
    | NoFilesFound
    | SizeFailed
    | AddFailed(cause: Adder.Error)
    | WalkFailed(missing: Cid)

  /** The `Result` record. */
  datatype AddResult = AddResult(
    fileName: string,
    fileSizeBytes: int,
    fileHumanSize: string,
    chunkSize: string,
    rootCid: Cid,
    blocks: seq<Cid>)

  /** `NewFilePath`: a one-entry directory holding the node found at `path`
      under the path itself as its name. */
  function NewFilePath(path: string, stat: Option<Adder.FileNode>): (r: Result<seq<Adder.DirEntry>, Error>)
    ensures stat.None? <==> r.Err?
    ensures r.Ok? ==> r.value == [Adder.DirEntry(path, stat.value)]
  {
    match stat
    case None => Err(StatFailed)
    case Some(node) => Ok([Adder.DirEntry(path, node)])
  }

  predicate Distinct(cs: seq<Cid>)
  {
    forall i, j | 0 <= i < j < |cs| :: cs[i] != cs[j]
  }

  /** `merkledag.Walk` with the visited-set callback: every CID reachable from
      `root` is visited once, each fetched from the DAG service; a CID the
      service does not hold ends the walk with an error. */
  method Walk(root: Cid, dag: set<Cid>) returns (r: Result<seq<Cid>, Cid>)
    ensures r.Ok? <==> Reach(root) <= dag
    ensures r.Ok? ==> Distinct(r.value) && forall c :: c in r.value <==> c in Reach(root)
    ensures r.Err? ==> r.error in Reach(root) && r.error !in dag
  {
    ghost var all := Reach(root);
    ReachIsClosed(root);
    SelfInReach(root);
    var visited: set<Cid> := {};
    var order: seq<Cid> := [];
    var stack: seq<Cid> := [root];
    while stack != []
      invariant visited <= all && visited <= dag
      invariant forall i | 0 <= i < |stack| :: stack[i] in all
      invariant root in visited || root in stack
      invariant forall c | c in visited :: forall i | 0 <= i < |Links(c)| :: Links(c)[i] in visited || Links(c)[i] in stack
      invariant Distinct(order) && forall c :: c in order <==> c in visited
      decreases |all - visited|, |stack|
    {
      var c := stack[|stack| - 1];
      stack := stack[..|stack| - 1];
      if c !in visited {
        if c !in dag {
          return Err(c);
        }
        assert all - (visited + {c}) < all - visited;
        visited := visited + {c};
        order := order + [c];
        stack := stack + Links(c);
      }
    }
    assert Closed(visited);
    ClosedContainsReach(visited, root);
    return Ok(order);
  }

  /** `AdderBase.Add`.  `expanded` is the expanded, cleaned target path,
      `stat` what the filesystem holds there, `size` the node's reported size,
      `human` the size-label function.  Go asks the same node for its size
      here and again in `addFile`; for a regular file the two answers agree,
      but the model takes `size` as given and does not tie it to the size a
      `RegularFile` in `stat` carries. */
  method Add(a: Adder.Adder, expanded: Option<string>, stat: Option<Adder.FileNode>, size: Option<int>, human: int -> string)
    returns (r: Result<AddResult, Error>, next: Adder.Adder)
    requires a.chunkSize > 0
    ensures expanded.None? ==> r == Err(ExpandFailed)
    ensures expanded.Some? && stat.None? ==> r == Err(StatFailed)
    ensures expanded.Some? && stat.Some? && size.None? ==> r == Err(SizeFailed)
    ensures r.Ok? ==> expanded.Some? && stat.Some? && size.Some?
    ensures r.Ok? ==>
      && r.value.fileName == GoPath.Base(expanded.value)
      && r.value.fileSizeBytes == size.value
      && r.value.fileHumanSize == human(size.value)
      && r.value.chunkSize == human(a.chunkSize)
    ensures r.Ok? ==>
      var added := Adder.Add(a.(baseName := GoPath.Base(expanded.value)), stat.value);
      added.Ok? && r.value.rootCid == added.value.root && next == added.value.adder
    ensures r.Ok? ==> Distinct(r.value.blocks) && forall c :: c in r.value.blocks <==> c in Reach(r.value.rootCid)
    ensures r != Err(NoFilesFound)
    ensures a.events <= next.events && a.dag <= next.dag
    ensures r.Ok? ==> forall c | c in r.value.blocks :: c in next.dag
    ensures Adder.Staged(a) && expanded.Some? && stat.Some? && size.Some? ==>
      (r.Ok? <==> Adder.Add(a.(baseName := GoPath.Base(expanded.value)), stat.value).Ok?)
    ensures expanded.Some? && stat.Some? && size.Some? ==>
      var added := Adder.Add(a.(baseName := GoPath.Base(expanded.value)), stat.value);
      && (added.Ok? ==> next == added.value.adder)
      && (added.Err? ==> r == Err(AddFailed(added.error.cause)) && next == added.error.at)
    ensures expanded.None? || stat.None? || size.None? ==> next == a
  {
    next := a;
    if expanded.None? {
      return Err(ExpandFailed), next;
    }
    var expPath := expanded.value;
    var wrapped := NewFilePath(expPath, stat);
    if wrapped.Err? {
      return Err(wrapped.error), next;
    }
    var entries := wrapped.value;
    if |entries| == 0 {
      return Err(NoFilesFound), next;
    }
    if size.None? {
      return Err(SizeFailed), next;
    }
    var fsize := size.value;
    var hSize := human(fsize);
    var filename := GoPath.Base(entries[0].name);
    var added := Adder.Add(a.(baseName := filename), entries[0].node);
    if added.Err? {
      return Err(AddFailed(added.error.cause)), added.error.at;
    }
    next := added.value.adder;
    var nd := added.value.root;
    var walked := Walk(nd, next.dag);
    if walked.Err? {
      return Err(WalkFailed(walked.error)), next;
    }
    return Ok(AddResult(filename, fsize, hSize, human(a.chunkSize), nd, walked.value)), next;
  }

  /** A fresh adder with a file that fits in one chunk: the root is the file's
      single raw leaf and it is the only block, as the repository's own test of
      a 0..100000 digit file with 1 MiB chunks expects. */
  method SingleChunkFile(content: Bytes, path: string, human: int -> string) returns (r: Result<AddResult, Error>)
    requires 0 < |content| <= Adder.Chunk1MiB
    ensures r.Ok? && r.value.rootCid == CidOf(RawLeaf(content)) && r.value.blocks == [r.value.rootCid]
  {
    var a := Adder.NewAdder(Adder.Chunk1MiB, {}, false);
    var file := Adder.RegularFile(content, Some(|content|), Some(path), false);
    var leaf := CidOf(RawLeaf(content));
    Adder.FileRootIsLayout(a.(baseName := GoPath.Base(path)), content, Some(path));
    LayoutShape(content, Adder.Chunk1MiB);
    assert Adder.Staged(a) by { assert Mfs.NodeCids(a.root) == {}; }
    var next;
    r, next := Add(a, Some(path), Some(file), Some(|content|), human);
    assert r.Ok? && r.value.rootCid == leaf;
    OnlyBlock(r.value.blocks, leaf);
  }

  lemma OnlyBlock(blocks: seq<Cid>, x: Cid)
    requires Distinct(blocks) && forall c :: c in blocks <==> c == x
    ensures blocks == [x]
  {
    DistinctCard(blocks);
    assert Elems(blocks) == {x};
    assert blocks[0] in blocks;
  }

  function Elems(s: seq<Cid>): (e: set<Cid>)
    ensures forall c :: c in e <==> c in s
  {
    if s == [] then {} else {s[0]} + Elems(s[1..])
  }

  /** A list without repeats has as many members as entries. */
  lemma {:induction false} DistinctCard(s: seq<Cid>)
    requires Distinct(s)
    ensures |Elems(s)| == |s|
  {
    if s != [] {
      assert Distinct(s[1..]) by {
        forall i, j | 0 <= i < j < |s[1..]| ensures s[1..][i] != s[1..][j] {
          assert s[1..][i] == s[i + 1] && s[1..][j] == s[j + 1];
        }
      }
      DistinctCard(s[1..]);
      assert s[0] !in s[1..] by {
        forall i | 0 <= i < |s[1..]| ensures s[1..][i] != s[0] {
          assert s[1..][i] == s[i + 1];
        }
      }
    }
  }
}

=== FILE: adder_withbar.dfy ===
/**
  The progress-bar adder of pkg/chunker/adder_withbar.go: the aggregator that
  `handleOut` runs over the events of the progress readers, the `Progress`
  percentage, and the `total` accounting of `Add`.

  The goroutine and its channel are not modelled: an `Add` is followed by the
  aggregator consuming, in order, every event that add sent.
*/
module AdderWithBar {
  import opened Results
  import opened Cids
  import opened ProgressReader
  import opened Layout
  import GoPath
  import Adder
  import AdderBase
  import Mfs

  /** The counters `handleOut` and `Add` maintain. */
  datatype Bar = Bar(total: int, addSize: int, swapSize: int)

  /** What arrives on the output channel: an `*AddEvent` or anything else. */
  datatype Message = Event(event: AddEvent) | Other

  /** One message through `handleOut`: a completing event (`Bytes == Size`)
      locks the file's size into `swapSize`; a partial one shows the bytes so
      far on top of it; anything else is skipped. */
  function HandleOut(b: Bar, m: Message): (c: Bar)
    ensures c.total == b.total
    ensures m.Other? ==> c == b
    ensures m.Event? && m.event.bytes == m.event.size ==>
      c.swapSize == b.swapSize + m.event.size && c.addSize == c.swapSize
    ensures m.Event? && m.event.bytes != m.event.size ==>
      c.swapSize == b.swapSize && c.addSize == b.swapSize + m.event.bytes
  {
    match m
    case Other => b
    case Event(e) =>
      if e.bytes == e.size then b.(swapSize := b.swapSize + e.size, addSize := b.swapSize + e.size)
      else b.(addSize := e.bytes + b.swapSize)
  }

  /** The aggregator after a sequence of events, in order: the progress
      bar's state once `handleOut` has drained them from the channel. */
  function HandleAll(b: Bar, es: seq<AddEvent>): (c: Bar)
    ensures c.total == b.total
    ensures es == [] ==> c == b
    decreases |es|
  {
    if es == [] then b else HandleAll(HandleOut(b, Event(es[0])), es[1..])
  }

  /** `HandleAll` is the left fold of `HandleOut`: one more event is handled
      on top of the bar the earlier ones left. */
  lemma {:induction false} HandleAllSnoc(b: Bar, es: seq<AddEvent>, e: AddEvent)
    ensures HandleAll(b, es + [e]) == HandleOut(HandleAll(b, es), Event(e))
    decreases |es|
  {
    if es == [] {
      assert [e][1..] == [];
    } else {
      assert (es + [e])[1..] == es[1..] + [e];
      HandleAllSnoc(HandleOut(b, Event(es[0])), es[1..], e);
    }
  }

  /** `Progress`: the percentage `addSize / total * 100`, and 0 before
      anything was counted. */
  function Progress(b: Bar): (p: real)
    ensures b.total == 0 ==> p == 0.0
    ensures b.total != 0 ==> p * (b.total as real) == (b.addSize as real) * 100.0
  {
    if b.total == 0 then 0.0 else (b.addSize as real) / (b.total as real) * 100.0
  }

  /** The percentage stays within [0, 100] while the shown bytes stay within
      the total. */
  lemma ProgressBounded(b: Bar)
    requires 0 <= b.addSize <= b.total
    ensures 0.0 <= Progress(b) <= 100.0
  {
    if b.total != 0 {
      var t := b.total as real;
      var p := Progress(b);
      assert p * t == (b.addSize as real) * 100.0;
      assert p * t <= t * 100.0;
    }
  }

  /** `swapSize` never goes down while event sizes are non-negative. */
  lemma {:induction false} SwapNeverDecreases(b: Bar, es: seq<AddEvent>)
    requires forall i | 0 <= i < |es| :: es[i].size >= 0
    ensures HandleAll(b, es).swapSize >= b.swapSize
    ensures HandleAll(b, es).total == b.total
    decreases |es|
  {
    if es != [] {
      SwapNeverDecreases(HandleOut(b, Event(es[0])), es[1..]);
    }
  }

  /** Events that are all partial (`Bytes != Size`) never lock anything into
      `swapSize`. */
  lemma {:induction false} PartialEventsKeepSwap(b: Bar, es: seq<AddEvent>)
    requires forall i | 0 <= i < |es| :: es[i].bytes != es[i].size
    ensures HandleAll(b, es).swapSize == b.swapSize
    decreases |es|
  {
    if es != [] {
      PartialEventsKeepSwap(HandleOut(b, Event(es[0])), es[1..]);
    }
  }

  /** A file whose read fails before the size its `Size()` reported was
      delivered adds nothing to `swapSize`: the bar does not count it as
      completed. */
  lemma FailedFileNotLocked(b: Bar, name: string, size: int, content: Bytes, chunkSize: int)
    requires chunkSize > 0 && |content| < size
    ensures HandleAll(b, FailedFileEvents(name, size, content, chunkSize)).swapSize == b.swapSize
  {
    PartialEventsKeepSwap(b, FailedFileEvents(name, size, content, chunkSize));
  }

  /** A file whose events report strictly growing counts, ending with the
      whole file, is locked in exactly once: its size is added to `swapSize`
      once and `addSize` ends equal to it. */
  lemma {:induction false} FileLockedOnce(b: Bar, es: seq<AddEvent>, size: int)
    requires |es| > 0 && es[|es| - 1].bytes == size
    requires forall i | 0 <= i < |es| :: es[i].size == size && es[i].bytes <= size
    requires forall i, j | 0 <= i < j < |es| :: es[i].bytes < es[j].bytes
    ensures HandleAll(b, es).swapSize == b.swapSize + size
    ensures HandleAll(b, es).addSize == b.swapSize + size
    ensures HandleAll(b, es).total == b.total
    decreases |es|
  {
    var c := HandleOut(b, Event(es[0]));
    if |es| == 1 {
      assert es[1..] == [];
    } else {
      assert es[0].bytes < es[|es| - 1].bytes;
      assert c.swapSize == b.swapSize;
      var rest := es[1..];
      assert rest[|rest| - 1] == es[|es| - 1];
      forall i, j | 0 <= i < j < |rest| ensures rest[i].bytes < rest[j].bytes {
        assert rest[i] == es[i + 1] && rest[j] == es[j + 1];
      }
      forall i | 0 <= i < |rest| ensures rest[i].size == size && rest[i].bytes <= size {
        assert rest[i] == es[i + 1];
      }
      FileLockedOnce(c, rest, size);
    }
  }

  /** The repository's aggregator fed a 1 MiB file added with 1 MiB chunks:
      the reader reports completion twice, both lock the size in, and the bar
      ends at 200 percent. */
  lemma MebibyteFileCountsTwice(name: string)
    ensures var es := ReadAll(NewReader(name, ProgressIncrement),
                              [ReadResult(ProgressIncrement, NoErr), ReadResult(0, Eof)]).events;
      var b := HandleAll(Bar(ProgressIncrement, 0, 0), es);
      b.swapSize == 2 * ProgressIncrement && Progress(b) == 200.0
  {
    ExactMebibyteEmitsTwice(name);
    var e := AddEvent(name, ProgressIncrement, ProgressIncrement);
    var es := [e, e];
    var b0 := Bar(ProgressIncrement, 0, 0);
    var b1 := HandleOut(b0, Event(e));
    assert b1 == Bar(ProgressIncrement, ProgressIncrement, ProgressIncrement);
    var b2 := HandleOut(b1, Event(e));
    assert es[1..] == [e] && es[1..][1..] == [];
    assert HandleAll(b2, []) == b2;
    assert HandleAll(b1, [e]) == b2;
    assert HandleAll(b0, es) == b2;
    assert b2 == Bar(ProgressIncrement, 2 * ProgressIncrement, 2 * ProgressIncrement);
    assert Progress(b2) * (ProgressIncrement as real) == (2 * ProgressIncrement) as real * 100.0;
  }

  /** With the corrected reader, a non-empty file added on its own brings the
      bar to exactly 100 percent, whatever the chunk size. */
  lemma FixedFileEndsAtHundred(name: string, content: Bytes, chunkSize: int)
    requires chunkSize > 0 && content != []
    ensures HandleAll(Bar(|content|, 0, 0), FileEventsFixed(name, content, chunkSize)).addSize == |content|
    ensures Progress(HandleAll(Bar(|content|, 0, 0), FileEventsFixed(name, content, chunkSize))) == 100.0
  {
    var es := FileEventsFixed(name, content, chunkSize);
    FileLockedOnce(Bar(|content|, 0, 0), es, |content|);
    ProgressComplete(HandleAll(Bar(|content|, 0, 0), es));
  }

  /** Once the shown bytes reach a non-zero total the bar reads 100 percent. */
  lemma ProgressComplete(b: Bar)
    requires b.total > 0 && b.addSize == b.total
    ensures Progress(b) == 100.0
  {
    var t := b.total as real;
    var p := Progress(b);
    assert p * t == t * 100.0;
    assert (p - 100.0) * t == 0.0;
  }

  /** The progress-bar adder: the aggregator and the adder it wraps, which
      always has `Out` set. */
  datatype WithBar = WithBar(bar: Bar, adder: Adder.Adder)

  function NewAdderWithBar(chunkSize: int, dag: set<Cid>): (w: WithBar)
    requires chunkSize > 0
    ensures w.bar == Bar(0, 0, 0) && w.adder.progress && w.adder.chunkSize == chunkSize
    ensures w.adder.root == [] && w.adder.events == []
  {
    WithBar(Bar(0, 0, 0), Adder.NewAdder(chunkSize, dag, true))
  }

  /** `AdderWithBar.Add`: the checks and assembly of `AdderBase.Add`, with the
      top-level entry's size added to `total` before adding, and the chunk
      size labelled by `chunkLabel`.  The aggregator then consumes the events the
      add sent. */
  method Add(w: WithBar, expanded: Option<string>, stat: Option<Adder.FileNode>, size: Option<int>,
             human: int -> string, chunkLabel: int -> string)
    returns (r: Result<AdderBase.AddResult, AdderBase.Error>, next: WithBar)
    requires w.adder.chunkSize > 0
    ensures next.bar.total == w.bar.total + (if expanded.Some? && stat.Some? && size.Some? then size.value else 0)
    ensures r.Ok? ==> expanded.Some? && stat.Some? && size.Some?
    ensures r.Ok? ==> r.value.chunkSize == chunkLabel(w.adder.chunkSize)
    ensures r.Ok? ==>
      && r.value.fileName == GoPath.Base(expanded.value)
      && r.value.fileSizeBytes == size.value
      && AdderBase.Distinct(r.value.blocks)
      && forall c :: c in r.value.blocks <==> c in Reach(r.value.rootCid)
    ensures Adder.Staged(w.adder) && expanded.Some? && stat.Some? && size.Some? ==>
      (r.Ok? <==> Adder.Add(w.adder.(baseName := GoPath.Base(expanded.value)), stat.value).Ok?)
    ensures r.Ok? ==>
      var added := Adder.Add(w.adder.(baseName := GoPath.Base(expanded.value)), stat.value);
      added.Ok? && next.adder == added.value.adder
    ensures expanded.Some? && stat.Some? && size.Some? ==>
      var added := Adder.Add(w.adder.(baseName := GoPath.Base(expanded.value)), stat.value);
      && (added.Ok? ==> next.adder == added.value.adder)
      && (added.Err? ==> r == Err(AdderBase.AddFailed(added.error.cause)) && next.adder == added.error.at)
    ensures w.adder.events <= next.adder.events && w.adder.dag <= next.adder.dag
    ensures r.Ok? ==> forall c | c in r.value.blocks :: c in next.adder.dag
    ensures next.bar == HandleAll(w.bar.(total := next.bar.total), next.adder.events[|w.adder.events|..])
    ensures expanded.None? || stat.None? || size.None? ==> next == w && r.Err?
  {
    var base, adder := AdderBase.Add(w.adder, expanded, stat, size, human);
    if expanded.None? || stat.None? || size.None? {
      return base, w;
    }
    var bar := w.bar.(total := w.bar.total + size.value);
    var sent := adder.events[|w.adder.events|..];
    next := WithBar(HandleAll(bar, sent), adder);
    if base.Err? {
      return base, next;
    }
    return Ok(base.value.(chunkSize := chunkLabel(w.adder.chunkSize))), next;
  }

  /** The whole pipeline on a fresh progress-bar adder: adding a file of
      exactly 1 MiB with 1 MiB chunks succeeds and leaves the bar at 200
      percent. */
  method MebibyteFileScenario(content: Bytes, human: int -> string, chunkLabel: int -> string)
    returns (r: Result<AdderBase.AddResult, AdderBase.Error>, next: WithBar)
    requires |content| == Adder.Chunk1MiB
    ensures r.Ok? && next.bar.total == |content| && next.bar.swapSize == 2 * |content|
    ensures Progress(next.bar) == 200.0
  {
    var w := NewAdderWithBar(Adder.Chunk1MiB, {});
    var file := Adder.RegularFile(content, Some(|content|), Some("f"), false);
    GoPath.BaseOfName("f");
    var a := w.adder.(baseName := "f");
    Adder.FileRootIsLayout(a, content, Some("f"));
    assert Adder.Staged(w.adder) by { assert Mfs.NodeCids(w.adder.root) == {}; }
    r, next := Add(w, Some("f"), Some(file), Some(|content|), human, chunkLabel);
    var es := FileEvents("f", |content|, content, Adder.Chunk1MiB);
    assert next.adder.events == es;
    assert next.adder.events[|w.adder.events|..] == es;
    OneChunkReads(content, Adder.Chunk1MiB);
    MebibyteFileCountsTwice("f");
    assert next.bar == HandleAll(Bar(|content|, 0, 0), es);
  }
}

=== FILE: block_repo.dfy ===
/**
  The block-store adapter (`BlockRepo` in block.go): save, has-all, ordered
  delete and delete-all over a blockstore modelled as a map from CID to bytes.

  The caller's context, the backend's failures and `cid.Parse` are inputs:
  - `Cancel` says from which loop iteration on the context reports done;
  - `Faults` says which keys the backend fails on and whether `PutMany` or
    `AllKeysChan` fail;
  - `parse` stands for `cid.Parse` on the caller's strings.
*/
module BlockRepo {
  import opened Results
  import opened Cids

  type Store = map<Cid, Bytes>

  /** `FromCheck(k)`: every check of the context made in loop iteration `k` or
      later sees it done (a Go context stays done once cancelled). */
  datatype Cancel = Never | FromCheck(k: nat)

  predicate IsDone(cancel: Cancel, i: nat)
  {
    cancel.FromCheck? && cancel.k <= i
  }

  datatype Faults = Faults(broken: set<Cid>, putFails: bool, listFails: bool)

  datatype Error =
    | Cancelled
    | Unparsable(text: string)
    | BackendFailure(key: Cid)
    | PutFailure
    | ListFailure

  /** The store after a call, and the error it returned (`None` for nil). */
  datatype Outcome = Outcome(store: Store, err: Option<Error>)

  /** The addresses `blocks.NewBlock` gives the byte strings of `data`. */
  function Addresses(data: seq<Bytes>): set<Cid>
  {
    set i | 0 <= i < |data| :: BlockCid(data[i])
  }

  /** A successful `PutMany`: every block stored under its own address. */
  function PutAll(store: Store, data: seq<Bytes>): (s: Store)
    ensures s.Keys == store.Keys + Addresses(data)
    ensures forall i | 0 <= i < |data| :: s[BlockCid(data[i])] == data[i]
    ensures forall c | c in store && c !in Addresses(data) :: s[c] == store[c]
    decreases |data|
  {
    if data == [] then store
    else
      var rest := PutAll(store[BlockCid(data[0]) := data[0]], data[1..]);
      assert Addresses(data) == {BlockCid(data[0])} + Addresses(data[1..]) by {
        forall c | c in Addresses(data) ensures c in {BlockCid(data[0])} + Addresses(data[1..]) {
          var i :| 0 <= i < |data| && c == BlockCid(data[i]);
          if i > 0 { assert data[i] == data[1..][i - 1]; }
        }
      }
      rest
  }

  /** `SaveBlock`: wraps every byte string as a block and hands them all to
      `PutMany`, returning its error. */
  function SaveBlock(store: Store, faults: Faults, data: seq<Bytes>): (r: Outcome)
    ensures r.err.None? <==> !faults.putFails
    ensures r.err.Some? ==> r.err == Some(PutFailure)
    ensures r.err.None? ==> r.store.Keys == store.Keys + Addresses(data)
    ensures r.err.None? ==> forall i | 0 <= i < |data| :: r.store[BlockCid(data[i])] == data[i]
    ensures forall c | c in store && c !in Addresses(data) :: c in r.store && r.store[c] == store[c]
  {
    if faults.putFails then Outcome(store, Some(PutFailure))
    else Outcome(PutAll(store, data), None)
  }

  /** What one iteration of `HasBlock` finds for the `i`-th string. */
  datatype Verdict = Present | Missing | Abort

  function CheckEntry(store: Store, faults: Faults, cancel: Cancel, parse: string -> Option<Cid>,
                      i: nat, text: string): Verdict
  {
    if IsDone(cancel, i) then Abort
    else
      match parse(text)
      case None => Abort
      case Some(c) =>
        if c in faults.broken then Abort
        else if c in store then Present
        else Missing
  }

  /** `HasBlock`: true exactly when every string parses and names a stored
      block, with no cancellation and no backend error.  `examined` counts the
      iterations that ran: a missing block only clears the result (the `break`
      leaves the `select`, not the loop), so the walk goes on to the end unless
      an entry aborts it. */
  method HasBlock(store: Store, faults: Faults, cancel: Cancel, parse: string -> Option<Cid>,
                  cids: seq<string>) returns (result: bool, examined: nat)
    ensures result <==> forall i | 0 <= i < |cids| ::
      CheckEntry(store, faults, cancel, parse, i, cids[i]) == Present
    ensures examined <= |cids|
    ensures forall i | 0 <= i < |cids| && i + 1 < examined ::
      CheckEntry(store, faults, cancel, parse, i, cids[i]) != Abort
    ensures examined < |cids| ==>
      0 < examined && CheckEntry(store, faults, cancel, parse, examined - 1, cids[examined - 1]) == Abort
    ensures (forall i | 0 <= i < |cids| :: CheckEntry(store, faults, cancel, parse, i, cids[i]) != Abort)
      ==> examined == |cids|
  {
    result := true;
    examined := 0;
    var i := 0;
    while i < |cids|
      invariant 0 <= i <= |cids|
      invariant examined == i
      invariant forall j | 0 <= j < i :: CheckEntry(store, faults, cancel, parse, j, cids[j]) != Abort
      invariant result <==> forall j | 0 <= j < i :: CheckEntry(store, faults, cancel, parse, j, cids[j]) == Present
    {
      examined := i + 1;
      ghost var v := CheckEntry(store, faults, cancel, parse, i, cids[i]);
      if IsDone(cancel, i) {
        assert v == Abort;
        return false, examined;
      }
      var parsed := parse(cids[i]);
      if parsed.None? {
        assert v == Abort;
        return false, examined;
      }
      if parsed.value in faults.broken {
        assert v == Abort;
        return false, examined;
      }
      if parsed.value !in store {
        result := false;
      }
      i := i + 1;
    }
  }

  /** Why iteration `i` of `DeleteBlock` stops, if it does. */
  function StopReason(faults: Faults, cancel: Cancel, parse: string -> Option<Cid>,
                      i: nat, text: string): Option<Error>
  {
    if IsDone(cancel, i) then Some(Cancelled)
    else
      match parse(text)
      case None => Some(Unparsable(text))
      case Some(c) => if c in faults.broken then Some(BackendFailure(c)) else None
  }

  /** The CIDs that the strings of `texts` parse to. */
  function Parsed(parse: string -> Option<Cid>, texts: seq<string>): set<Cid>
  {
    set i | 0 <= i < |texts| && parse(texts[i]).Some? :: parse(texts[i]).value
  }

  lemma ParsedSnoc(parse: string -> Option<Cid>, texts: seq<string>, n: nat)
    requires n < |texts| && parse(texts[n]).Some?
    ensures Parsed(parse, texts[..n + 1]) == Parsed(parse, texts[..n]) + {parse(texts[n]).value}
  {
    var a, b := texts[..n + 1], texts[..n];
    forall c | c in Parsed(parse, a) ensures c in Parsed(parse, b) + {parse(texts[n]).value} {
      var i :| 0 <= i < |a| && parse(a[i]).Some? && c == parse(a[i]).value;
      if i < n { assert a[i] == b[i]; }
    }
    forall c | c in Parsed(parse, b) ensures c in Parsed(parse, a) {
      var i :| 0 <= i < |b| && parse(b[i]).Some? && c == parse(b[i]).value;
      assert a[i] == b[i];
    }
    assert a[n] == texts[n];
  }

  /** `DeleteBlock`: deletes in list order and stops at the first cancellation,
      unparsable string or backend error.  The first `applied` deletions stay
      done and the remaining strings are never looked at. */
  method DeleteBlock(store: Store, faults: Faults, cancel: Cancel, parse: string -> Option<Cid>,
                     cids: seq<string>) returns (s: Store, err: Option<Error>, applied: nat)
    ensures applied <= |cids|
    ensures forall j | 0 <= j < applied :: StopReason(faults, cancel, parse, j, cids[j]).None?
    ensures s == store - Parsed(parse, cids[..applied])
    ensures err.None? <==> applied == |cids|
    ensures err.Some? ==> err == StopReason(faults, cancel, parse, applied, cids[applied])
  {
    s := store;
    applied := 0;
    while applied < |cids|
      invariant 0 <= applied <= |cids|
      invariant forall j | 0 <= j < applied :: StopReason(faults, cancel, parse, j, cids[j]).None?
      invariant s == store - Parsed(parse, cids[..applied])
    {
      if IsDone(cancel, applied) {
        return s, Some(Cancelled), applied;
      }
      var parsed := parse(cids[applied]);
      if parsed.None? {
        return s, Some(Unparsable(cids[applied])), applied;
      }
      if parsed.value in faults.broken {
        return s, Some(BackendFailure(parsed.value)), applied;
      }
      ParsedSnoc(parse, cids, applied);
      s := s - {parsed.value};
      applied := applied + 1;
    }
    err := None;
  }

  /** `DeleteAllBlocks`: enumerates the keys and deletes each.  `keys` is what
      `AllKeysChan` delivers before its channel closes: every stored key when
      the enumeration runs to the end, fewer when the caller's context closes
      it early, in which case the loop sees a closed channel and returns nil.
      `FromCheck(k)` here is the iteration in which the `select` takes the
      cancellation branch.  The first error is returned at once. */
  method DeleteAllBlocks(store: Store, faults: Faults, cancel: Cancel, keys: seq<Cid>)
    returns (s: Store, err: Option<Error>, deleted: nat)
    ensures deleted <= |keys|
    ensures faults.listFails ==> s == store && err == Some(ListFailure) && deleted == 0
    ensures s == store - set j | 0 <= j < deleted :: keys[j]
    ensures forall j | 0 <= j < deleted :: !IsDone(cancel, j) && keys[j] !in faults.broken
    ensures err.None? ==> deleted == |keys| && s == store - set j | 0 <= j < |keys| :: keys[j]
    ensures err.None? && (forall c | c in store :: c in keys) ==> s == map[]
    ensures err.None? <==>
      (!faults.listFails && !IsDone(cancel, |keys|) &&
       forall j | 0 <= j < |keys| :: !IsDone(cancel, j) && keys[j] !in faults.broken)
    ensures err == Some(Cancelled) ==> IsDone(cancel, deleted)
    ensures err.Some? && err != Some(Cancelled) && !faults.listFails ==>
      deleted < |keys| && err == Some(BackendFailure(keys[deleted]))
  {
    s := store;
    deleted := 0;
    if faults.listFails {
      return s, Some(ListFailure), 0;
    }
    while true
      invariant 0 <= deleted <= |keys|
      invariant s == store - set j | 0 <= j < deleted :: keys[j]
      invariant forall j | 0 <= j < deleted :: !IsDone(cancel, j) && keys[j] !in faults.broken
      decreases |keys| - deleted
    {
      if IsDone(cancel, deleted) {
        return s, Some(Cancelled), deleted;
      }
      if deleted == |keys| {
        assert (forall c | c in store :: c in keys) ==> s.Keys == {} by {
          if forall c | c in store :: c in keys {
            forall c | c in store ensures c in set j | 0 <= j < deleted :: keys[j] {
              var j :| 0 <= j < |keys| && keys[j] == c;
            }
          }
        }
        return s, None, deleted;
      }
      if keys[deleted] in faults.broken {
        return s, Some(BackendFailure(keys[deleted])), deleted;
      }
      assert (set j | 0 <= j < deleted + 1 :: keys[j]) == (set j | 0 <= j < deleted :: keys[j]) + {keys[deleted]};
      s := s - {keys[deleted]};
      deleted := deleted + 1;
    }
  }

  /** The two `HasBlocks` examples: a known and an unknown address together give
      false, the known one alone gives true. */
  method HasBlockScenario() returns (both: bool, knownOnly: bool)
    ensures !both && knownOnly
  {
    var known := BlockCid([1, 2, 3]);
    var unknown := BlockCid([4]);
    var parse := (t: string) => if t == "known" then Some(known) else if t == "unknown" then Some(unknown) else None;
    var store: Store := map[known := [1, 2, 3]];
    var faults := Faults({}, false, false);
    var n: nat;
    var pair := ["known", "unknown"];
    both, n := HasBlock(store, faults, Never, parse, pair);
    assert CheckEntry(store, faults, Never, parse, 1, pair[1]) == Missing;
    var single := ["known"];
    knownOnly, n := HasBlock(store, faults, Never, parse, single);
    assert CheckEntry(store, faults, Never, parse, 0, single[0]) == Present;
  }
}

=== FILE: cids.dfy ===
/**
  Content addresses and the Merkle-DAG nodes they name.

  A CID is modelled by the content it is derived from: the address of a node
  literally holds the node.  This is the idealisation of a collision-free hash
  (SHA2-256 in the repository): two CIDs are equal exactly when the hashed
  contents are equal, so `CidOf` is injective by construction.
*/
module Cids {

  newtype byte = b: int | 0 <= b < 256

  type Bytes = seq<byte>

  /** `V0` is what `blocks.NewBlock` derives from a raw byte string; `V1` is what
      the importer's CIDv1 builder derives from a node it built. */
  datatype Cid = V0(data: Bytes) | V1(node: DagNode)

  /** Raw leaves, UnixFS file nodes over ordered child links, symlink nodes and
      directory nodes with named links. */
  datatype DagNode =
    | RawLeaf(data: Bytes)
    | PbFile(children: seq<Cid>, fileSize: nat)
    | PbSymlink(target: string)
    | PbDir(links: seq<Link>)

  datatype Link = Link(name: string, target: Cid)

  /** The address `blocks.NewBlock` gives a byte string. */
  function BlockCid(data: Bytes): (c: Cid)
    ensures c.V0? && c.data == data
  {
    V0(data)
  }

  /** The address of a node built by the importer. */
  function CidOf(n: DagNode): (c: Cid)
    ensures c.V1? && c.node == n
  {
    V1(n)
  }

  lemma CidOfInjective(m: DagNode, n: DagNode)
    ensures CidOf(m) == CidOf(n) <==> m == n
  {
  }

  /** The CIDs a node links to, in link order (what `GetLinks` reports). */
  function Links(c: Cid): seq<Cid>
  {
    match c
    case V0(_) => []
    case V1(n) =>
      match n
      case RawLeaf(_) => []
      case PbSymlink(_) => []
      case PbFile(children, _) => children
      case PbDir(links) => Targets(links)
  }

  function Targets(links: seq<Link>): (ts: seq<Cid>)
    ensures |ts| == |links|
    ensures forall i | 0 <= i < |links| :: ts[i] == links[i].target
  {
    if links == [] then [] else [links[0].target] + Targets(links[1..])
  }

  /** `c` together with every CID reachable from it through links. */
  function Reach(c: Cid): set<Cid>
  {
    match c
    case V0(_) => {c}
    case V1(n) =>
      match n
      case RawLeaf(_) => {c}
      case PbSymlink(_) => {c}
      case PbFile(children, _) => {c} + ReachAll(children)
      case PbDir(links) => {c} + ReachLinks(links)
  }

  function ReachAll(cs: seq<Cid>): set<Cid>
  {
    if cs == [] then {} else Reach(cs[0]) + ReachAll(cs[1..])
  }

  function ReachLinks(links: seq<Link>): set<Cid>
  {
    if links == [] then {} else Reach(links[0].target) + ReachLinks(links[1..])
  }

  /** A set is closed when it holds every link of each of its members. */
  ghost predicate Closed(s: set<Cid>)
  {
    forall c | c in s :: forall i | 0 <= i < |Links(c)| :: Links(c)[i] in s
  }

  lemma {:induction false} ReachAllMembers(cs: seq<Cid>)
    ensures forall i | 0 <= i < |cs| :: Reach(cs[i]) <= ReachAll(cs)
    decreases cs
  {
    if cs != [] {
      ReachAllMembers(cs[1..]);
      forall i | 0 <= i < |cs|
        ensures Reach(cs[i]) <= ReachAll(cs)
      {
        if i > 0 {
          assert cs[i] == cs[1..][i - 1];
        }
      }
    }
  }

  lemma {:induction false} ReachLinksIsReachAll(links: seq<Link>)
    ensures ReachLinks(links) == ReachAll(Targets(links))
    decreases links
  {
    if links != [] {
      ReachLinksIsReachAll(links[1..]);
      assert Targets(links)[1..] == Targets(links[1..]);
    }
  }

  /** Reachability in one step: `c` reaches itself and, through its links, the
      reach of each child. */
  lemma ReachUnfold(c: Cid)
    ensures Reach(c) == {c} + ReachAll(Links(c))
  {
    match c
    case V0(_) =>
    case V1(n) =>
      match n
      case RawLeaf(_) =>
      case PbSymlink(_) =>
      case PbFile(children, _) =>
      case PbDir(links) => ReachLinksIsReachAll(links);
  }

  /** Every closed set that contains `c` contains all of `Reach(c)`: the reach is
      the least closed set around `c`. */
  lemma {:induction false} ClosedContainsReach(s: set<Cid>, c: Cid)
    requires Closed(s) && c in s
    ensures Reach(c) <= s
    decreases c
  {
    match c
    case V0(_) =>
    case V1(n) =>
      match n
      case RawLeaf(_) =>
      case PbSymlink(_) =>
      case PbFile(children, _) =>
        assert Links(c) == children;
        ClosedContainsReachAll(s, children);
      case PbDir(links) =>
        assert Links(c) == Targets(links);
        ClosedContainsReachLinks(s, links);
  }

  lemma {:induction false} ClosedContainsReachAll(s: set<Cid>, cs: seq<Cid>)
    requires Closed(s) && forall i | 0 <= i < |cs| :: cs[i] in s
    ensures ReachAll(cs) <= s
    decreases cs
  {
    if cs != [] {
      ClosedContainsReach(s, cs[0]);
      ClosedContainsReachAll(s, cs[1..]);
    }
  }

  lemma {:induction false} ClosedContainsReachLinks(s: set<Cid>, links: seq<Link>)
    requires Closed(s) && forall i | 0 <= i < |links| :: links[i].target in s
    ensures ReachLinks(links) <= s
    decreases links
  {
    if links != [] {
      ClosedContainsReach(s, links[0].target);
      ClosedContainsReachLinks(s, links[1..]);
    }
  }

  lemma SelfInReach(c: Cid)
    ensures c in Reach(c)
  {
  }

  lemma UnionClosed(a: set<Cid>, b: set<Cid>)
    requires Closed(a) && Closed(b)
    ensures Closed(a + b)
  {
  }

  /** The reach of a CID is closed under links: whatever a reachable node links
      to is reachable too. */
  lemma {:induction false} ReachIsClosed(c: Cid)
    ensures Closed(Reach(c))
    decreases c
  {
    match c
    case V0(_) =>
    case V1(n) =>
      match n
      case RawLeaf(_) =>
      case PbSymlink(_) =>
      case PbFile(children, _) =>
        ReachAllIsClosed(children);
        ReachAllMembers(children);
        forall i | 0 <= i < |children| ensures children[i] in Reach(c) {
          SelfInReach(children[i]);
        }
        assert Links(c) == children;
        forall x | x in Reach(c)
          ensures forall i | 0 <= i < |Links(x)| :: Links(x)[i] in Reach(c)
        {
          if x != c {
            assert x in ReachAll(children);
          }
        }
      case PbDir(links) =>
        ReachLinksIsClosed(links);
        ReachLinksIsReachAll(links);
        ReachAllMembers(Targets(links));
        forall i | 0 <= i < |links| ensures links[i].target in Reach(c) {
          SelfInReach(links[i].target);
          assert Targets(links)[i] == links[i].target;
        }
        assert Links(c) == Targets(links);
        forall x | x in Reach(c)
          ensures forall i | 0 <= i < |Links(x)| :: Links(x)[i] in Reach(c)
        {
          if x != c {
            assert x in ReachLinks(links);
          }
        }
  }

  lemma {:induction false} ReachAllIsClosed(cs: seq<Cid>)
    ensures Closed(ReachAll(cs))
    decreases cs
  {
    if cs != [] {
      ReachIsClosed(cs[0]);
      ReachAllIsClosed(cs[1..]);
      UnionClosed(Reach(cs[0]), ReachAll(cs[1..]));
    }
  }

  lemma {:induction false} ReachLinksIsClosed(links: seq<Link>)
    ensures Closed(ReachLinks(links))
    decreases links
  {
    if links != [] {
      ReachIsClosed(links[0].target);
      ReachLinksIsClosed(links[1..]);
      UnionClosed(Reach(links[0].target), ReachLinks(links[1..]));
    }
  }
}

=== FILE: datastore_config.dfy ===
/**
  The datastore-spec validator of pkg/fsrepo/config.go: a registry from type
  names to parsers, the recursive `AnyDatastoreConfig`, the mount, mem and
  measure parsers, the on-disk projection `DiskSpec` and `Create`.

  Two library functions are parameters of the environment: `ds.NewKey`,
  which normalises a mount prefix, and flatfs's shard-function parser.
*/
module DatastoreConfig {
  import opened Results
  import opened Json
  import LevelDb
  import FlatFs
  import GoPath

  datatype Parser = MountParser | MemParser | MeasureParser | LevelDbParser | FlatFsParser

  type Registry = map<string, Parser>

  datatype Env = Env(registry: Registry, newKey: string -> string, parseShard: string -> Option<FlatFs.ShardId>)

  datatype Config =
    | Mount(mounts: seq<Premount>)
    | Mem(params: map<string, Json>)
    | Measure(child: Config, prefix: string)
    | LevelDb(level: LevelDb.Config)
    | FlatFs(flat: FlatFs.Config)

  datatype Premount = Premount(ds: Config, prefix: string)

  datatype Error =
    | AlreadyRegistered(name: string)
    | TypeMissing
    | UnknownType(which: string)
    | MountsNotArray
    | MountNotMap
    | NoMountpoint
    /** A mountpoint that is not a string: the source panics here. */
    | MountpointNotString
    | ChildNotMap
    | PrefixNotString
    | LevelDbError(level: LevelDb.Error)
    | FlatFsError(flat: FlatFs.Error)
    | OpenFailed(dir: string)

  /** `AddDatastoreConfigHandler`: a name is registered at most once. */
  function AddHandler(reg: Registry, name: string, parser: Parser): (r: Result<Registry, Error>)
    ensures r.Err? <==> name in reg
    ensures r.Err? ==> r.error == AlreadyRegistered(name)
    ensures r.Ok? ==> r.value.Keys == reg.Keys + {name} && r.value[name] == parser
    ensures r.Ok? ==> forall n | n in reg :: n in r.value && r.value[n] == reg[n]
  {
    if name in reg then Err(AlreadyRegistered(name)) else Ok(reg[name := parser])
  }

  /** `init`: the three built-in parsers, then levelds and flatfs through
      `AddDatastoreConfigHandler` (a failure there is a panic). */
  function Init(): Result<Registry, Error>
  {
    var builtIn := map["mount" := MountParser, "mem" := MemParser, "measure" := MeasureParser];
    match AddHandler(builtIn, "levelds", LevelDbParser)
    case Err(e) => Err(e)
    case Ok(reg) => AddHandler(reg, "flatfs", FlatFsParser)
  }

  const InitialRegistry: Registry :=
    map["mount" := MountParser, "mem" := MemParser, "measure" := MeasureParser,
        "levelds" := LevelDbParser, "flatfs" := FlatFsParser]

  lemma InitRegistersFive()
    ensures Init() == Ok(InitialRegistry)
    ensures InitialRegistry.Keys == {"mount", "mem", "measure", "levelds", "flatfs"}
  {
    var builtIn := map["mount" := MountParser, "mem" := MemParser, "measure" := MeasureParser];
    assert "levelds" !in builtIn;
    var reg := builtIn["levelds" := LevelDbParser];
    assert "flatfs" !in reg;
    assert reg["flatfs" := FlatFsParser] == InitialRegistry;
  }

  /** The repository's test: a fresh name is accepted, a taken one is not. */
  lemma RegisterAnotherName()
    ensures AddHandler(InitialRegistry, "levelds-test", LevelDbParser).Ok?
    ensures AddHandler(InitialRegistry, "levelds", LevelDbParser) == Err(AlreadyRegistered("levelds"))
  {
  }

  /** The parser a config came from. */
  function KindOf(c: Config): Parser
  {
    match c
    case Mount(_) => MountParser
    case Mem(_) => MemParser
    case Measure(_, _) => MeasureParser
    case LevelDb(_) => LevelDbParser
    case FlatFs(_) => FlatFsParser
  }

  /** `AnyDatastoreConfig`: a string `type` naming a registered parser,
      whose answer is the result. */
  function AnyConfig(env: Env, params: map<string, Json>): (r: Result<Config, Error>)
    decreases Obj(params), 2
    ensures !Get(params, "type").Str? ==> r == Err(TypeMissing)
    ensures Get(params, "type").Str? && params["type"].s !in env.registry ==> r == Err(UnknownType(params["type"].s))
    ensures r.Ok? ==> Get(params, "type").Str? && params["type"].s in env.registry
    ensures r.Ok? ==> KindOf(r.value) == env.registry[params["type"].s]
  {
    var which := Get(params, "type");
    if !which.Str? then Err(TypeMissing)
    else if which.s !in env.registry then Err(UnknownType(which.s))
    else Run(env, env.registry[which.s], params)
  }

  function Run(env: Env, parser: Parser, params: map<string, Json>): (r: Result<Config, Error>)
    decreases Obj(params), 1
    ensures r.Ok? ==> KindOf(r.value) == parser
  {
    match parser
    case MountParser => ParseMount(env, params)
    case MemParser => Ok(Mem(params))
    case MeasureParser => ParseMeasure(env, params)
    case LevelDbParser =>
      (match LevelDb.Parse(params)
       case Err(e) => Err(LevelDbError(e))
       case Ok(c) => Ok(LevelDb(c)))
    case FlatFsParser =>
      (match FlatFs.Parse(params, env.parseShard)
       case Err(e) => Err(FlatFsError(e))
       case Ok(c) => Ok(FlatFs(c)))
  }

  /** `MountDatastoreConfig`: every element of the `mounts` array, in order,
      then the mount table sorted by prefix, largest first. */
  function ParseMount(env: Env, params: map<string, Json>): (r: Result<Config, Error>)
    decreases Obj(params), 0
    ensures !Get(params, "mounts").Arr? ==> r == Err(MountsNotArray)
    ensures r.Ok? ==> r.value.Mount? && Descending(r.value.mounts)
    ensures r.Ok? ==> Get(params, "mounts").Arr? && ParseMounts(env, params["mounts"].items).Ok?
    ensures r.Ok? ==> multiset(r.value.mounts) == multiset(ParseMounts(env, params["mounts"].items).value)
    ensures Get(params, "mounts").Arr? && ParseMounts(env, params["mounts"].items).Err? ==>
      r == Err(ParseMounts(env, params["mounts"].items).error)
  {
    var mounts := Get(params, "mounts");
    if !mounts.Arr? then Err(MountsNotArray)
    else match ParseMounts(env, mounts.items)
      case Err(e) => Err(e)
      case Ok(pms) => Ok(Mount(SortMounts(pms)))
  }

  function ParseMounts(env: Env, items: seq<Json>): (r: Result<seq<Premount>, Error>)
    decreases items, 4
    ensures r.Ok? ==> |r.value| == |items|
  {
    if items == [] then Ok([])
    else match ParseMountEntry(env, items[0])
      case Err(e) => Err(e)
      case Ok(pm) =>
        match ParseMounts(env, items[1..])
        case Err(e) => Err(e)
        case Ok(rest) => Ok([pm] + rest)
  }

  /** One element of `mounts`: a map, whose child config is parsed before its
      `mountpoint` is looked at. */
  function ParseMountEntry(env: Env, item: Json): (r: Result<Premount, Error>)
    decreases item, 3
    ensures !item.Obj? ==> r == Err(MountNotMap)
    ensures item.Obj? && AnyConfig(env, item.fields).Err? ==> r == Err(AnyConfig(env, item.fields).error)
    ensures item.Obj? && AnyConfig(env, item.fields).Ok? && "mountpoint" !in item.fields ==> r == Err(NoMountpoint)
    ensures r.Ok? <==> item.Obj? && AnyConfig(env, item.fields).Ok? && Get(item.fields, "mountpoint").Str?
    ensures r.Ok? ==> r.value == Premount(AnyConfig(env, item.fields).value, env.newKey(item.fields["mountpoint"].s))
  {
    if !item.Obj? then Err(MountNotMap)
    else match AnyConfig(env, item.fields)
      case Err(e) => Err(e)
      case Ok(child) =>
        if "mountpoint" !in item.fields then Err(NoMountpoint)
        else
          var prefix := item.fields["mountpoint"];
          if !prefix.Str? then Err(MountpointNotString)
          else Ok(Premount(child, env.newKey(prefix.s)))
  }

  /** `MeasureDatastoreConfig`: a `child` map that parses, then a string `prefix`. */
  function ParseMeasure(env: Env, params: map<string, Json>): (r: Result<Config, Error>)
    decreases Obj(params), 0
    ensures !Get(params, "child").Obj? ==> r == Err(ChildNotMap)
    ensures Get(params, "child").Obj? && AnyConfig(env, params["child"].fields).Err? ==>
              r == Err(AnyConfig(env, params["child"].fields).error)
    ensures r.Ok? <==> Get(params, "child").Obj? && AnyConfig(env, params["child"].fields).Ok? && Get(params, "prefix").Str?
    ensures r.Ok? ==> r.value == Measure(AnyConfig(env, params["child"].fields).value, params["prefix"].s)
  {
    var childField := Get(params, "child");
    if !childField.Obj? then Err(ChildNotMap)
    else match AnyConfig(env, childField.fields)
      case Err(e) => Err(e)
      case Ok(child) =>
        var prefix := Get(params, "prefix");
        if !prefix.Str? then Err(PrefixNotString)
        else Ok(Measure(child, prefix.s))
  }

  /** The mount table's order: no prefix is smaller than a later one. */
  predicate Descending(ms: seq<Premount>)
  {
    forall i, j | 0 <= i < j < |ms| :: AtLeast(ms[i].prefix, ms[j].prefix)
  }

  function Insert(m: Premount, ms: seq<Premount>): (r: seq<Premount>)
    requires Descending(ms)
    ensures Descending(r)
    ensures multiset(r) == multiset(ms) + multiset{m}
    ensures |r| == |ms| + 1
  {
    if ms == [] then [m]
    else if AtLeast(m.prefix, ms[0].prefix) then
      InsertFront(m, ms);
      [m] + ms
    else
      var rest := Insert(m, ms[1..]);
      InsertAfterHead(m, ms, rest);
      [ms[0]] + rest
  }

  /** The head of a sorted table stays ahead of anything the rest holds, a
      smaller newcomer included. */
  lemma InsertAfterHead(m: Premount, ms: seq<Premount>, rest: seq<Premount>)
    requires Descending(ms) && ms != [] && !AtLeast(m.prefix, ms[0].prefix)
    requires Descending(rest) && multiset(rest) == multiset(ms[1..]) + multiset{m}
    ensures Descending([ms[0]] + rest)
    ensures multiset([ms[0]] + rest) == multiset(ms) + multiset{m}
  {
    AtLeastTotal(m.prefix, ms[0].prefix);
    assert ms == [ms[0]] + ms[1..];
    var contents := multiset(ms[1..]) + multiset{m};
    forall p | p in contents
      ensures AtLeast(ms[0].prefix, p.prefix)
    {
      if p != m {
        assert p in ms[1..];
        var k :| 0 <= k < |ms[1..]| && ms[1..][k] == p;
        assert ms[k + 1] == p;
      }
    }
    InsertBehind(ms[0], rest, contents);
  }

  lemma InsertFront(m: Premount, ms: seq<Premount>)
    requires Descending(ms) && ms != [] && AtLeast(m.prefix, ms[0].prefix)
    ensures Descending([m] + ms)
  {
    var r := [m] + ms;
    forall i, j | 0 <= i < j < |r|
      ensures AtLeast(r[i].prefix, r[j].prefix)
    {
      if i == 0 && j > 1 {
        AtLeastTransitive(m.prefix, ms[0].prefix, ms[j - 1].prefix);
      }
    }
  }

  lemma InsertBehind(first: Premount, rest: seq<Premount>, contents: multiset<Premount>)
    requires Descending(rest) && multiset(rest) == contents
    requires forall p | p in contents :: AtLeast(first.prefix, p.prefix)
    ensures Descending([first] + rest)
  {
    var r := [first] + rest;
    forall i, j | 0 <= i < j < |r|
      ensures AtLeast(r[i].prefix, r[j].prefix)
    {
      if i == 0 {
        assert rest[j - 1] in multiset(rest);
      }
    }
  }

  /** `sort.Slice` by prefix, largest first.  Go leaves the order of equal
      prefixes unspecified; this picks one. */
  function SortMounts(ms: seq<Premount>): (r: seq<Premount>)
    ensures Descending(r)
    ensures multiset(r) == multiset(ms)
    ensures |r| == |ms|
  {
    if ms == [] then []
    else
      assert ms == [ms[0]] + ms[1..];
      Insert(ms[0], SortMounts(ms[1..]))
  }

  /** With distinct prefixes the order is strict. */
  lemma StrictlyDescending(ms: seq<Premount>)
    requires Descending(ms)
    requires forall i, j | 0 <= i < j < |ms| :: ms[i].prefix != ms[j].prefix
    ensures forall i, j | 0 <= i < j < |ms| :: Less(ms[j].prefix, ms[i].prefix)
  {
    forall i, j | 0 <= i < j < |ms|
      ensures Less(ms[j].prefix, ms[i].prefix)
    {
      LessTotal(ms[i].prefix, ms[j].prefix);
    }
  }

  /** `ParseMounts` against its element parser: it succeeds exactly when
      every element does, keeps their order, and otherwise reports the first
      element's error. */
  lemma {:induction false} ParseMountsSpec(env: Env, items: seq<Json>)
    ensures ParseMounts(env, items).Ok? <==> forall i | 0 <= i < |items| :: ParseMountEntry(env, items[i]).Ok?
    ensures ParseMounts(env, items).Ok? ==>
              forall i | 0 <= i < |items| :: ParseMounts(env, items).value[i] == ParseMountEntry(env, items[i]).value
    ensures ParseMounts(env, items).Err? ==>
              exists k | 0 <= k < |items| ::
                ParseMountEntry(env, items[k]) == Err(ParseMounts(env, items).error) &&
                forall i | 0 <= i < k :: ParseMountEntry(env, items[i]).Ok?
    decreases |items|
  {
    if items != [] {
      ParseMountsSpec(env, items[1..]);
      var r := ParseMounts(env, items);
      var head := ParseMountEntry(env, items[0]);
      if head.Ok? && ParseMounts(env, items[1..]).Err? {
        var k :| 0 <= k < |items[1..]| &&
                 ParseMountEntry(env, items[1..][k]) == Err(ParseMounts(env, items[1..]).error) &&
                 forall i | 0 <= i < k :: ParseMountEntry(env, items[1..][i]).Ok?;
        assert ParseMountEntry(env, items[k + 1]) == Err(r.error);
        forall i | 0 <= i < k + 1
          ensures ParseMountEntry(env, items[i]).Ok?
        {
          if i > 0 {
            assert items[i] == items[1..][i - 1];
          }
        }
      }
      if r.Ok? {
        forall i | 0 <= i < |items|
          ensures ParseMountEntry(env, items[i]).Ok? && r.value[i] == ParseMountEntry(env, items[i]).value
        {
          if i > 0 {
            assert items[i] == items[1..][i - 1];
          }
        }
      }
      if !head.Ok? {
        assert ParseMountEntry(env, items[0]) == Err(r.error);
      }
      if forall i | 0 <= i < |items| :: ParseMountEntry(env, items[i]).Ok? {
        forall i | 0 <= i < |items[1..]|
          ensures ParseMountEntry(env, items[1..][i]).Ok?
        {
          assert items[1..][i] == items[i + 1];
        }
      }
    }
  }
  /** `MountDatastoreConfig` accepts a `mounts` array exactly when every
      element parses.  The table is then a permutation of the parsed
      elements; otherwise the first element that fails gives the error. */
  lemma ParseMountSpec(env: Env, params: map<string, Json>)
    ensures Get(params, "mounts").Arr? ==>
      var items := params["mounts"].items;
      var r := ParseMount(env, params);
      && (r.Ok? <==> forall i | 0 <= i < |items| :: ParseMountEntry(env, items[i]).Ok?)
      && (r.Ok? ==> |r.value.mounts| == |items| &&
                    multiset(r.value.mounts) == multiset(ParseMounts(env, items).value) &&
                    forall i | 0 <= i < |items| :: ParseMounts(env, items).value[i] == ParseMountEntry(env, items[i]).value)
      && (r.Err? ==> exists k | 0 <= k < |items| ::
                       ParseMountEntry(env, items[k]) == Err(r.error) &&
                       forall i | 0 <= i < k :: ParseMountEntry(env, items[i]).Ok?)
  {
    if Get(params, "mounts").Arr? {
      ParseMountsSpec(env, params["mounts"].items);
    }
  }


  /** `DiskSpec`: the minimal description of what is stored on disk.  A mount
      lists its children's specs in table order, each with its mountpoint
      added (an empty map standing for a child without one); measure is
      transparent; mem has none. */
  function DiskSpec(c: Config): (spec: Option<map<string, Json>>)
    decreases c, 1
    ensures spec.None? <==> c.Mem? || (c.Measure? && DiskSpec(c.child).None?)
  {
    match c
    case Mount(ms) => Some(map["type" := Str("mount"), "mounts" := Arr(MountSpecs(ms))])
    case Mem(_) => None
    case Measure(child, _) => DiskSpec(child)
    case LevelDb(level) => Some(LevelDb.DiskSpec(level))
    case FlatFs(flat) => Some(FlatFs.DiskSpec(flat))
  }

  function MountSpecs(ms: seq<Premount>): (specs: seq<Json>)
    decreases ms, 0
    ensures |specs| == |ms|
    ensures forall i | 0 <= i < |ms| :: specs[i] == Obj(MountEntrySpec(ms[i]))
  {
    if ms == [] then [] else [Obj(MountEntrySpec(ms[0]))] + MountSpecs(ms[1..])
  }

  /** One entry of a mount's spec: the child's spec plus the mountpoint. */
  function MountEntrySpec(m: Premount): (spec: map<string, Json>)
    decreases m, 2
    ensures spec.Keys == (if DiskSpec(m.ds).Some? then DiskSpec(m.ds).value.Keys else {}) + {"mountpoint"}
    ensures spec["mountpoint"] == Str(m.prefix)
    ensures forall k | k in spec && k != "mountpoint" :: spec[k] == DiskSpec(m.ds).value[k]
  {
    var base := match DiskSpec(m.ds) case None => map[] case Some(child) => child;
    base["mountpoint" := Str(m.prefix)]
  }

  /** Keys that configure a datastore at run time only. */
  const RuntimeFields: set<string> := {"sync", "compression", "prefix", "child"}

  /** No run-time key and no measure or mem type anywhere inside. */
  predicate OnDisk(j: Json)
  {
    match j
    case Obj(fields) =>
      (forall k | k in fields :: k !in RuntimeFields && OnDisk(fields[k])) &&
      Get(fields, "type") != Str("measure") && Get(fields, "type") != Str("mem")
    case Arr(items) => forall i | 0 <= i < |items| :: OnDisk(items[i])
    case _ => true
  }

  /** A disk spec drops every run-time field, at every depth. */
  lemma {:induction false} DiskSpecIsOnDisk(c: Config)
    ensures DiskSpec(c).Some? ==> OnDisk(Obj(DiskSpec(c).value))
    decreases c, 1
  {
    match c
    case Mount(ms) =>
      MountSpecsOnDisk(ms);
      var spec := DiskSpec(c).value;
      assert spec.Keys == {"type", "mounts"};
    case Mem(_) =>
    case Measure(child, _) =>
      DiskSpecIsOnDisk(child);
    case LevelDb(level) =>
    case FlatFs(flat) =>
  }

  lemma {:induction false} MountSpecsOnDisk(ms: seq<Premount>)
    ensures OnDisk(Arr(MountSpecs(ms)))
    decreases ms, 0
  {
    var specs := MountSpecs(ms);
    forall i | 0 <= i < |ms|
      ensures OnDisk(specs[i])
    {
      DiskSpecIsOnDisk(ms[i].ds);
      var spec := MountEntrySpec(ms[i]);
      assert Get(spec, "type") == Get(if DiskSpec(ms[i].ds).Some? then DiskSpec(ms[i].ds).value else map[], "type");
    }
  }

  /** The datastores `Create` builds, with the directories they open. */
  datatype Store =
    | MountStore(mounts: seq<Mounted>)
    | MemStore
    | MeasureStore(prefix: string, child: Store)
    | LevelStore(dir: string, compression: LevelDb.Compression)
    | FlatStore(dir: string, shard: FlatFs.ShardId, sync: bool)

  datatype Mounted = Mounted(prefix: string, store: Store)

  /** The directories a config opens, in mount-table order. */
  function Dirs(c: Config, repoPath: string): seq<string>
    decreases c, 1
  {
    match c
    case Mount(ms) => MountDirs(ms, repoPath)
    case Mem(_) => []
    case Measure(child, _) => Dirs(child, repoPath)
    case LevelDb(level) => [GoPath.Locate(level.path, repoPath)]
    case FlatFs(flat) => [GoPath.Locate(flat.path, repoPath)]
  }

  function MountDirs(ms: seq<Premount>, repoPath: string): seq<string>
    decreases ms, 0
  {
    if ms == [] then [] else Dirs(ms[0].ds, repoPath) + MountDirs(ms[1..], repoPath)
  }

  /** `Create`: each mount's child in table order, the first failure ending
      it; opening a directory is the library's and may fail. */
  function Create(c: Config, repoPath: string, openFails: string -> bool): (r: Result<Store, Error>)
    decreases c, 1
    ensures r.Ok? <==> forall d | d in Dirs(c, repoPath) :: !openFails(d)
    ensures r.Err? ==> r.error.OpenFailed? && FirstFailure(Dirs(c, repoPath), openFails, r.error.dir)
  {
    match c
    case Mount(ms) =>
      (match CreateMounts(ms, repoPath, openFails)
       case Err(e) => Err(e)
       case Ok(mounted) => Ok(MountStore(mounted)))
    case Mem(_) => Ok(MemStore)
    case Measure(child, prefix) =>
      (match Create(child, repoPath, openFails)
       case Err(e) => Err(e)
       case Ok(store) => Ok(MeasureStore(prefix, store)))
    case LevelDb(level) =>
      var dir := GoPath.Locate(level.path, repoPath);
      if openFails(dir) then
        FirstFailureSingle(dir, openFails);
        Err(OpenFailed(dir))
      else Ok(LevelStore(dir, level.compression))
    case FlatFs(flat) =>
      var dir := GoPath.Locate(flat.path, repoPath);
      if openFails(dir) then
        FirstFailureSingle(dir, openFails);
        Err(OpenFailed(dir))
      else Ok(FlatStore(dir, flat.shard, flat.sync))
  }

  function CreateMounts(ms: seq<Premount>, repoPath: string, openFails: string -> bool): (r: Result<seq<Mounted>, Error>)
    decreases ms, 0
    ensures r.Ok? <==> forall d | d in MountDirs(ms, repoPath) :: !openFails(d)
    ensures r.Err? ==> r.error.OpenFailed? && FirstFailure(MountDirs(ms, repoPath), openFails, r.error.dir)
    ensures r.Ok? ==> |r.value| == |ms| && forall i | 0 <= i < |ms| :: r.value[i].prefix == ms[i].prefix
  {
    if ms == [] then Ok([])
    else match Create(ms[0].ds, repoPath, openFails)
      case Err(e) =>
        FirstFailureBefore(Dirs(ms[0].ds, repoPath), MountDirs(ms[1..], repoPath), openFails, e.dir);
        Err(e)
      case Ok(store) =>
        match CreateMounts(ms[1..], repoPath, openFails)
        case Err(e) =>
          FirstFailureAfter(Dirs(ms[0].ds, repoPath), MountDirs(ms[1..], repoPath), openFails, e.dir);
          Err(e)
        case Ok(rest) => Ok([Mounted(ms[0].prefix, store)] + rest)
  }

  /** `d` is the first directory of `ds` that fails to open. */
  ghost predicate FirstFailure(ds: seq<string>, openFails: string -> bool, d: string)
  {
    exists k | 0 <= k < |ds| :: ds[k] == d && openFails(d) && forall j | 0 <= j < k :: !openFails(ds[j])
  }

  lemma FirstFailureSingle(d: string, openFails: string -> bool)
    requires openFails(d)
    ensures FirstFailure([d], openFails, d)
  {
    assert [d][0] == d;
  }

  lemma FirstFailureBefore(xs: seq<string>, ys: seq<string>, openFails: string -> bool, d: string)
    requires FirstFailure(xs, openFails, d)
    ensures FirstFailure(xs + ys, openFails, d)
  {
    var k :| 0 <= k < |xs| && xs[k] == d && openFails(d) && forall j | 0 <= j < k :: !openFails(xs[j]);
    assert (xs + ys)[k] == d;
    assert forall j | 0 <= j < k :: (xs + ys)[j] == xs[j];
  }

  lemma FirstFailureAfter(xs: seq<string>, ys: seq<string>, openFails: string -> bool, d: string)
    requires forall x | x in xs :: !openFails(x)
    requires FirstFailure(ys, openFails, d)
    ensures FirstFailure(xs + ys, openFails, d)
  {
    var k :| 0 <= k < |ys| && ys[k] == d && openFails(d) && forall j | 0 <= j < k :: !openFails(ys[j]);
    assert (xs + ys)[|xs| + k] == d;
    forall j | 0 <= j < |xs| + k
      ensures !openFails((xs + ys)[j])
    {
      if j < |xs| {
        assert (xs + ys)[j] == xs[j] && xs[j] in xs;
      } else {
        assert (xs + ys)[j] == ys[j - |xs|];
      }
    }
  }

  /** Under an absolute repository path every directory opened is absolute. */
  lemma {:induction false} DirsAbsolute(c: Config, repoPath: string)
    requires GoPath.IsAbs(repoPath)
    ensures forall d | d in Dirs(c, repoPath) :: GoPath.IsAbs(d)
    decreases c, 1
  {
    match c
    case Mount(ms) => MountDirsAbsolute(ms, repoPath);
    case Mem(_) =>
    case Measure(child, _) => DirsAbsolute(child, repoPath);
    case LevelDb(level) =>
    case FlatFs(flat) =>
  }

  lemma {:induction false} MountDirsAbsolute(ms: seq<Premount>, repoPath: string)
    requires GoPath.IsAbs(repoPath)
    ensures forall d | d in MountDirs(ms, repoPath) :: GoPath.IsAbs(d)
    decreases ms, 0
  {
    if ms != [] {
      DirsAbsolute(ms[0].ds, repoPath);
      MountDirsAbsolute(ms[1..], repoPath);
    }
  }
}

=== FILE: flatfs.dfy ===
/**
  The flatfs datastore config (pkg/fsrepo/flatfs.go).  Parsing a shard
  function identifier is the flatfs library's business: it is a parameter
  here, and a parsed shard function is known by its canonical string form.
*/
module FlatFs {
  import opened Results
  import opened Json

  datatype ShardId = ShardId(form: string)

  datatype Config = Config(path: string, shard: ShardId, sync: bool)

  datatype Error = PathNotString | ShardFuncNotString | ShardFuncInvalid(raw: string) | SyncNotBool

  /** `FlatFsDatastoreConfigParser`: string `path`, then a string `shardFunc`
      that parses, then a boolean `sync`; the first failure is the answer. */
  function Parse(params: map<string, Json>, parseShard: string -> Option<ShardId>): (r: Result<Config, Error>)
    ensures !Get(params, "path").Str? ==> r == Err(PathNotString)
    ensures Get(params, "path").Str? && !Get(params, "shardFunc").Str? ==> r == Err(ShardFuncNotString)
    ensures Get(params, "path").Str? && Get(params, "shardFunc").Str? && parseShard(params["shardFunc"].s).None? ==>
              r == Err(ShardFuncInvalid(params["shardFunc"].s))
    ensures r.Ok? <==> Get(params, "path").Str? && Get(params, "shardFunc").Str? &&
                       parseShard(params["shardFunc"].s).Some? && Get(params, "sync").Bool?
    ensures r.Ok? ==> r.value == Config(params["path"].s, parseShard(params["shardFunc"].s).value, params["sync"].b)
  {
    var path := Get(params, "path");
    var raw := Get(params, "shardFunc");
    if !path.Str? then Err(PathNotString)
    else if !raw.Str? then Err(ShardFuncNotString)
    else match parseShard(raw.s)
      case None => Err(ShardFuncInvalid(raw.s))
      case Some(shard) =>
        var sync := Get(params, "sync");
        if !sync.Bool? then Err(SyncNotBool)
        else Ok(Config(path.s, shard, sync.b))
  }

  /** What is stored on disk: type, path and the parsed shard function's
      string form; `sync` is a run-time choice. */
  function DiskSpec(c: Config): (spec: map<string, Json>)
    ensures spec.Keys == {"type", "path", "shardFunc"}
    ensures spec["type"] == Str("flatfs") && spec["path"] == Str(c.path) && spec["shardFunc"] == Str(c.shard.form)
  {
    map["type" := Str("flatfs"), "path" := Str(c.path), "shardFunc" := Str(c.shard.form)]
  }

  /** The spec records the shard function as parsed, not as written: two
      spellings the library reads as the same function give the same spec,
      and `sync` never matters. */
  lemma DiskSpecOfParsed(p: map<string, Json>, q: map<string, Json>, parseShard: string -> Option<ShardId>)
    requires Parse(p, parseShard).Ok? && Parse(q, parseShard).Ok?
    requires p["path"] == q["path"] && parseShard(p["shardFunc"].s) == parseShard(q["shardFunc"].s)
    ensures DiskSpec(Parse(p, parseShard).value) == DiskSpec(Parse(q, parseShard).value)
  {
  }
}

=== FILE: fsspec.dfy ===
/**
  The repository's default datastore spec and the minimal encoding of a disk
  spec (pkg/fsrepo/fsspec.go).  JSON marshalling is the standard library's:
  it is a parameter here, and only the whitespace trimming around it is
  modelled.
*/
module FsSpec {
  import opened Results
  import opened Json
  import Cids
  import LevelDb
  import FlatFs
  import opened DatastoreConfig

  const NextToLast2: string := "/repo/flatfs/shard/v1/next-to-last/2"

  /** Blocks in flatfs under `/blocks`, everything else in leveldb under `/`,
      both wrapped in measure. */
  function DefaultDiskSpec(): map<string, Json>
  {
    map["type" := Str("mount"),
        "mounts" := Arr([Obj(BlocksMount()), Obj(RootMount())])]
  }

  function BlocksMount(): map<string, Json>
  {
    map["mountpoint" := Str("/blocks"), "type" := Str("measure"), "prefix" := Str("flatfs.datastore"),
        "child" := Obj(map["type" := Str("flatfs"), "path" := Str("blocks"), "sync" := Bool(true),
                           "shardFunc" := Str(NextToLast2)])]
  }

  function RootMount(): map<string, Json>
  {
    map["mountpoint" := Str("/"), "type" := Str("measure"), "prefix" := Str("leveldb.datastore"),
        "child" := Obj(map["type" := Str("levelds"), "path" := Str("datastore"), "compression" := Str("none")])]
  }

  /** The registry holds the built-in parsers under their own names. */
  predicate BuiltIns(reg: Registry)
  {
    forall n | n in InitialRegistry :: n in reg && reg[n] == InitialRegistry[n]
  }

  /** The library facts the default spec relies on: the shard identifier
      parses, and the two mountpoints are already normal keys. */
  predicate DefaultLibrary(env: Env, shard: FlatFs.ShardId)
  {
    env.parseShard(NextToLast2) == Some(shard) && env.newKey("/blocks") == "/blocks" && env.newKey("/") == "/"
  }

  function BlocksPremount(shard: FlatFs.ShardId): Premount
  {
    Premount(Measure(FlatFs(FlatFs.Config("blocks", shard, true)), "flatfs.datastore"), "/blocks")
  }

  function RootPremount(): Premount
  {
    Premount(Measure(LevelDb(LevelDb.Config("datastore", LevelDb.NoCompression)), "leveldb.datastore"), "/")
  }

  function DefaultConfig(shard: FlatFs.ShardId): Config
  {
    Mount([BlocksPremount(shard), RootPremount()])
  }

  lemma BlocksEntryParses(env: Env, shard: FlatFs.ShardId)
    requires BuiltIns(env.registry) && DefaultLibrary(env, shard)
    ensures ParseMountEntry(env, Obj(BlocksMount())) == Ok(BlocksPremount(shard))
  {
    assert "measure" in InitialRegistry && "flatfs" in InitialRegistry;
    var flatChild := BlocksMount()["child"].fields;
    assert AnyConfig(env, flatChild) == Ok(FlatFs(FlatFs.Config("blocks", shard, true)));
    assert AnyConfig(env, BlocksMount()) == Ok(BlocksPremount(shard).ds);
  }

  lemma RootEntryParses(env: Env, shard: FlatFs.ShardId)
    requires BuiltIns(env.registry) && DefaultLibrary(env, shard)
    ensures ParseMountEntry(env, Obj(RootMount())) == Ok(RootPremount())
  {
    assert "measure" in InitialRegistry && "levelds" in InitialRegistry;
    var levelChild := RootMount()["child"].fields;
    assert AnyConfig(env, levelChild) == Ok(LevelDb(LevelDb.Config("datastore", LevelDb.NoCompression)));
    assert AnyConfig(env, RootMount()) == Ok(RootPremount().ds);
  }

  lemma DefaultMountsParse(env: Env, shard: FlatFs.ShardId)
    requires BuiltIns(env.registry) && DefaultLibrary(env, shard)
    ensures ParseMounts(env, [Obj(BlocksMount()), Obj(RootMount())]) == Ok([BlocksPremount(shard), RootPremount()])
  {
    BlocksEntryParses(env, shard);
    RootEntryParses(env, shard);
    TwoMounts(env, Obj(BlocksMount()), Obj(RootMount()), BlocksPremount(shard), RootPremount());
  }

  lemma TwoMounts(env: Env, x: Json, y: Json, px: Premount, py: Premount)
    requires ParseMountEntry(env, x) == Ok(px) && ParseMountEntry(env, y) == Ok(py)
    ensures ParseMounts(env, [x, y]) == Ok([px, py])
  {
    ParseMountsSpec(env, [x, y]);
    var pms := ParseMounts(env, [x, y]).value;
    assert |pms| == 2 && pms[0] == px && pms[1] == py;
    assert pms == [px, py];
  }

  /** `/blocks` sorts ahead of `/`. */
  lemma DefaultMountsSorted(shard: FlatFs.ShardId)
    ensures SortMounts([BlocksPremount(shard), RootPremount()]) == [BlocksPremount(shard), RootPremount()]
  {
    var blocks := BlocksPremount(shard);
    var root := RootPremount();
    assert Less("/", "/blocks");
    LessAsymmetric("/", "/blocks");
    assert SortMounts([root]) == [root];
    assert [blocks, root][1..] == [root];
  }

  /** The default spec is accepted, and parses to the `/blocks` mount ahead
      of the `/` mount. */
  lemma DefaultAccepted(env: Env, shard: FlatFs.ShardId)
    requires BuiltIns(env.registry) && DefaultLibrary(env, shard)
    ensures AnyConfig(env, DefaultDiskSpec()) == Ok(DefaultConfig(shard))
  {
    assert "mount" in InitialRegistry;
    DefaultMountsParse(env, shard);
    DefaultMountsSorted(shard);
  }

  /** The default spec's disk projection: `/blocks` first, and no measure,
      prefix, sync or compression field left. */
  lemma DefaultProjection(shard: FlatFs.ShardId)
    ensures DiskSpec(DefaultConfig(shard)) == Some(map[
      "type" := Str("mount"),
      "mounts" := Arr([
        Obj(map["type" := Str("flatfs"), "path" := Str("blocks"), "shardFunc" := Str(shard.form), "mountpoint" := Str("/blocks")]),
        Obj(map["type" := Str("levelds"), "path" := Str("datastore"), "mountpoint" := Str("/")])])])
    ensures OnDisk(Obj(DiskSpec(DefaultConfig(shard)).value))
  {
    var c := DefaultConfig(shard);
    var specs := MountSpecs(c.mounts);
    assert specs[0] == Obj(map["type" := Str("flatfs"), "path" := Str("blocks"), "shardFunc" := Str(shard.form), "mountpoint" := Str("/blocks")]);
    assert specs[1] == Obj(map["type" := Str("levelds"), "path" := Str("datastore"), "mountpoint" := Str("/")]);
    assert specs == [specs[0], specs[1]];
    DiskSpecIsOnDisk(c);
  }

  /** ASCII white space, what `bytes.TrimSpace` removes from JSON output. */
  predicate IsSpace(b: Cids.byte)
  {
    b == 9 || b == 10 || b == 11 || b == 12 || b == 13 || b == 32
  }

  /** How many white-space bytes open `b`. */
  function Leading(b: seq<Cids.byte>): (n: nat)
    ensures n <= |b|
    ensures forall k | 0 <= k < n :: IsSpace(b[k])
    ensures n == |b| || !IsSpace(b[n])
  {
    if b != [] && IsSpace(b[0]) then 1 + Leading(b[1..]) else 0
  }

  /** How many white-space bytes close `b`. */
  function Trailing(b: seq<Cids.byte>): (n: nat)
    ensures n <= |b|
    ensures forall k | |b| - n <= k < |b| :: IsSpace(b[k])
    ensures n == |b| || !IsSpace(b[|b| - n - 1])
  {
    if b != [] && IsSpace(b[|b| - 1]) then 1 + Trailing(b[..|b| - 1]) else 0
  }

  /** `bytes.TrimSpace`: what is left between the white space that opens
      and the white space that closes the slice. */
  function TrimSpace(b: seq<Cids.byte>): (t: seq<Cids.byte>)
    ensures t == [] || (!IsSpace(t[0]) && !IsSpace(t[|t| - 1]))
    ensures Leading(b) + |t| <= |b| && t == b[Leading(b)..Leading(b) + |t|]
    ensures forall k | Leading(b) + |t| <= k < |b| :: IsSpace(b[k])
  {
    var rest := b[Leading(b)..];
    var t := rest[..|rest| - Trailing(rest)];
    assert forall k | Leading(b) + |t| <= k < |b| :: b[k] == rest[k - Leading(b)];
    t
  }

  /** A trimmed slice stays as it is. */
  lemma TrimSpaceIdempotent(b: seq<Cids.byte>)
    ensures TrimSpace(TrimSpace(b)) == TrimSpace(b)
  {
    var t := TrimSpace(b);
    assert Leading(t) == 0;
    assert Trailing(t) == 0;
  }

  /** `DiskSpec.Bytes`: the marshalled spec with surrounding white space removed. */
  function Bytes(spec: map<string, Json>, marshal: map<string, Json> -> seq<Cids.byte>): (b: seq<Cids.byte>)
    ensures b == [] || (!IsSpace(b[0]) && !IsSpace(b[|b| - 1]))
  {
    TrimSpace(marshal(spec))
  }

  /** Go's `string(b)`: the same bytes, one character per byte. */
  function AsString(b: seq<Cids.byte>): (s: string)
    ensures |s| == |b| && forall k | 0 <= k < |b| :: s[k] as int == b[k] as int
  {
    seq(|b|, k requires 0 <= k < |b| => b[k] as int as char)
  }

  /** `DiskSpec.String`: the text of `Bytes`. */
  function String(spec: map<string, Json>, marshal: map<string, Json> -> seq<Cids.byte>): (s: string)
    ensures |s| == |Bytes(spec, marshal)|
    ensures forall k | 0 <= k < |s| :: s[k] as int == Bytes(spec, marshal)[k] as int
  {
    AsString(Bytes(spec, marshal))
  }
}

=== FILE: gopath.dfy ===
/**
  The slash-separated path helpers of Go's `path/filepath` on Unix that the
  repository calls: `Base` (the file name a result record and a progress
  record carry), `IsAbs`, `Clean` and `Join` (where the datastores of a repo
  are created).
*/
module GoPath {

  predicate NoSlash(s: string)
  {
    forall i | 0 <= i < |s| :: s[i] != '/'
  }

  /** `p` without its trailing slashes. */
  function TrimSlashes(p: string): (q: string)
    ensures |q| <= |p| && q == p[..|q|]
    ensures q == [] || q[|q| - 1] != '/'
    ensures forall i | |q| <= i < |p| :: p[i] == '/'
  {
    if p == [] || p[|p| - 1] != '/' then p else TrimSlashes(p[..|p| - 1])
  }

  /** What follows the last slash of `p` (all of `p` when it has none). */
  function LastElement(p: string): (e: string)
    ensures NoSlash(e)
    ensures |e| <= |p| && e == p[|p| - |e|..]
    ensures |e| < |p| ==> p[|p| - |e| - 1] == '/'
  {
    if p == [] || p[|p| - 1] == '/' then []
    else LastElement(p[..|p| - 1]) + [p[|p| - 1]]
  }

  /** `filepath.Base`: the last element after trailing slashes are dropped;
      "." for the empty path and "/" for a path of slashes only. */
  function Base(p: string): (b: string)
    ensures b != []
    ensures b == "/" || NoSlash(b)
    ensures p == [] ==> b == "."
    ensures p != [] && b != "/" ==>
      var t := TrimSlashes(p);
      |b| <= |t| && t[|t| - |b|..] == b && (|b| == |t| || t[|t| - |b| - 1] == '/')
    ensures p != [] && b == "/" <==> p != [] && TrimSlashes(p) == []
  {
    if p == [] then "."
    else
      var e := LastElement(TrimSlashes(p));
      if e == [] then "/" else e
  }

  /** A name without slashes is its own base: `Base` is idempotent, and the
      base of `dir + "/" + name` is `name`. */
  lemma BaseOfName(name: string)
    requires name != [] && NoSlash(name)
    ensures Base(name) == name
  {
    assert TrimSlashes(name) == name;
    LastElementOfName(name);
  }

  lemma {:induction false} LastElementOfName(name: string)
    requires NoSlash(name)
    ensures LastElement(name) == name
    decreases |name|
  {
    if name != [] {
      LastElementOfName(name[..|name| - 1]);
      assert name[..|name| - 1] + [name[|name| - 1]] == name;
    }
  }

  lemma BaseIdempotent(p: string)
    ensures Base(Base(p)) == Base(p)
  {
    var b := Base(p);
    if b != "/" {
      BaseOfName(b);
    } else {
      assert TrimSlashes(b) == [];
    }
  }

  lemma {:induction false} BaseOfChild(dir: string, name: string)
    requires name != [] && NoSlash(name)
    ensures Base(dir + "/" + name) == name
  {
    var p := dir + "/" + name;
    assert TrimSlashes(p) == p;
    LastElementAfterSlash(dir + "/", name);
  }

  lemma {:induction false} LastElementAfterSlash(prefix: string, name: string)
    requires prefix != [] && prefix[|prefix| - 1] == '/' && NoSlash(name)
    ensures LastElement(prefix + name) == name
    decreases |name|
  {
    if name == [] {
      assert prefix + name == prefix;
    } else {
      var p := prefix + name;
      var init := name[..|name| - 1];
      assert p[..|p| - 1] == prefix + init;
      assert p[|p| - 1] == name[|name| - 1] != '/';
      assert LastElement(p) == LastElement(prefix + init) + [name[|name| - 1]];
      LastElementAfterSlash(prefix, init);
      assert init + [name[|name| - 1]] == name;
    }
  }

  predicate IsAbs(p: string)
  {
    |p| > 0 && p[0] == '/'
  }

  /** The elements of a path between its slashes, empty ones included. */
  function Split(p: string): (parts: seq<string>)
    ensures |parts| > 0
    ensures forall i | 0 <= i < |parts| :: NoSlash(parts[i])
    decreases |p|
  {
    if p == [] then [[]]
    else
      var rest := Split(p[1..]);
      if p[0] == '/' then [[]] + rest
      else [[p[0]] + rest[0]] + rest[1..]
  }

  /** The elements `Clean` keeps: neither empty nor ".". */
  predicate Element(e: string)
  {
    e != [] && e != "." && NoSlash(e)
  }

  /** Lexical resolution of the elements, left to right: "" and "." vanish,
      ".." removes the element before it, or stays at the front of a relative
      path, or vanishes at the root of a rooted one. */
  function Resolve(parts: seq<string>, rooted: bool, acc: seq<string>): (out: seq<string>)
    requires forall i | 0 <= i < |acc| :: Element(acc[i])
    requires forall i | 0 <= i < |parts| :: NoSlash(parts[i])
    requires rooted ==> forall i | 0 <= i < |acc| :: acc[i] != ".."
    requires forall i, j | 0 <= i < j < |acc| :: acc[j] == ".." ==> acc[i] == ".."
    ensures forall i | 0 <= i < |out| :: Element(out[i])
    ensures rooted ==> forall i | 0 <= i < |out| :: out[i] != ".."
    ensures forall i, j | 0 <= i < j < |out| :: out[j] == ".." ==> out[i] == ".."
    decreases |parts|
  {
    if parts == [] then acc
    else
      var e := parts[0];
      var acc' :=
        if e == [] || e == "." then acc
        else if e == ".." then
          (if |acc| > 0 && acc[|acc| - 1] != ".." then acc[..|acc| - 1]
           else if rooted then acc
           else acc + [e])
        else acc + [e];
      Resolve(parts[1..], rooted, acc')
  }

  function JoinElements(es: seq<string>): string
  {
    if es == [] then [] else if |es| == 1 then es[0] else es[0] + "/" + JoinElements(es[1..])
  }

  /** `filepath.Clean`: the shortest lexically equivalent path. */
  function Clean(p: string): (c: string)
    ensures c != []
    ensures IsAbs(c) <==> IsAbs(p)
  {
    var rooted := IsAbs(p);
    var es := Resolve(Split(p), rooted, []);
    var body := JoinElements(es);
    if rooted then "/" + body
    else if body == [] then "."
    else
      assert body[0] != '/' by { JoinElementsHead(es); }
      body
  }

  lemma {:induction false} JoinElementsHead(es: seq<string>)
    requires forall i | 0 <= i < |es| :: Element(es[i])
    ensures es != [] ==> Element(es[0]) && |JoinElements(es)| > 0 && JoinElements(es)[0] == es[0][0]
    decreases |es|
  {
    if |es| > 1 {
      JoinElementsHead(es[1..]);
    }
  }

  /** `filepath.Join` of two elements: the cleaned concatenation, ignoring an
      empty element. */
  function Join(a: string, b: string): (j: string)
    ensures j == [] <==> a == [] && b == []
    ensures IsAbs(j) <==> IsAbs(a) || (a == [] && IsAbs(b))
  {
    if a == [] && b == [] then []
    else if a == [] then Clean(b)
    else if b == [] then Clean(a)
    else Clean(a + "/" + b)
  }

  /** Where a datastore's `Create` opens its directory (LevelDB and flatfs
      alike): an absolute configured path as it is, a relative one joined
      under the repository path. */
  function Locate(path: string, repoPath: string): (p: string)
    ensures IsAbs(p) <==> IsAbs(path) || IsAbs(repoPath)
    ensures IsAbs(path) ==> p == path
  {
    if IsAbs(path) then path else Join(repoPath, path)
  }

  /** Under an absolute repository path the resolved location is itself
      absolute, so resolving it again, against any repository path, changes
      nothing. */
  lemma LocateSettles(path: string, repoPath: string, other: string)
    requires IsAbs(repoPath)
    ensures Locate(Locate(path, repoPath), other) == Locate(path, repoPath)
  {
  }
}

=== FILE: importer.dfy ===
/**
  The importer of importer.go: a single-flight guard around one progress-bar
  add into a block store, and the progress record a caller may poll.

  The compare-and-swap and the deferred resets are split into `Begin` and
  `Finish` so that an import overlapping a running one can be expressed; the
  ticker goroutine is the `Tick` step.
*/
module Importer {
  import opened Results
  import opened Cids
  import GoPath
  import Adder
  import AdderBase
  import AdderWithBar
  import Mfs
  import Layout

  datatype ProgressInfo = ProgressInfo(pathName: string, progress: real)

  const EmptyInfo := ProgressInfo("", 0.0)

  /** `ImportProgressInfo.Update`: only the percentage changes. */
  function Update(p: ProgressInfo, progress: real): (q: ProgressInfo)
    ensures q.progress == progress && q.pathName == p.pathName
  {
    p.(progress := progress)
  }

  /** The importer's state; the block store is the set of blocks it holds. */
  datatype Importer = Importer(chunkSize: int, running: bool, info: ProgressInfo, store: set<Cid>)

  datatype Error = AlreadyRunning | AddFailed(cause: AdderBase.Error)

  function NewImporter(store: set<Cid>, chunkSize: int): (i: Importer)
    ensures !i.running && i.info == EmptyInfo && i.chunkSize == chunkSize && i.store == store
  {
    Importer(chunkSize, false, EmptyInfo, store)
  }

  /** The start of `Import`: the compare-and-swap on `running`.  When it
      fails the deferred reset of the progress record still runs. */
  datatype Begun = Started(state: Importer) | Rejected(state: Importer)

  function Begin(i: Importer, path: string): (b: Begun)
    ensures b.Started? <==> !i.running
    ensures b.state.running
    ensures b.Started? ==> b.state == i.(running := true, info := i.info.(pathName := GoPath.Base(path)))
    ensures b.Rejected? ==> b.state == i.(info := EmptyInfo)
  {
    if i.running then Rejected(i.(info := EmptyInfo))
    else Started(i.(running := true, info := i.info.(pathName := GoPath.Base(path))))
  }

  /** The deferred calls of an import that started: `running` is cleared and
      the progress record replaced by a fresh one. */
  function Finish(i: Importer): (j: Importer)
    ensures !j.running && j.info == EmptyInfo && j.store == i.store && j.chunkSize == i.chunkSize
  {
    i.(running := false, info := EmptyInfo)
  }

  /** One tick of the progress goroutine: the record takes the bar's percentage. */
  function Tick(i: Importer, bar: AdderWithBar.Bar): (j: Importer)
    ensures j.info == Update(i.info, AdderWithBar.Progress(bar))
    ensures j.running == i.running && j.store == i.store && j.chunkSize == i.chunkSize
  {
    i.(info := Update(i.info, AdderWithBar.Progress(bar)))
  }

  /** While an import runs, every other import is turned away, and the
      rejected one still wipes the running import's progress record. */
  lemma SingleFlight(i: Importer, p: string, q: string)
    requires !i.running
    ensures Begin(i, p).Started? && Begin(Begin(i, p).state, q).Rejected?
    ensures Begin(Begin(i, p).state, q).state.running
    ensures Begin(Begin(i, p).state, q).state.info == EmptyInfo
  {
  }

  /** After a finished import the next one may start. */
  lemma FinishReopens(i: Importer, p: string, q: string)
    requires !i.running
    ensures Begin(i, p).Started? && Begin(Finish(Begin(i, p).state), q).Started?
  {
  }

  /** `Import`: the single-flight guard, a progress-bar add of the path into
      the block store, and the deferred resets.  `expanded`, `stat`, `size`
      and the label functions are what `AdderWithBar.Add` is given. */
  method Import(i: Importer, path: string, expanded: Option<string>, stat: Option<Adder.FileNode>, size: Option<int>,
                human: int -> string, chunkLabel: int -> string)
    returns (r: Result<AdderBase.AddResult, Error>, j: Importer)
    requires i.chunkSize > 0
    ensures i.running ==> r == Err(AlreadyRunning) && j == i.(info := EmptyInfo)
    ensures !i.running ==> !j.running
    ensures j.info == EmptyInfo && j.chunkSize == i.chunkSize
    ensures i.store <= j.store
    ensures r.Ok? ==> !i.running && forall c | c in r.value.blocks :: c in j.store
    ensures !i.running && r.Err? ==> r.error.AddFailed?
    ensures !i.running && (expanded.None? || stat.None? || size.None?) ==> r.Err? && j.store == i.store
    ensures !i.running && expanded.Some? && stat.Some? && size.Some? ==>
      var added := Adder.Add(Adder.NewAdder(i.chunkSize, i.store, true).(baseName := GoPath.Base(expanded.value)), stat.value);
      && j.store == (if added.Ok? then added.value.adder.dag else added.error.at.dag)
      && (added.Err? ==> r == Err(AddFailed(AdderBase.AddFailed(added.error.cause))))
  {
    var begun := Begin(i, path);
    if begun.Rejected? {
      return Err(AlreadyRunning), begun.state;
    }
    var s := begun.state;
    var w := AdderWithBar.NewAdderWithBar(i.chunkSize, s.store);
    assert Adder.Staged(w.adder) by { assert Mfs.NodeCids(w.adder.root) == {}; }
    var res, next := AdderWithBar.Add(w, expanded, stat, size, human, chunkLabel);
    s := Tick(s.(store := next.adder.dag), next.bar);
    j := Finish(s);
    if res.Err? {
      return Err(AddFailed(res.error)), j;
    }
    return Ok(res.value), j;
  }

  /** An import of a directory whose second entry has a kind the adder does
      not know fails, yet the first entry's block stays in the block store. */
  method PartialImportScenario(human: int -> string, chunkLabel: int -> string)
    returns (r: Result<AdderBase.AddResult, Error>, j: Importer)
    ensures r == Err(AddFailed(AdderBase.AddFailed(Adder.UnknownFileType)))
    ensures CidOf(RawLeaf([1])) in j.store && !j.running
  {
    var i := NewImporter({}, Adder.Chunk1MiB);
    var dir := Adder.Directory([Adder.DirEntry("a", Adder.RegularFile([1], Some(1), None, false)),
                                Adder.DirEntry("b", Adder.Unsupported)], false);
    GoPath.BaseOfName("d");
    var a := Adder.NewAdder(i.chunkSize, i.store, true).(baseName := "d");
    Adder.PartialWalkKept(a);
    Layout.LayoutShape([1], Adder.Chunk1MiB);
    var added := Adder.Add(a, dir);
    assert added.Err? && added.error.cause == Adder.UnknownFileType;
    assert CidOf(RawLeaf([1])) in added.error.at.dag;
    r, j := Import(i, "d", Some("d"), Some(dir), Some(1), human, chunkLabel);
  }
}

=== FILE: json.dfy ===
/**
  The dynamically typed values a datastore spec is made of: what Go's
  `encoding/json` leaves in an `interface{}` (nil, bool, number, string,
  `[]interface{}`, `map[string]interface{}`), and Go's ordering of strings.
*/
module Json {
  datatype Json =
    | Null
    | Bool(b: bool)
    | Num(n: int)
    | Str(s: string)
    | Arr(items: seq<Json>)
    | Obj(fields: map<string, Json>)

  /** Go's `m[k]`: a missing key reads as nil. */
  function Get(m: map<string, Json>, k: string): (v: Json)
    ensures k !in m ==> v == Null
    ensures k in m ==> v == m[k]
  {
    if k in m then m[k] else Null
  }

  /** Go's `a < b` on strings: lexicographic, a proper prefix first. */
  predicate Less(a: string, b: string)
  {
    b != [] && (a == [] || a[0] < b[0] || (a[0] == b[0] && Less(a[1..], b[1..])))
  }

  lemma {:induction false} LessIrreflexive(a: string)
    ensures !Less(a, a)
  {
    if a != [] {
      LessIrreflexive(a[1..]);
    }
  }

  lemma {:induction false} LessTransitive(a: string, b: string, c: string)
    requires Less(a, b) && Less(b, c)
    ensures Less(a, c)
  {
    if a != [] && a[0] == b[0] && b[0] == c[0] {
      LessTransitive(a[1..], b[1..], c[1..]);
    }
  }

  lemma {:induction false} LessTotal(a: string, b: string)
    ensures a == b || Less(a, b) || Less(b, a)
  {
    if a != [] && b != [] && a[0] == b[0] {
      LessTotal(a[1..], b[1..]);
      if a[1..] == b[1..] {
        assert a == [a[0]] + a[1..] && b == [b[0]] + b[1..];
      }
    }
  }

  lemma {:induction false} LessAsymmetric(a: string, b: string)
    requires Less(a, b)
    ensures !Less(b, a)
  {
    if Less(b, a) {
      LessTransitive(a, b, a);
      LessIrreflexive(a);
    }
  }

  /** `a >= b`, the order the mount table is sorted in. */
  predicate AtLeast(a: string, b: string)
  {
    !Less(a, b)
  }

  lemma AtLeastTransitive(a: string, b: string, c: string)
    requires AtLeast(a, b) && AtLeast(b, c)
    ensures AtLeast(a, c)
  {
    LessTotal(a, b);
    LessTotal(b, c);
    if Less(a, c) {
      if a == b {
      } else if b == c {
      } else {
        LessTransitive(b, a, c);
      }
    }
  }

  lemma AtLeastTotal(a: string, b: string)
    ensures AtLeast(a, b) || AtLeast(b, a)
  {
    if Less(a, b) {
      LessAsymmetric(a, b);
    }
  }
}

=== FILE: layout.dfy ===
/**
  Stand-in for the `boxo` file layout the adder calls (`chunk.NewSizeSplitter`
  feeding `balanced.Layout` with raw leaves).  Only what the repository relies
  on is kept: fixed-size splitting, the raw leaf of a single-chunk file being
  the root, and a read pattern of one read per chunk followed by a single read
  reporting end of file.  The boxo builder may poll the reader again after an
  exact chunk boundary; those further end-of-file reads are not modelled.
  A file of several chunks gets one file node over all its leaves; the
  174-links-per-node balanced tree is not modelled.
*/
module Layout {
  import opened Cids
  import opened ProgressReader

  function Concat(ps: seq<Bytes>): Bytes
  {
    if ps == [] then [] else ps[0] + Concat(ps[1..])
  }

  /** Fixed-size splitting: non-empty pieces of `chunkSize` bytes except the
      last, which concatenate back to the content. */
  function Pieces(content: Bytes, chunkSize: int): (ps: seq<Bytes>)
    requires chunkSize > 0
    ensures Concat(ps) == content
    ensures forall i | 0 <= i < |ps| :: 0 < |ps[i]| <= chunkSize
    ensures forall i | 0 <= i < |ps| - 1 :: |ps[i]| == chunkSize
    ensures |ps| <= 1 <==> |content| <= chunkSize
    decreases |content|
  {
    if |content| == 0 then []
    else if |content| <= chunkSize then
      assert Concat([content]) == content + Concat([]);
      [content]
    else
      var rest := Pieces(content[chunkSize..], chunkSize);
      var ps := [content[..chunkSize]] + rest;
      assert ps[1..] == rest;
      assert content == content[..chunkSize] + content[chunkSize..];
      ps
  }

  function Leaves(ps: seq<Bytes>): (ls: seq<Cid>)
    ensures |ls| == |ps|
    ensures forall i | 0 <= i < |ps| :: ls[i] == CidOf(RawLeaf(ps[i]))
  {
    seq(|ps|, i requires 0 <= i < |ps| => CidOf(RawLeaf(ps[i])))
  }

  /** The root the layout returns for a file's content. */
  function LayoutRoot(content: Bytes, chunkSize: int): Cid
    requires chunkSize > 0
  {
    var ps := Pieces(content, chunkSize);
    if |ps| <= 1 then CidOf(RawLeaf(content))
    else CidOf(PbFile(Leaves(ps), |content|))
  }

  /** A file that fits in one chunk is a single raw leaf: its root is the leaf
      and it is the only block reachable from it.  A longer file's root is a
      file node whose leaves carry the chunks in order. */
  lemma LayoutShape(content: Bytes, chunkSize: int)
    requires chunkSize > 0
    ensures |content| <= chunkSize ==>
      LayoutRoot(content, chunkSize) == CidOf(RawLeaf(content)) &&
      Reach(LayoutRoot(content, chunkSize)) == {CidOf(RawLeaf(content))}
    ensures |content| > chunkSize ==>
      var ps := Pieces(content, chunkSize);
      && LayoutRoot(content, chunkSize) == CidOf(PbFile(Leaves(ps), |content|))
      && Concat(ps) == content
      && Reach(LayoutRoot(content, chunkSize)) == {LayoutRoot(content, chunkSize)} + set i | 0 <= i < |ps| :: CidOf(RawLeaf(ps[i]))
  {
    if |content| > chunkSize {
      var ps := Pieces(content, chunkSize);
      ReachOfLeaves(Leaves(ps));
    }
  }

  lemma {:induction false} ReachOfLeaves(ls: seq<Cid>)
    requires forall i | 0 <= i < |ls| :: ls[i].V1? && ls[i].node.RawLeaf?
    ensures ReachAll(ls) == set i | 0 <= i < |ls| :: ls[i]
    decreases |ls|
  {
    if ls != [] {
      ReachOfLeaves(ls[1..]);
      var a := set i | 0 <= i < |ls| :: ls[i];
      var b := set i | 0 <= i < |ls[1..]| :: ls[1..][i];
      assert a == {ls[0]} + b by {
        forall c | c in a ensures c in {ls[0]} + b {
          var i :| 0 <= i < |ls| && c == ls[i];
          if i > 0 { assert ls[1..][i - 1] == c; }
        }
      }
    }
  }

  /** The full reads the splitter makes of a file's bytes: one per chunk
      (regular files fill each chunk buffer in one read). */
  function ChunkReads(content: Bytes, chunkSize: int): (us: seq<ReadResult>)
    requires chunkSize > 0
    ensures NonNegative(us)
    ensures forall i | 0 <= i < |us| :: us[i].err == NoErr
  {
    var ps := Pieces(content, chunkSize);
    seq(|ps|, i requires 0 <= i < |ps| => ReadResult(|ps[i]|, NoErr))
  }

  /** The underlying reads the splitter makes: one per chunk, then one empty
      read reporting end of file. */
  function SplitterReads(content: Bytes, chunkSize: int): (us: seq<ReadResult>)
    requires chunkSize > 0
    ensures NonNegative(us)
    ensures |us| > 0 && us[|us| - 1] == ReadResult(0, Eof)
    ensures forall i | 0 <= i < |us| - 1 :: us[i].err == NoErr
  {
    ChunkReads(content, chunkSize) + [ReadResult(0, Eof)]
  }

  /** The reads of a file whose reader fails once its bytes are delivered:
      one per chunk, then an empty read carrying the error. */
  function FailingReads(content: Bytes, chunkSize: int): (us: seq<ReadResult>)
    requires chunkSize > 0
    ensures NonNegative(us)
    ensures |us| > 0 && us[|us| - 1] == ReadResult(0, Failure)
    ensures forall i | 0 <= i < |us| :: us[i].err != Eof
  {
    ChunkReads(content, chunkSize) + [ReadResult(0, Failure)]
  }

  /** The splitter pulls exactly the file's bytes through the reader. */
  lemma SplitterReadsTotal(content: Bytes, chunkSize: int)
    requires chunkSize > 0
    ensures Total(SplitterReads(content, chunkSize)) == |content|
    ensures Total(ChunkReads(content, chunkSize)) == |content|
  {
    var ps := Pieces(content, chunkSize);
    ReadsOfPieces(ps);
    TotalSnoc(ChunkReads(content, chunkSize), ReadResult(0, Eof));
  }

  lemma {:induction false} ReadsOfPieces(ps: seq<Bytes>)
    ensures Total(seq(|ps|, i requires 0 <= i < |ps| => ReadResult(|ps[i]|, NoErr))) == |Concat(ps)|
    decreases |ps|
  {
    var us := seq(|ps|, i requires 0 <= i < |ps| => ReadResult(|ps[i]|, NoErr));
    if ps != [] {
      ReadsOfPieces(ps[1..]);
      var vs := seq(|ps[1..]|, i requires 0 <= i < |ps[1..]| => ReadResult(|ps[1..][i]|, NoErr));
      assert us[1..] == vs;
    }
  }

  /** The events a file's progress reader sends while the splitter pulls the
      file through it: all name the file and carry `size`, the answer of its
      `Size()`; byte counts never go down or past the bytes delivered, and the
      last one reports all of them. */
  function FileEvents(name: string, size: int, content: Bytes, chunkSize: int): (es: seq<AddEvent>)
    requires chunkSize > 0
    ensures |es| > 0 && es[|es| - 1] == AddEvent(name, |content|, size)
    ensures forall i | 0 <= i < |es| ::
      es[i].name == name && es[i].size == size && 0 <= es[i].bytes <= |content|
    ensures forall i, j | 0 <= i < j < |es| :: es[i].bytes <= es[j].bytes
  {
    var r := NewReader(name, size);
    var us := SplitterReads(content, chunkSize);
    EventsOrdered(r, us);
    ReadAllCounts(r, us);
    SplitterReadsTotal(content, chunkSize);
    EofEmitsLast(r, us);
    ReadAll(r, us).events
  }

  /** The same pull through the corrected reader: a non-empty file's events
      report strictly growing counts ending with the whole file, so exactly
      one of them reports completion; an empty file sends none. */
  function FileEventsFixed(name: string, content: Bytes, chunkSize: int): (es: seq<AddEvent>)
    requires chunkSize > 0
    ensures content != [] ==> |es| > 0 && es[|es| - 1] == AddEvent(name, |content|, |content|)
    ensures content == [] ==> es == []
    ensures forall i | 0 <= i < |es| ::
      es[i].name == name && es[i].size == |content| && 0 < es[i].bytes <= |content|
    ensures forall i, j | 0 <= i < j < |es| :: es[i].bytes < es[j].bytes
  {
    FixedFileFacts(name, content, chunkSize);
    ReadAllFixed(NewReader(name, |content|), SplitterReads(content, chunkSize)).events
  }

  lemma FixedFileFacts(name: string, content: Bytes, chunkSize: int)
    requires chunkSize > 0
    ensures var es := ReadAllFixed(NewReader(name, |content|), SplitterReads(content, chunkSize)).events;
      && (content != [] ==> |es| > 0 && es[|es| - 1] == AddEvent(name, |content|, |content|))
      && (content == [] ==> es == [])
      && (forall i | 0 <= i < |es| :: es[i].name == name && es[i].size == |content| && 0 < es[i].bytes <= |content|)
      && (forall i, j | 0 <= i < j < |es| :: es[i].bytes < es[j].bytes)
  {
    var r := NewReader(name, |content|);
    var us := SplitterReads(content, chunkSize);
    FixedCounts(r, us);
    FixedEventsIncrease(r, us);
    SplitterReadsTotal(content, chunkSize);
    if content != [] {
      FixedEofLast(r, us);
    }
  }

  /** The events a file's progress reader sends when the read after its
      last chunk fails: every event the chunk reads trigger, in order, and no
      more.  They are exactly the events of the same file read to the end
      without its final event (`FailureLosesCompletion`).  Each carries the
      size `Size()` reported, so when that exceeds the bytes delivered none of
      them reads as a completion. */
  function FailedFileEvents(name: string, size: int, content: Bytes, chunkSize: int): (es: seq<AddEvent>)
    requires chunkSize > 0
    ensures forall i | 0 <= i < |es| ::
      es[i].name == name && es[i].size == size && ProgressIncrement <= es[i].bytes <= |content|
    ensures forall i, j | 0 <= i < j < |es| :: es[i].bytes <= es[j].bytes
    ensures |content| < size ==> forall i | 0 <= i < |es| :: es[i].bytes < es[i].size
  {
    var r := NewReader(name, size);
    var us := FailingReads(content, chunkSize);
    EventsOrdered(r, us);
    ReadAllCounts(r, us);
    SplitterReadsTotal(content, chunkSize);
    TotalSnoc(ChunkReads(content, chunkSize), ReadResult(0, Failure));
    EventsPositive(r, us);
    ReadAll(r, us).events
  }

  /** A failing read costs the file exactly its end-of-file event: every
      event the chunks triggered is still sent, and only the final report of
      all delivered bytes is missing. */
  lemma FailureLosesCompletion(name: string, size: int, content: Bytes, chunkSize: int)
    requires chunkSize > 0
    ensures FileEvents(name, size, content, chunkSize)
         == FailedFileEvents(name, size, content, chunkSize) + [AddEvent(name, |content|, size)]
  {
    var r := NewReader(name, size);
    var cs := ChunkReads(content, chunkSize);
    ReadAllSnoc(r, cs, ReadResult(0, Eof));
    ReadAllSnoc(r, cs, ReadResult(0, Failure));
    var t := ReadAll(r, cs);
    ReadAllCounts(r, cs);
    SplitterReadsTotal(content, chunkSize);
    if cs != [] {
      EventsOrdered(r, cs);
    }
    assert Read(t.reader, ReadResult(0, Failure)).event.None?;
  }

  /** A file of exactly one chunk is pulled by one full read and then the
      empty read that reports end of file. */
  lemma OneChunkReads(content: Bytes, chunkSize: int)
    requires 0 < |content| == chunkSize
    ensures SplitterReads(content, chunkSize) == [ReadResult(chunkSize, NoErr), ReadResult(0, Eof)]
  {
    var ps := Pieces(content, chunkSize);
    assert ps == [content];
  }
}

=== FILE: leveldb.dfy ===
/**
  The levelds datastore config (pkg/fsrepo/leveldb.go): its parser, its
  on-disk projection and where `Create` opens the database.
*/
module LevelDb {
  import opened Results
  import opened Json

  datatype Compression = DefaultCompression | NoCompression | SnappyCompression

  datatype Config = Config(path: string, compression: Compression)

  datatype Error = PathNotString | UnknownCompression(value: Json)

  /** The spellings of `compression` the parser accepts; absence reads as nil. */
  function CompressionOf(v: Json): (c: Option<Compression>)
    ensures c == Some(NoCompression) <==> v == Str("none")
    ensures c == Some(SnappyCompression) <==> v == Str("snappy")
    ensures c == Some(DefaultCompression) <==> v == Str("") || v == Null
  {
    match v
    case Str(s) =>
      if s == "none" then Some(NoCompression)
      else if s == "snappy" then Some(SnappyCompression)
      else if s == "" then Some(DefaultCompression)
      else None
    case Null => Some(DefaultCompression)
    case _ => None
  }

  /** `LevelDBDatastoreConfigParser`: a string `path`, then a known compression. */
  function Parse(params: map<string, Json>): (r: Result<Config, Error>)
    ensures !Get(params, "path").Str? ==> r == Err(PathNotString)
    ensures Get(params, "path").Str? && CompressionOf(Get(params, "compression")).None? ==>
              r == Err(UnknownCompression(Get(params, "compression")))
    ensures r.Ok? <==> Get(params, "path").Str? && CompressionOf(Get(params, "compression")).Some?
    ensures r.Ok? ==> r.value.path == params["path"].s
    ensures r.Ok? ==> Some(r.value.compression) == CompressionOf(Get(params, "compression"))
  {
    var path := Get(params, "path");
    if !path.Str? then Err(PathNotString)
    else
      var cm := Get(params, "compression");
      match CompressionOf(cm)
      case None => Err(UnknownCompression(cm))
      case Some(c) => Ok(Config(path.s, c))
  }

  /** What is stored on disk: the type and the path; compression is a run-time choice. */
  function DiskSpec(c: Config): (spec: map<string, Json>)
    ensures spec.Keys == {"type", "path"}
    ensures spec["type"] == Str("levelds") && spec["path"] == Str(c.path)
  {
    map["type" := Str("levelds"), "path" := Str(c.path)]
  }

  lemma DiskSpecIgnoresCompression(a: Config, b: Config)
    requires a.path == b.path
    ensures DiskSpec(a) == DiskSpec(b)
  {
  }
}

=== FILE: lsblk.dfy ===
/**
  The block-device filter of pkg/linuxutils/lsblk/lsblk.go.  Running the
  `lsblk` command and decoding its JSON belong to the process executor and
  the JSON library: both are parameters here.
*/
module Lsblk {
  import opened Results

  datatype BlockDevice = BlockDevice(
    name: string, devType: string, size: nat, rota: bool, mountPoint: string,
    fsType: string, partUuid: string, fsLabel: string, uuid: string,
    children: seq<BlockDevice>)

  const OutputKey: string := "blockdevices"

  const CmdHead: string := "lsblk "
  const CmdTail: string := " --paths --json --bytes --fs --output NAME,TYPE,SIZE,ROTA,MOUNTPOINT,FSTYPE,PARTUUID,LABEL,UUID"

  /** The command line for one device; an empty device asks about all of them. */
  function CommandLine(device: string): (cmd: string)
    ensures |cmd| == |CmdHead| + |device| + |CmdTail|
    ensures cmd[..|CmdHead|] == CmdHead && cmd[|CmdHead|..|CmdHead| + |device|] == device
    ensures cmd[|cmd| - |CmdTail|..] == CmdTail
  {
    CmdHead + device + CmdTail
  }

  datatype Error = CommandFailed(cause: string) | DecodeFailed(cause: string) | MissingKey

  /** `GetBlockDevices`: run the command, decode its output as a map from keys
      to device lists, and insist on the `blockdevices` key. */
  function GetBlockDevices(
    execute: string -> Result<string, string>,
    decode: string -> Result<map<string, seq<BlockDevice>>, string>,
    device: string): (r: Result<seq<BlockDevice>, Error>)
    ensures execute(CommandLine(device)).Err? ==> r == Err(CommandFailed(execute(CommandLine(device)).error))
    ensures r.Ok? <==> execute(CommandLine(device)).Ok? && decode(execute(CommandLine(device)).value).Ok? &&
                       OutputKey in decode(execute(CommandLine(device)).value).value
    ensures r.Ok? ==> r.value == decode(execute(CommandLine(device)).value).value[OutputKey]
    ensures r.Err? && execute(CommandLine(device)).Ok? && decode(execute(CommandLine(device)).value).Ok? ==>
              r == Err(MissingKey)
  {
    match execute(CommandLine(device))
    case Err(e) => Err(CommandFailed(e))
    case Ok(out) =>
      match decode(out)
      case Err(e) => Err(DecodeFailed(e))
      case Ok(raw) =>
        if OutputKey !in raw then Err(MissingKey) else Ok(raw[OutputKey])
  }

  /** The search criterion: file-system type and label agree, and with
      `hasMountPoint` the device must be mounted. */
  predicate Matches(dev: BlockDevice, fsType: string, wantedLabel: string, hasMountPoint: bool)
  {
    dev.fsType == fsType && dev.fsLabel == wantedLabel && (!hasMountPoint || dev.mountPoint != "")
  }

  /** The reference filter, over the top-level list only. */
  function Filter(devs: seq<BlockDevice>, fsType: string, wantedLabel: string, hasMountPoint: bool): (r: seq<BlockDevice>)
    ensures |r| <= |devs|
  {
    if devs == [] then []
    else
      var init := Filter(devs[..|devs| - 1], fsType, wantedLabel, hasMountPoint);
      var last := devs[|devs| - 1];
      if Matches(last, fsType, wantedLabel, hasMountPoint) then init + [last] else init
  }

  /** `a` is `b` with some elements dropped, order kept. */
  predicate Subsequence<T(==)>(a: seq<T>, b: seq<T>)
    decreases |b|
  {
    a == [] || (b != [] && (if a[|a| - 1] == b[|b| - 1] then Subsequence(a[..|a| - 1], b[..|b| - 1]) else Subsequence(a, b[..|b| - 1])))
  }

  /** Exactly the matching top-level devices, in their order. */
  lemma {:induction false} FilterSpec(devs: seq<BlockDevice>, fsType: string, wantedLabel: string, hasMountPoint: bool)
    ensures forall d | d in Filter(devs, fsType, wantedLabel, hasMountPoint) :: d in devs && Matches(d, fsType, wantedLabel, hasMountPoint)
    ensures forall d | d in devs && Matches(d, fsType, wantedLabel, hasMountPoint) :: d in Filter(devs, fsType, wantedLabel, hasMountPoint)
    ensures Subsequence(Filter(devs, fsType, wantedLabel, hasMountPoint), devs)
    ensures Filter(devs, fsType, wantedLabel, hasMountPoint) == [] <==>
              forall d | d in devs :: !Matches(d, fsType, wantedLabel, hasMountPoint)
    decreases |devs|
  {
    if devs != [] {
      var init := devs[..|devs| - 1];
      FilterSpec(init, fsType, wantedLabel, hasMountPoint);
      assert devs == init + [devs[|devs| - 1]];
      var r := Filter(devs, fsType, wantedLabel, hasMountPoint);
      var f := Filter(init, fsType, wantedLabel, hasMountPoint);
      if Matches(devs[|devs| - 1], fsType, wantedLabel, hasMountPoint) {
        assert r[..|r| - 1] == f;
      } else {
        SubsequenceDropLast(f, devs);
      }
    }
  }

  lemma {:induction false} SubsequenceDropLast<T>(a: seq<T>, b: seq<T>)
    requires b != [] && Subsequence(a, b[..|b| - 1])
    ensures Subsequence(a, b)
    decreases |a| + |b|
  {
    if a != [] && a[|a| - 1] == b[|b| - 1] {
      SubsequenceShorter(a, b[..|b| - 1]);
    }
  }

  /** A subsequence of a shorter list stays one when the last element is cut. */
  lemma {:induction false} SubsequenceShorter<T>(a: seq<T>, b: seq<T>)
    requires a != [] && Subsequence(a, b)
    ensures Subsequence(a[..|a| - 1], b)
    decreases |a| + |b|
  {
    var p := a[..|a| - 1];
    if p != [] {
      if a[|a| - 1] == b[|b| - 1] {
        assert Subsequence(p, b[..|b| - 1]);
        SubsequenceDropLast(p, b);
      } else {
        SubsequenceShorter(a, b[..|b| - 1]);
        SubsequenceDropLast(p, b);
      }
    }
  }

  /** `SearchBlockDevice`: the devices of the whole-system listing that match,
      in listing order; nothing matching gives an empty list, not an error,
      and errors of the listing come back unchanged. */
  method SearchBlockDevice(
    execute: string -> Result<string, string>,
    decode: string -> Result<map<string, seq<BlockDevice>>, string>,
    fsType: string, wantedLabel: string, hasMountPoint: bool) returns (r: Result<seq<BlockDevice>, Error>)
    ensures GetBlockDevices(execute, decode, "").Err? ==> r == Err(GetBlockDevices(execute, decode, "").error)
    ensures r.Ok? <==> GetBlockDevices(execute, decode, "").Ok?
    ensures r.Ok? ==> r.value == Filter(GetBlockDevices(execute, decode, "").value, fsType, wantedLabel, hasMountPoint)
  {
    var listed := GetBlockDevices(execute, decode, "");
    if listed.Err? {
      return Err(listed.error);
    }
    var devices := listed.value;
    var res: seq<BlockDevice> := [];
    var i := 0;
    while i < |devices|
      invariant 0 <= i <= |devices|
      invariant res == Filter(devices[..i], fsType, wantedLabel, hasMountPoint)
    {
      var dev := devices[i];
      assert devices[..i + 1][..i] == devices[..i];
      if dev.fsType == fsType && dev.fsLabel == wantedLabel {
        if hasMountPoint && dev.mountPoint != "" {
          res := res + [dev];
        } else if !hasMountPoint {
          res := res + [dev];
        }
      }
      i := i + 1;
    }
    assert devices[..i] == devices;
    return Ok(res);
  }
}

=== FILE: mfs.dfy ===
/**
  Stand-in for the `boxo` MFS root the adder stages an import in: a tree of
  named entries, `Mkdir` with parents, `PutNode`, and the flush that turns a
  directory into a directory node.  Entries keep insertion order.
*/
module Mfs {
  import opened Results
  import opened Cids

  /** An MFS path as its components: "" is [], "a/b" is ["a", "b"]. */
  type Path = seq<string>

  datatype Item = Dir(entries: seq<Entry>) | Node(cid: Cid)

  datatype Entry = Entry(name: string, item: Item)

  datatype Error = NoPath | EmptyName | NotADirectory(name: string) | NoParent(name: string) | AlreadyExists(name: string)

  /** The position of the entry called `name`, if any. */
  function Find(es: seq<Entry>, name: string): (r: Option<nat>)
    ensures r.Some? ==> r.value < |es| && es[r.value].name == name
    ensures r.None? ==> forall i | 0 <= i < |es| :: es[i].name != name
  {
    if es == [] then None
    else if es[0].name == name then Some(0)
    else
      match Find(es[1..], name)
      case None => None
      case Some(i) => Some(i + 1)
  }

  /** What sits at `p` below a directory with entries `es`. */
  function Lookup(es: seq<Entry>, p: Path): Option<Item>
    decreases |p|
  {
    if p == [] then Some(Dir(es))
    else
      match Find(es, p[0])
      case None => None
      case Some(i) =>
        if |p| == 1 then Some(es[i].item)
        else
          match es[i].item
          case Dir(sub) => Lookup(sub, p[1..])
          case Node(_) => None
  }

  /** Whatever is found at a path, each proper prefix of it is a directory. */
  lemma {:induction false} LookupThroughDirs(es: seq<Entry>, p: Path, k: nat)
    requires Lookup(es, p).Some? && k < |p|
    ensures Lookup(es, p[..k]).Some? && Lookup(es, p[..k]).value.Dir?
    decreases |p|
  {
    if k > 0 {
      var i := Find(es, p[0]).value;
      assert p[..k][0] == p[0];
      var sub := es[i].item.entries;
      LookupThroughDirs(sub, p[1..], k - 1);
      assert p[..k][1..] == p[1..][..k - 1];
    }
  }

  /** `mfs.Mkdir` with `Mkparents`: creates each missing directory on the path;
      an existing directory is fine, a node in the way is an error. */
  function Mkdir(es: seq<Entry>, p: Path): (r: Result<seq<Entry>, Error>)
    ensures r.Ok? && p != [] ==> Lookup(r.value, p).Some? && Lookup(r.value, p).value.Dir?
  {
    if p == [] then Err(NoPath) else MkdirParents(es, p)
  }

  function MkdirParents(es: seq<Entry>, p: Path): (r: Result<seq<Entry>, Error>)
    ensures r.Ok? ==> Lookup(r.value, p).Some? && Lookup(r.value, p).value.Dir?
    decreases |p|
  {
    if p == [] then Ok(es)
    else
      match Find(es, p[0])
      case None =>
        var sub :- MkdirParents([], p[1..]);
        var r := es + [Entry(p[0], Dir(sub))];
        assert Find(r, p[0]) == Some(|es|) by { FindAppend(es, Entry(p[0], Dir(sub))); }
        Ok(r)
      case Some(i) =>
        match es[i].item
        case Node(_) => Err(NotADirectory(p[0]))
        case Dir(sub) =>
          var sub' :- MkdirParents(sub, p[1..]);
          var r := es[i := Entry(p[0], Dir(sub'))];
          assert Find(r, p[0]) == Some(i) by { FindUpdate(es, i, Entry(p[0], Dir(sub'))); }
          Ok(r)
  }

  lemma {:induction false} FindAppend(es: seq<Entry>, e: Entry)
    requires Find(es, e.name).None?
    ensures Find(es + [e], e.name) == Some(|es|)
    decreases |es|
  {
    if es != [] {
      assert (es + [e])[1..] == es[1..] + [e];
      FindAppend(es[1..], e);
    }
  }

  lemma {:induction false} FindUpdate(es: seq<Entry>, i: nat, e: Entry)
    requires Find(es, e.name) == Some(i)
    ensures Find(es[i := e], e.name) == Some(i)
    decreases |es|
  {
    if i > 0 {
      assert es[i := e][1..] == es[1..][i - 1 := e];
      FindUpdate(es[1..], i - 1, e);
    }
  }

  /** `mfs.PutNode`: the file name (the last component) must not be empty, the
      parent directory must exist and must not already hold an entry of that
      name. */
  function PutNode(es: seq<Entry>, p: Path, c: Cid): (r: Result<seq<Entry>, Error>)
    ensures r.Ok? ==> Lookup(r.value, p) == Some(Node(c))
    ensures p == [] ==> r == Err(NoPath)
    ensures p != [] && p[|p| - 1] == "" ==> r == Err(EmptyName)
    decreases |p|
  {
    if p == [] then Err(NoPath)
    else if p[|p| - 1] == "" then Err(EmptyName)
    else
      match Find(es, p[0])
      case None =>
        if |p| == 1 then
          var r := es + [Entry(p[0], Node(c))];
          assert Find(r, p[0]) == Some(|es|) by { FindAppend(es, Entry(p[0], Node(c))); }
          Ok(r)
        else Err(NoParent(p[0]))
      case Some(i) =>
        if |p| == 1 then Err(AlreadyExists(p[0]))
        else
          match es[i].item
          case Node(_) => Err(NotADirectory(p[0]))
          case Dir(sub) =>
            var sub' :- PutNode(sub, p[1..], c);
            var r := es[i := Entry(p[0], Dir(sub'))];
            assert Find(r, p[0]) == Some(i) by { FindUpdate(es, i, Entry(p[0], Dir(sub'))); }
            Ok(r)
  }

  /** The node a flush gives an item: a staged node is itself, a directory
      becomes a directory node over its flushed entries. */
  function FlushItem(item: Item): Cid
  {
    match item
    case Node(c) => c
    case Dir(es) => CidOf(PbDir(FlushEntries(es)))
  }

  function FlushEntries(es: seq<Entry>): (ls: seq<Link>)
    ensures |ls| == |es|
    ensures forall i | 0 <= i < |es| :: ls[i].name == es[i].name
  {
    if es == [] then [] else [Link(es[0].name, FlushItem(es[0].item))] + FlushEntries(es[1..])
  }

  /** The names `ListNames` reports for a directory, in entry order. */
  function Names(es: seq<Entry>): (ns: seq<string>)
    ensures |ns| == |es|
    ensures forall i | 0 <= i < |es| :: ns[i] == es[i].name
  {
    seq(|es|, i requires 0 <= i < |es| => es[i].name)
  }

  /** The staged (non-directory) nodes anywhere in the tree. */
  function NodeCids(es: seq<Entry>): set<Cid>
  {
    if es == [] then {} else ItemNodes(es[0].item) + NodeCids(es[1..])
  }

  function ItemNodes(item: Item): set<Cid>
  {
    match item
    case Node(c) => {c}
    case Dir(sub) => NodeCids(sub)
  }

  lemma {:induction false} NodeCidsAppend(es: seq<Entry>, e: Entry)
    ensures NodeCids(es + [e]) == NodeCids(es) + ItemNodes(e.item)
    decreases |es|
  {
    if es != [] {
      assert (es + [e])[1..] == es[1..] + [e];
      NodeCidsAppend(es[1..], e);
    }
  }

  lemma {:induction false} NodeCidsSplit(es: seq<Entry>, i: nat)
    requires i < |es|
    ensures NodeCids(es) == NodeCids(es[..i]) + ItemNodes(es[i].item) + NodeCids(es[i + 1..])
    decreases i
  {
    if i > 0 {
      NodeCidsSplit(es[1..], i - 1);
      assert es[1..][..i - 1] == es[..i][1..];
      assert es[1..][i - 1] == es[i];
      assert es[1..][i..] == es[i + 1..];
    } else {
      assert es[1..] == es[i + 1..];
    }
  }

  lemma NodeCidsUpdate(es: seq<Entry>, i: nat, e: Entry)
    requires i < |es|
    ensures NodeCids(es) == NodeCids(es[..i]) + ItemNodes(es[i].item) + NodeCids(es[i + 1..])
    ensures NodeCids(es[i := e]) == NodeCids(es[..i]) + ItemNodes(e.item) + NodeCids(es[i + 1..])
  {
    NodeCidsSplit(es, i);
    NodeCidsSplit(es[i := e], i);
    assert es[i := e][..i] == es[..i];
    assert es[i := e][i + 1..] == es[i + 1..];
  }

  /** Creating directories never adds or drops a staged node. */
  lemma {:induction false} MkdirKeepsNodes(es: seq<Entry>, p: Path)
    requires MkdirParents(es, p).Ok?
    ensures NodeCids(MkdirParents(es, p).value) == NodeCids(es)
    decreases |p|
  {
    if p != [] {
      match Find(es, p[0])
      case None =>
        MkdirKeepsNodes([], p[1..]);
        NodeCidsAppend(es, Entry(p[0], Dir(MkdirParents([], p[1..]).value)));
      case Some(i) =>
        var sub := es[i].item.entries;
        MkdirKeepsNodes(sub, p[1..]);
        NodeCidsUpdate(es, i, Entry(p[0], Dir(MkdirParents(sub, p[1..]).value)));
    }
  }

  /** Putting a node adds exactly that node to the staged ones. */
  lemma {:induction false} PutNodeAddsNode(es: seq<Entry>, p: Path, c: Cid)
    requires PutNode(es, p, c).Ok?
    ensures NodeCids(PutNode(es, p, c).value) == NodeCids(es) + {c}
    decreases |p|
  {
    match Find(es, p[0])
    case None =>
      NodeCidsAppend(es, Entry(p[0], Node(c)));
    case Some(i) =>
      var sub := es[i].item.entries;
      PutNodeAddsNode(sub, p[1..], c);
      NodeCidsUpdate(es, i, Entry(p[0], Dir(PutNode(sub, p[1..], c).value)));
  }

  /** The directory nodes a flush of the entries writes. */
  function DirNodes(es: seq<Entry>): set<Cid>
    decreases es, 1
  {
    {FlushItem(Dir(es))} + SubdirNodes(es)
  }

  function SubdirNodes(es: seq<Entry>): set<Cid>
    decreases es, 0
  {
    if es == [] then {}
    else
      (match es[0].item case Node(_) => {} case Dir(sub) => DirNodes(sub)) + SubdirNodes(es[1..])
  }

  /** When every staged node's blocks are in `d`, everything reachable from the
      flushed directory is in `d` or among the directory nodes the flush writes. */
  lemma {:induction false} FlushReach(es: seq<Entry>, d: set<Cid>)
    requires forall c | c in NodeCids(es) :: Reach(c) <= d
    ensures Reach(FlushItem(Dir(es))) <= d + DirNodes(es)
    decreases es, 1
  {
    FlushLinksReach(es, d);
  }

  lemma {:induction false} FlushLinksReach(es: seq<Entry>, d: set<Cid>)
    requires forall c | c in NodeCids(es) :: Reach(c) <= d
    ensures ReachLinks(FlushEntries(es)) <= d + SubdirNodes(es)
    decreases es, 0
  {
    if es != [] {
      assert FlushEntries(es)[1..] == FlushEntries(es[1..]);
      assert NodeCids(es) == ItemNodes(es[0].item) + NodeCids(es[1..]);
      FlushLinksReach(es[1..], d);
      assert FlushEntries(es)[0].target == FlushItem(es[0].item);
      match es[0].item
      case Node(c) =>
        assert c in NodeCids(es);
      case Dir(sub) =>
        FlushReach(sub, d);
    }
  }
}

=== FILE: progress_reader.dfy ===
/**
  The byte-counting reader of pkg/chunker/progress_reader.go: it wraps the
  reader the chunker pulls file bytes from, counts the bytes, and emits an
  `AddEvent` every 1 MiB and at end of file.

  The wrapped reader's answers are inputs (`ReadResult`); the output channel is
  the `event` of each step.
*/
module ProgressReader {
  import opened Results

  const ProgressIncrement: int := 1024 * 1024

  datatype AddEvent = AddEvent(name: string, bytes: int, size: int)

  /** The error part of an underlying read: nil, `io.EOF`, or any other error. */
  datatype ReadErr = NoErr | Eof | Failure

  datatype ReadResult = ReadResult(n: int, err: ReadErr)

  datatype Reader = Reader(path: string, size: int, bytes: int, lastProgress: int)

  function NewReader(path: string, size: int): (r: Reader)
    ensures r.bytes == 0 && r.lastProgress == 0 && r.path == path && r.size == size
  {
    Reader(path, size, 0, 0)
  }

  /** One `Read`: the reader's new state, the `(n, err)` handed back, and the
      event sent to the output channel, if any. */
  datatype ReadStep = ReadStep(reader: Reader, n: int, err: ReadErr, event: Option<AddEvent>)

  function Read(r: Reader, u: ReadResult): (s: ReadStep)
    ensures s.n == u.n && s.err == u.err
    ensures s.reader.path == r.path && s.reader.size == r.size
    ensures s.reader.bytes == r.bytes + u.n
    ensures s.event.Some? <==> (r.bytes + u.n - r.lastProgress >= ProgressIncrement || u.err == Eof)
    ensures s.event.Some? ==>
      s.event.value == AddEvent(r.path, r.bytes + u.n, r.size) && s.reader.lastProgress == r.bytes + u.n
    ensures s.event.None? ==> s.reader.lastProgress == r.lastProgress
  {
    var bytes := r.bytes + u.n;
    if bytes - r.lastProgress >= ProgressIncrement || u.err == Eof then
      ReadStep(r.(bytes := bytes, lastProgress := bytes), u.n, u.err, Some(AddEvent(r.path, bytes, r.size)))
    else
      ReadStep(r.(bytes := bytes), u.n, u.err, None)
  }

  /** Bytes counted since the last event: never negative, below one increment. */
  ghost predicate InWindow(r: Reader)
  {
    0 <= r.bytes - r.lastProgress < ProgressIncrement
  }

  /** After every `Read` of a non-negative count the unreported bytes stay below
      one increment (an event resets them to zero). */
  lemma ReadKeepsWindow(r: Reader, u: ReadResult)
    requires 0 <= r.bytes - r.lastProgress && 0 <= u.n
    ensures InWindow(Read(r, u).reader)
  {
  }

  function Total(us: seq<ReadResult>): int
  {
    if us == [] then 0 else us[0].n + Total(us[1..])
  }

  predicate NonNegative(us: seq<ReadResult>)
  {
    forall i | 0 <= i < |us| :: us[i].n >= 0
  }

  datatype Trace = Trace(reader: Reader, events: seq<AddEvent>)

  /** The reader driven through a sequence of underlying reads: its final state
      and every event it sent, in order. */
  function ReadAll(r: Reader, us: seq<ReadResult>): Trace
    decreases |us|
  {
    if us == [] then Trace(r, [])
    else
      var s := Read(r, us[0]);
      var t := ReadAll(s.reader, us[1..]);
      Trace(t.reader, (if s.event.Some? then [s.event.value] else []) + t.events)
  }

  /** `bytes` is always the running total of what the wrapped reader returned. */
  lemma {:induction false} ReadAllCounts(r: Reader, us: seq<ReadResult>)
    ensures ReadAll(r, us).reader.bytes == r.bytes + Total(us)
    ensures ReadAll(r, us).reader.path == r.path && ReadAll(r, us).reader.size == r.size
    decreases |us|
  {
    if us != [] {
      ReadAllCounts(Read(r, us[0]).reader, us[1..]);
    }
  }

  /** Every emitted event names the reader's path and size, events carry
      non-decreasing byte counts, all between the starting count and the final
      one, and the window invariant holds at the end. */
  lemma {:induction false} EventsOrdered(r: Reader, us: seq<ReadResult>)
    requires NonNegative(us) && 0 <= r.bytes - r.lastProgress
    ensures us != [] ==> InWindow(ReadAll(r, us).reader)
    ensures var t := ReadAll(r, us);
      forall i | 0 <= i < |t.events| ::
        t.events[i].name == r.path && t.events[i].size == r.size &&
        r.bytes <= t.events[i].bytes <= t.reader.bytes
    ensures var t := ReadAll(r, us);
      forall i, j | 0 <= i < j < |t.events| :: t.events[i].bytes <= t.events[j].bytes
    decreases |us|
  {
    if us != [] {
      var s := Read(r, us[0]);
      ReadKeepsWindow(r, us[0]);
      assert NonNegative(us[1..]) by {
        forall i | 0 <= i < |us[1..]| ensures us[1..][i].n >= 0 { assert us[1..][i] == us[i + 1]; }
      }
      EventsOrdered(s.reader, us[1..]);
      ReadAllCounts(s.reader, us[1..]);
      var t := ReadAll(s.reader, us[1..]);
      assert t.reader.bytes >= s.reader.bytes by {
        TotalNonNegative(us[1..]);
      }
    }
  }

  lemma {:induction false} TotalNonNegative(us: seq<ReadResult>)
    requires NonNegative(us)
    ensures Total(us) >= 0
    decreases |us|
  {
    if us != [] {
      assert NonNegative(us[1..]) by {
        forall i | 0 <= i < |us[1..]| ensures us[1..][i].n >= 0 { assert us[1..][i] == us[i + 1]; }
      }
      TotalNonNegative(us[1..]);
    }
  }

  /** When the last underlying read reports end of file, the last event sent
      carries the final count. */
  lemma {:induction false} EofEmitsLast(r: Reader, us: seq<ReadResult>)
    requires |us| > 0 && us[|us| - 1].err == Eof
    ensures var t := ReadAll(r, us);
      |t.events| > 0 && t.events[|t.events| - 1] == AddEvent(r.path, t.reader.bytes, r.size)
    decreases |us|
  {
    var s := Read(r, us[0]);
    if |us| == 1 {
      assert us[1..] == [];
    } else {
      assert us[1..][|us[1..]| - 1] == us[|us| - 1];
      EofEmitsLast(s.reader, us[1..]);
    }
  }

  lemma {:induction false} TotalSnoc(us: seq<ReadResult>, u: ReadResult)
    ensures Total(us + [u]) == Total(us) + u.n
    decreases |us|
  {
    if us == [] {
      assert (us + [u])[1..] == [];
    } else {
      assert (us + [u])[1..] == us[1..] + [u];
      TotalSnoc(us[1..], u);
    }
  }

  /** Driving the reader through one more read extends its trace by that
      read's step. */
  lemma {:induction false} ReadAllSnoc(r: Reader, us: seq<ReadResult>, u: ReadResult)
    ensures var t := ReadAll(r, us);
            var s := Read(t.reader, u);
      ReadAll(r, us + [u]) == Trace(s.reader, t.events + (if s.event.Some? then [s.event.value] else []))
    decreases |us|
  {
    if us == [] {
      assert (us + [u])[1..] == [];
    } else {
      assert (us + [u])[1..] == us[1..] + [u];
      ReadAllSnoc(Read(r, us[0]).reader, us[1..], u);
    }
  }

  /** Without an end of file, an event is only sent once a whole increment is
      unreported, so every event reports at least 1 MiB. */
  lemma {:induction false} EventsPositive(r: Reader, us: seq<ReadResult>)
    requires r.lastProgress >= 0 && forall i | 0 <= i < |us| :: us[i].err != Eof
    ensures forall i | 0 <= i < |ReadAll(r, us).events| :: ReadAll(r, us).events[i].bytes >= ProgressIncrement
    decreases |us|
  {
    if us != [] {
      var s := Read(r, us[0]);
      assert forall i | 0 <= i < |us[1..]| :: us[1..][i].err != Eof by {
        forall i | 0 <= i < |us[1..]| ensures us[1..][i].err != Eof { assert us[1..][i] == us[i + 1]; }
      }
      EventsPositive(s.reader, us[1..]);
    }
  }

  /** The reader `addFile` pulls from: the bare file when progress is off, or a
      `progressReader`, possibly inside a `progressReader2` that also carries
      the file's `FileInfo`. */
  datatype FileReader = Plain | Counting(r: Reader) | CountingWithInfo(r: Reader, absPath: string)

  datatype ViaStep = ViaStep(reader: FileReader, n: int, err: ReadErr, event: Option<AddEvent>)

  function ReadVia(f: FileReader, u: ReadResult): ViaStep
  {
    match f
    case Plain => ViaStep(Plain, u.n, u.err, None)
    case Counting(r) =>
      var s := Read(r, u);
      ViaStep(Counting(s.reader), s.n, s.err, s.event)
    case CountingWithInfo(r, a) =>
      var s := Read(r, u);
      ViaStep(CountingWithInfo(s.reader, a), s.n, s.err, s.event)
  }

  /** `progressReader2.Read` is the wrapped `progressReader.Read`: same answer,
      same event, same counter update. */
  lemma Read2Delegates(r: Reader, absPath: string, u: ReadResult)
    ensures var a := ReadVia(CountingWithInfo(r, absPath), u);
            var b := ReadVia(Counting(r), u);
      && a.n == b.n && a.err == b.err && a.event == b.event
      && a.reader.r == b.reader.r && a.reader.absPath == absPath
  {
  }

  /** The events sent while the chunker pulls the whole file through `f`. */
  function EventsVia(f: FileReader, us: seq<ReadResult>): seq<AddEvent>
  {
    match f
    case Plain => []
    case Counting(r) => ReadAll(r, us).events
    case CountingWithInfo(r, _) => ReadAll(r, us).events
  }

  /** A 1 MiB file read as one full 1 MiB read and then the empty read that
      reports end of file sends two events, both with `Bytes == Size`. */
  lemma ExactMebibyteEmitsTwice(name: string)
    ensures ReadAll(NewReader(name, ProgressIncrement),
                    [ReadResult(ProgressIncrement, NoErr), ReadResult(0, Eof)]).events
         == [AddEvent(name, ProgressIncrement, ProgressIncrement), AddEvent(name, ProgressIncrement, ProgressIncrement)]
  {
    var r0 := NewReader(name, ProgressIncrement);
    var us := [ReadResult(ProgressIncrement, NoErr), ReadResult(0, Eof)];
    var r1 := Read(r0, us[0]).reader;
    assert r1 == Reader(name, ProgressIncrement, ProgressIncrement, ProgressIncrement);
    assert us[1..] == [ReadResult(0, Eof)];
    var r2 := Read(r1, us[1]).reader;
    assert ReadAll(r2, []).events == [];
    assert ReadAll(r1, us[1..]).events == [AddEvent(name, ProgressIncrement, ProgressIncrement)];
  }

  /** The rule the progress aggregator evidently relies on: end of file sends
      an event only when some bytes are still unreported, so a file's
      completion is reported once.  The 1 MiB rule is unchanged. */
  function ReadFixed(r: Reader, u: ReadResult): (s: ReadStep)
    ensures s.n == u.n && s.err == u.err
    ensures s.reader.path == r.path && s.reader.size == r.size
    ensures s.reader.bytes == r.bytes + u.n
    ensures s.event.Some? <==>
      (r.bytes + u.n - r.lastProgress >= ProgressIncrement || (u.err == Eof && r.bytes + u.n > r.lastProgress))
    ensures s.event.Some? ==>
      s.event.value == AddEvent(r.path, r.bytes + u.n, r.size) && s.reader.lastProgress == r.bytes + u.n
    ensures s.event.None? ==> s.reader.lastProgress == r.lastProgress
  {
    var bytes := r.bytes + u.n;
    if bytes - r.lastProgress >= ProgressIncrement || (u.err == Eof && bytes > r.lastProgress) then
      ReadStep(r.(bytes := bytes, lastProgress := bytes), u.n, u.err, Some(AddEvent(r.path, bytes, r.size)))
    else
      ReadStep(r.(bytes := bytes), u.n, u.err, None)
  }

  function ReadAllFixed(r: Reader, us: seq<ReadResult>): Trace
    decreases |us|
  {
    if us == [] then Trace(r, [])
    else
      var s := ReadFixed(r, us[0]);
      var t := ReadAllFixed(s.reader, us[1..]);
      Trace(t.reader, (if s.event.Some? then [s.event.value] else []) + t.events)
  }

  lemma TailNonNegative(us: seq<ReadResult>)
    requires NonNegative(us) && us != []
    ensures NonNegative(us[1..])
  {
    forall i | 0 <= i < |us[1..]| ensures us[1..][i].n >= 0 { assert us[1..][i] == us[i + 1]; }
  }

  /** Under the corrected rule the count stays exact, the reported mark never
      passes the count, and the last event sets the mark. */
  lemma {:induction false} FixedCounts(r: Reader, us: seq<ReadResult>)
    requires NonNegative(us) && 0 <= r.lastProgress <= r.bytes
    ensures var t := ReadAllFixed(r, us);
      && t.reader.bytes == r.bytes + Total(us)
      && t.reader.path == r.path && t.reader.size == r.size
      && r.lastProgress <= t.reader.lastProgress <= t.reader.bytes
      && (|t.events| > 0 ==> t.events[|t.events| - 1].bytes == t.reader.lastProgress)
      && (|t.events| == 0 ==> t.reader.lastProgress == r.lastProgress)
    decreases |us|
  {
    if us != [] {
      TailNonNegative(us);
      FixedCounts(ReadFixed(r, us[0]).reader, us[1..]);
    }
  }

  /** Under the corrected rule every event names the reader's path and size
      and reports strictly more bytes than the one before, all above the mark
      at the start. */
  lemma {:induction false} FixedEventsIncrease(r: Reader, us: seq<ReadResult>)
    requires NonNegative(us) && 0 <= r.lastProgress <= r.bytes
    ensures var t := ReadAllFixed(r, us);
      && (forall i | 0 <= i < |t.events| ::
            t.events[i].name == r.path && t.events[i].size == r.size &&
            r.lastProgress < t.events[i].bytes <= t.reader.bytes)
      && (forall i, j | 0 <= i < j < |t.events| :: t.events[i].bytes < t.events[j].bytes)
    decreases |us|
  {
    if us != [] {
      var s := ReadFixed(r, us[0]);
      TailNonNegative(us);
      FixedEventsIncrease(s.reader, us[1..]);
      FixedCounts(s.reader, us[1..]);
    }
  }

  /** Under the corrected rule, when the last read reports end of file and
      bytes were read since the last mark, the last event carries the final
      count. */
  lemma {:induction false} FixedEofLast(r: Reader, us: seq<ReadResult>)
    requires NonNegative(us) && 0 <= r.lastProgress <= r.bytes
    requires |us| > 0 && us[|us| - 1].err == Eof && r.bytes + Total(us) > r.lastProgress
    ensures var t := ReadAllFixed(r, us);
      |t.events| > 0 && t.events[|t.events| - 1] == AddEvent(r.path, t.reader.bytes, r.size)
    decreases |us|
  {
    var s := ReadFixed(r, us[0]);
    FixedCounts(r, us);
    if |us| == 1 {
      assert us[1..] == [];
    } else {
      TailNonNegative(us);
      assert us[1..][|us[1..]| - 1] == us[|us| - 1];
      FixedCounts(s.reader, us[1..]);
      if s.reader.bytes + Total(us[1..]) > s.reader.lastProgress {
        FixedEofLast(s.reader, us[1..]);
      } else {
        TotalNonNegative(us[1..]);
        FixedEventsIncrease(s.reader, us[1..]);
        assert ReadAllFixed(s.reader, us[1..]).events == [];
      }
    }
  }
}

=== FILE: results.dfy ===
/** Failure-compatible result and option types used for the Go `(value, error)` returns. */
module Results {

  datatype Option<+T> = None | Some(value: T)

  datatype Result<+T, +E> = Ok(value: T) | Err(error: E) {

    predicate IsFailure() {
      Err?
    }

    function PropagateFailure<U>(): Result<U, E>
      requires Err?
    {
      Err(error)
    }

    function Extract(): T
      requires Ok?
    {
      value
    }
  }
}

=== FILE: usage.dfy ===
/**
  The storage-usage monitor of usage.go: a scan that sums the sizes of every
  entry under the repository path, the periodic step that refreshes the
  figure, and the threshold test.

  The file system is an input: the tree `filepath.Walk` would visit, each
  entry carrying the size `Lstat` reports and whether reaching it (`Lstat`,
  or listing a directory) fails.  The ticker goroutine is the `Tick` step.
*/
module Usage {
  import opened Results

  /** 2^64: `usage` is a `uint64` and the scan adds into it with wrap-around. */
  const U64: nat := 0x1_0000_0000_0000_0000

  /** Defaults: five minutes in nanoseconds (a `time.Duration`) and 70 percent. */
  const DefaultScanInterval: int := 5 * 60 * 1000 * 1000 * 1000
  const DefaultThreshold: real := 70.0

  datatype FsNode = FsNode(size: nat, unreadable: bool, children: seq<FsNode>)

  /** The sum of the sizes of an entry and everything below it. */
  function TreeSize(t: FsNode): nat
    decreases t, 1
  {
    t.size + ForestSize(t.children)
  }

  function ForestSize(ts: seq<FsNode>): nat
    decreases ts, 0
  {
    if ts == [] then 0 else TreeSize(ts[0]) + ForestSize(ts[1..])
  }

  /** Some entry of the tree cannot be reached: the walk fails. */
  predicate Broken(t: FsNode)
    decreases t, 1
  {
    t.unreadable || ForestBroken(t.children)
  }

  predicate ForestBroken(ts: seq<FsNode>)
    decreases ts, 0
  {
    ts != [] && (Broken(ts[0]) || ForestBroken(ts[1..]))
  }

  function TreeCount(t: FsNode): nat
    decreases t, 1
  {
    1 + ForestCount(t.children)
  }

  function ForestCount(ts: seq<FsNode>): nat
    decreases ts, 0
  {
    if ts == [] then 0 else TreeCount(ts[0]) + ForestCount(ts[1..])
  }

  lemma {:induction false} ForestAppend(a: seq<FsNode>, b: seq<FsNode>)
    ensures ForestSize(a + b) == ForestSize(a) + ForestSize(b)
    ensures ForestBroken(a + b) <==> ForestBroken(a) || ForestBroken(b)
    ensures ForestCount(a + b) == ForestCount(a) + ForestCount(b)
    decreases |a|
  {
    if a != [] {
      assert (a + b)[1..] == a[1..] + b;
      ForestAppend(a[1..], b);
    } else {
      assert a + b == b;
    }
  }

  /** `getStorageUsage`: a pre-order walk that adds each entry's size into a
      64-bit counter; any unreachable entry ends it with `(0, err)`. */
  method GetStorageUsage(root: FsNode) returns (usage: nat, ok: bool)
    ensures ok <==> !Broken(root)
    ensures ok ==> usage == TreeSize(root) % U64
    ensures !ok ==> usage == 0
    ensures usage < U64
  {
    usage := 0;
    var pending := [root];
    assert pending[1..] == [];
    while pending != []
      invariant usage < U64
      invariant (usage + ForestSize(pending)) % U64 == TreeSize(root) % U64
      invariant Broken(root) <==> ForestBroken(pending)
      decreases ForestCount(pending)
    {
      var t := pending[0];
      if t.unreadable {
        return 0, false;
      }
      var rest := pending[1..];
      ForestAppend(t.children, rest);
      assert ForestCount(pending) == 1 + ForestCount(t.children) + ForestCount(rest);
      assert ForestSize(pending) == t.size + ForestSize(t.children) + ForestSize(rest);
      usage := (usage + t.size) % U64;
      pending := t.children + rest;
    }
    return usage, true;
  }

  /** The monitor's state. */
  datatype Monitor = Monitor(repoPath: string, maxStorage: nat, usage: nat, scanInterval: int, threshold: real)

  /** `NewStorageUsage`: defaults, then the initial scan, which must succeed. */
  method NewStorageUsage(repoPath: string, maxStorage: nat, tree: FsNode) returns (r: Result<Monitor, string>)
    ensures r.Ok? <==> !Broken(tree)
    ensures r.Ok? ==> r.value == Monitor(repoPath, maxStorage, TreeSize(tree) % U64, DefaultScanInterval, DefaultThreshold)
  {
    var size, ok := GetStorageUsage(tree);
    if !ok {
      return Err("scan failed");
    }
    return Ok(Monitor(repoPath, maxStorage, size, DefaultScanInterval, DefaultThreshold));
  }

  /** One tick of `loop`: a failed scan keeps the old figure, a successful one
      replaces it. */
  method Tick(m: Monitor, tree: FsNode) returns (n: Monitor)
    ensures Broken(tree) ==> n == m
    ensures !Broken(tree) ==> n == m.(usage := TreeSize(tree) % U64)
  {
    var size, ok := GetStorageUsage(tree);
    if !ok {
      return m;
    }
    return m.(usage := size);
  }

  function SetScanInterval(m: Monitor, scanInterval: int): (n: Monitor)
    ensures n.scanInterval == scanInterval && n == m.(scanInterval := n.scanInterval)
  {
    m.(scanInterval := scanInterval)
  }

  function SetThreshold(m: Monitor, threshold: real): (n: Monitor)
    ensures n.threshold == threshold && n == m.(threshold := n.threshold)
  {
    m.(threshold := threshold)
  }

  /** A float64 percentage: finite, or what `x / 0` gives. */
  datatype Percent = Finite(value: real) | PlusInfinity | NotANumber

  /** `UsagePercentage`: usage over the maximum, times 100; a zero maximum
      gives +Inf for a non-zero usage and NaN for a zero one. */
  function UsagePercentage(m: Monitor): (p: Percent)
    ensures m.maxStorage > 0 <==> p.Finite?
    ensures p.Finite? ==> p.value * (m.maxStorage as real) == (m.usage as real) * 100.0
    ensures m.maxStorage == 0 ==> (p.PlusInfinity? <==> m.usage > 0)
  {
    if m.maxStorage == 0 then (if m.usage > 0 then PlusInfinity else NotANumber)
    else Finite((m.usage as real) / (m.maxStorage as real) * 100.0)
  }

  /** `IsFull`: the percentage reached the threshold (no NaN compares true).
      With no maximum, any usage at all is full and an empty repository is
      not; `IsFullCross` covers a positive maximum. */
  function IsFull(m: Monitor): (full: bool)
    ensures m.maxStorage == 0 ==> (full <==> m.usage != 0)
  {
    match UsagePercentage(m)
    case Finite(v) => v >= m.threshold
    case PlusInfinity => true
    case NotANumber => false
  }

  /** With a positive maximum, fullness is the cross-multiplied comparison
      `usage * 100 >= threshold * maxStorage`. */
  lemma IsFullCross(m: Monitor)
    requires m.maxStorage > 0
    ensures IsFull(m) <==> (m.usage as real) * 100.0 >= m.threshold * (m.maxStorage as real)
  {
    var v := UsagePercentage(m).value;
    var mx := m.maxStorage as real;
    assert v * mx == (m.usage as real) * 100.0;
    if v >= m.threshold {
      assert v * mx >= m.threshold * mx;
    } else {
      assert v * mx < m.threshold * mx;
    }
  }

  /** The repository's test setting, 1024 bytes at 70 percent: full from 717
      bytes on. */
  lemma KibibyteAtSeventy(m: Monitor)
    requires m.maxStorage == 1024 && m.threshold == 70.0
    ensures IsFull(m) <==> m.usage >= 717
  {
    IsFullCross(m);
    assert (m.usage as real) * 100.0 >= 70.0 * 1024.0 <==> m.usage * 100 >= 71680;
  }
}
